=== FILE: README.md ===
# yogitrack, modelled in Dafny

YogiTrack manages a yoga studio. It stores classes, customers, instructors,
packages, sales, check-ins (attendance) and staff users, and shows them
through a set of forms. This project models the logic behind those
records:

- the endpoints that add and delete records;
- the sequential ID generators;
- the weekly schedule-conflict check, in all three of its copies;
- the class-balance ledger that sales credit and check-ins debit;
- the four manager reports and the dashboard statistics;
- the login check;
- the public schedule page, which groups slots by weekday;
- the selection list on the attendance page.

The record store is a `Records.Store`: one sequence of immutable records per
collection, in insertion order. Every handler is a pure function from the
store and the request to the new store and the response. The clock, the
calendar and the user's answers to confirmation prompts are parameters.

Modules follow the source files:

- `Ids` holds the shared ID rules.
- `Schedule` holds the conflict scan.
- `ClassController`, `CustomerController`, `InstructorController`,
  `PackageController`, `SaleController`, `AttendanceController`, `Reports`,
  `Dashboard` and `Auth` model the Express controllers.
- `ClassPages`, `PublicSchedule` and `AttendancePage` model the client pages.
- `Text`, `Seqs` and `Groups` are helpers:
  - `Text`: digits, zero padding, string order, trimming;
  - `Seqs`: first index, filter, removal;
  - `Groups`: the group-by folds and their sums.

JavaScript's values are modelled where they matter:

- `Records.Num` is a number or NaN. Adding NaN gives NaN, and `OrZero` is
  `|| 0`.
- An absent field is `None`, or `""` for falsy strings.
- Money is an integer.

Behaviour of the code that a reader might not expect, and that the model
keeps:

- **Next string ID.** The next number is read from the suffix of the
  string-greatest ID, not from the numeric maximum over all IDs.
  `Ids.RolloverRepeatsId` and `PackageController.SharedCounterRepeatsId` show
  two stores where this hands out an ID that is already taken.
- **Customer IDs.** `add` assigns "Y" and 3 digits. The preview endpoint shows
  "C" and 5 digits, which `add` never stores.
- **Failed conflict scan.** A scan that throws answers "no conflict", so the
  check fails open.
- **Package add.** `add` never sets the dates the package schema requires, so
  every complete request ends in 500 (see Findings).

## Model

| member | source | states |
|---|---|---|
| Ids.Greatest | controllers/classController.cjs:113-117 | The ID a descending string sort puts first is stored, and no stored ID is string-greater. |
| Ids.SuffixNumber | controllers/classController.cjs:120-125 | There is no number exactly when the ID ends in no digit. |
| Ids.NextNumber | controllers/classController.cjs:119-126 | The next number is at least 1, and 1 for an empty collection. |
| Ids.RenderRoundTrip | controllers/classController.cjs:122-127 | Reading back the suffix of a rendered ID (prefix not ending in a digit) gives the number it was rendered from, whatever the padding. |
| Ids.FixedWidthSuffix | controllers/classController.cjs:122 | For an ID that is the prefix plus exactly `width` digits, the trailing-digit match is exactly those digits. |
| Ids.SuffixFollowsStringOrder | controllers/classController.cjs:113-124 | Between two IDs of one prefix and one width, the string-greater one has the greater number. |
| Ids.FreshUnderFixedWidth | controllers/classController.cjs:113-127 | When every stored ID is one prefix plus a fixed number of digits, the next number exceeds every stored suffix and the rendered ID is new. |
| Ids.RenderKeepsFixedWidth | controllers/classController.cjs:127 | A number below 10^width renders in exactly that width, so appending it keeps the IDs fixed-width. |
| Ids.NextAfterAppendDiffers | controllers/classController.cjs:113-127 | While the IDs stay fixed-width, storing the generated ID moves the generator on to a different ID. |
| Ids.RolloverNextNumber | controllers/classController.cjs:113-126 | With A999 and A1000 stored, A999 sorts last and the next number is 1000. |
| Ids.RolloverRepeatsId | controllers/classController.cjs:113-127 | With A999 and A1000 stored, the generator hands out A1000 again. |
| Ids.DecimalWidth | controllers/classController.cjs:127 | `n.toString()` fits in w characters exactly when n < 10^w. |
| Ids.PaddingWidthsAgree | controllers/packageController.cjs:74 | Padding one number to two widths gives the same ID exactly when the number already needs the wider width. |
| Ids.NextSeq | controllers/saleController.cjs:127-136 | One past the greatest stored numeric ID: above every stored ID, with its predecessor stored; 1 when there are none. |
| Text.NumberOf | controllers/classController.cjs:52 | `Number` on a time field, for the integer forms: surrounding white space is ignored, blank reads 0, digits their value, a signed run its signed value, anything else NaN. |
| Text.NumberOfDecimal | controllers/classController.cjs:52 | A rendered number reads back as itself, with or without white space around it. |
| Text.NumberOfNegative | controllers/classController.cjs:52 | A minus sign in front of a rendered number reads as its negation. |
| Schedule.MinutesOfClockTime | controllers/classController.cjs:52-53 | "HH:MM" made of digits is worth hours × 60 + minutes. |
| Schedule.TrailingSpaceIgnored | controllers/classController.cjs:52-53 | White space after the minutes does not change the reading: "9:00 " is worth as much as "9:00". |
| Schedule.NoColonIsNaN | controllers/classController.cjs:52-53 | A time without a colon has no minutes field, so it reads as NaN. |
| Schedule.SlotMinutes | controllers/classController.cjs:62 | A stored slot lasts its own non-zero duration, and 60 when the duration is absent or 0. |
| Schedule.CandidateOf | controllers/classController.cjs:52-54 | The proposed interval starts at the parsed time and lasts the duration. It is NaN when either is NaN, and throws when there is no time string. |
| Schedule.ScanFrom | controllers/classController.cjs:56-77 | A reported conflict is at a stored class that hits, and every class before it passes. No conflict means every class passes, or one throws after all earlier ones pass. |
| Schedule.ScanNamesItsStop | controllers/classController.cjs:56-77 | The class a scan names is the first in store order that hits, and no class before it throws. |
| Schedule.Scan | controllers/classController.cjs:47-82 | An unsplittable proposed time gives no conflict. A conflict is the first hit in store order. No conflict means every class passes or one throws first. |
| Schedule.ServerCheck | controllers/classController.cjs:47-82 | A conflict names a stored class whose first slot is on the day, with both times parsed and the half-open intervals overlapping, the stored one lasting `duration \|\| 60`. When no class has a first slot on the day, the answer is no conflict. |
| Schedule.ReactCheck | client/src/pages/Class.js:117-152 | The check skips the selected class, and without one it answers as the server does. On the page the skip never applies to a save: a class can be selected only in search mode (Class.js:302-315), and entering add mode clears the selection (Class.js:162-180). |
| Schedule.LegacyCheck | public/js/class.js:226-260 | The legacy page answers as the server and as the React page without a selection do, so it has no self-exclusion. |
| Schedule.OverlapSymmetric | controllers/classController.cjs:65 | Half-open overlap is symmetric. |
| Schedule.SlotsConflictSymmetric | controllers/classController.cjs:59-65 | Slot conflict (same day, overlapping intervals) is symmetric. |
| Schedule.TouchingSlotsDoNotConflict | controllers/classController.cjs:59-65 | A slot starting exactly when another ends conflicts with it in neither direction. |
| Schedule.ExamineIsSlotConflict | controllers/classController.cjs:57-65 | For a proposed slot with a time, one scan step hits exactly when the slot conflicts with the stored class's first slot. |
| Schedule.FaultHidesLaterClasses | controllers/classController.cjs:78-81 | Once a stored class throws, the answer is "no conflict" whatever follows. |
| Schedule.FailOpenHidesConflict | controllers/classController.cjs:56-81 | A same-day class without a time, stored before a class that overlaps, hides a conflict the scan reports without it. |
| Schedule.NaNNeverConflicts | controllers/classController.cjs:52-65 | A proposed time that reads as NaN never conflicts. |
| Schedule.NaNSlotNeverHits | controllers/classController.cjs:60-65 | A stored first slot whose time reads as NaN never hits. |
| Schedule.OnlyFirstSlotCounts | controllers/classController.cjs:57-58 | A class with no slots passes. Slots after the first make no difference. |
| Schedule.ClassNeverConflictsWithItself | client/src/pages/Class.js:126-129 | The check never reports the selected class as conflicting with itself. On the page no class is selected when saving, so this exclusion is never reached from a save. |
| ClassController.NextClassId | controllers/classController.cjs:113-127 | "A" plus a suffix that reads back as the next number. It is new when all stored IDs are "A" plus 3 digits. |
| ClassController.RateOr45 | controllers/classController.cjs:137 | A missing or zero pay rate becomes 45; any other rate is kept. |
| ClassController.CheckConflict | controllers/classController.cjs:31-44 | 400 exactly when day or time is missing. Otherwise the server scan runs with the given non-zero duration, or 60. |
| ClassController.ProposedConflict | controllers/classController.cjs:101-110 | An empty `daytime` checks nothing. A reported conflict really overlaps the named class's first slot. |
| ClassController.AddClass | controllers/classController.cjs:85-150 | 400 exactly when a required field is missing. 409 exactly when the check of the first proposed slot reports a conflict, which is the one the response carries. Nothing is stored in either case. Otherwise the class is appended with the next ID and `payRate \|\| 45`. |
| ClassController.AddedClassConflictsWithNone | controllers/classController.cjs:101-110 | When every stored first slot has a time, an added class's first slot conflicts with none of them. |
| ClassController.AddKeepsScheduleConflictFree | controllers/classController.cjs:101-141 | Adding keeps a fully timed, pairwise conflict-free schedule conflict-free. |
| ClassController.DeleteClass | controllers/classController.cjs:173-186 | 404 exactly when no class has the ID, with nothing changed. Otherwise the first class with it is removed and nothing else changes. |
| ClassController.AddThenDeleteRestores | controllers/classController.cjs:173-186 | With fixed-width IDs, deleting the class just added gives back the original store. |
| ClassPages.EmptyForm | client/src/pages/Class.js:168-181 | The cleared form is empty, with type General, duration 60 and pay rate 45. |
| ClassPages.SelectClass | client/src/pages/Class.js:76-109 | Selecting a class fills the form from it and its first slot. With no slot: empty day and time, duration 60. |
| ClassPages.ReactSave | client/src/pages/Class.js:184-243 | It does nothing outside add mode. It warns when a raw required field is empty. When the user declines at a conflict, nothing is sent. Otherwise the trimmed payload has one slot and the defaulted duration and rate. |
| ClassPages.LegacySave | public/js/class.js:32-101 | The payload is built and trimmed first, then validated, then conflict-checked with `parseInt(duration) \|\| 60`. What is posted is exactly the trimmed names and description, the radio button's type, one slot with the defaulted duration, and `parseFloat(payRate) \|\| 45`. |
| ClassPages.BlankNameHandledDifferently | client/src/pages/Class.js:190-210 | A class name of blanks only: the React page posts it trimmed to "" and the server answers 400; the legacy page stops at its own warning. |
| ClassPages.ConfirmedConflictIsRejected | client/src/pages/Class.js:196-201 | When the user proceeds past a conflict the page found, the server's own check rejects the same slot with 409. |
| ClassPages.SelectThenSaveReproducesClass | client/src/pages/Class.js:95-222 | The form filling and the payload building are inverse: a form holding a one-slot class's values, as selecting it fills them, posts that class's slot, type and pay rate. The page itself never saves a selected class, because add mode starts from a cleared form; the values have to be typed in. |
| CustomerController.AssignedCustomerId | controllers/customerController.cjs:105-119 | "Y" plus a suffix that reads back as the next number. It is new when all stored IDs are "Y" plus 3 digits. |
| CustomerController.PreviewCustomerId | controllers/customerController.cjs:67-84 | "C" plus the same next number, padded to 5. |
| CustomerController.PreviewNeverMatchesAssigned | controllers/customerController.cjs:82-119 | The preview carries the assigned ID's number but is never the ID `add` stores. |
| CustomerController.AddCustomer | controllers/customerController.cjs:87-144 | 400 exactly when first name, last name, email or phone is missing, with nothing stored. Otherwise the customer is appended with the assigned ID, `senior \|\| false` and balance 0. |
| CustomerController.AddCustomerIgnoresClientId | controllers/customerController.cjs:89-97 | A client-sent customer ID makes no difference to the store or the response. |
| CustomerController.DeleteCustomer | controllers/customerController.cjs:147-160 | 404 exactly when no customer has the ID. Otherwise the first one with it is removed; sales and check-ins stay. |
| CustomerController.AddThenDeleteRestores | controllers/customerController.cjs:147-160 | With fixed-width IDs, deleting the customer just added gives back the original store. |
| InstructorController.NextInstructorId | controllers/instructorController.cjs:66-81 | "I" plus a suffix that reads back as the next number. It is new when all stored IDs are "I" plus 5 digits. |
| InstructorController.AddInstructor | controllers/instructorController.cjs:61-104 | 400 exactly when a required field is missing, with nothing stored. Otherwise the instructor is appended with the next ID, the one `getNextId` previews. |
| InstructorController.AppendedIdIsNotNext | controllers/instructorController.cjs:120-136 | Once the previewed ID is stored, the preview moves on to a different ID. |
| InstructorController.SuccessiveAddsGetDistinctIds | controllers/instructorController.cjs:66-95 | Two adds in a row hand out different IDs while the IDs stay fixed-width. |
| InstructorController.DeleteInstructor | controllers/instructorController.cjs:139-150 | 404 exactly when no instructor has the ID. Otherwise the first one with it is removed; classes stay. |
| InstructorController.AddThenDeleteRestores | controllers/instructorController.cjs:139-150 | With fixed-width IDs, deleting the instructor just added gives back the original store. |
| PackageController.AssignedPackageId | controllers/packageController.cjs:99-121 | "S" for Senior or "P" otherwise, plus a suffix that reads back as the next number of the shared counter. |
| PackageController.PreviewPackageId | controllers/packageController.cjs:59-76 | "P" plus the next number, padded to 4. |
| PackageController.PreviewMatchesOnlyFromThousand | controllers/packageController.cjs:59-121 | The preview is the assigned ID exactly for a non-Senior package once the counter reaches 1000. |
| PackageController.SharedCounterRepeatsId | controllers/packageController.cjs:100-121 | With P001, P002 and S001 stored, S001 sorts last, so the next General package gets P002 again. |
| PackageController.AddPackageAsWritten | controllers/packageController.cjs:79-147 | As the code stands: 400 exactly when name, category, class count, class type or a truthy price is missing, and 500 for every other request, because the document lacks the required dates. Nothing is ever stored. |
| PackageController.AsWrittenRefusesWhatIsAccepted | models/packageModel.cjs:6-16 | A request whose enums and price the schema accepts fails through the code as written and is stored once the dates are supplied. |
| PackageController.AddPackage | controllers/packageController.cjs:79-147 | With the required dates supplied: 400 exactly for a missing field, and 500 exactly when the category, class count or class type is outside its enum or the price is NaN. Nothing is stored in either case. Otherwise the package is appended with the assigned ID. |
| PackageController.GeneralAddIsFreshUnderFixedWidth | controllers/packageController.cjs:99-121 | When every stored ID is "P" plus 3 digits, a non-Senior package gets a new ID. |
| PackageController.SeniorAddIsFreshUnderFixedWidth | controllers/packageController.cjs:99-121 | When every stored ID is "P" plus 3 digits, a Senior package's "S" ID is new. |
| PackageController.GeneralIdIsFresh | controllers/packageController.cjs:99-121 | When every stored ID is "P" plus 3 digits, the "P" ID the shared counter gives next is not among them. |
| PackageController.SeniorIdIsFresh | controllers/packageController.cjs:99-121 | When every stored ID is "P" plus 3 digits, an "S" ID is not among them. |
| PackageController.AddedIdIsFreshUnderFixedWidth | controllers/packageController.cjs:99-121 | When every stored ID is "P" plus 3 digits, the ID of a package of either category is new. |
| PackageController.DeletePackage | controllers/packageController.cjs:150-166 | 404 exactly when no package has the ID. Otherwise the first one with it is removed; sales stay. |
| PackageController.AddThenDeleteRestores | controllers/packageController.cjs:150-166 | With fixed-width IDs, deleting the package just added, of either category, gives back the original store. |
| SaleController.FirstValidity | controllers/saleController.cjs:122 | The regex's leftmost match and its maximal digit capture, or no match anywhere. |
| SaleController.MonthsValid | controllers/saleController.cjs:121-123 | The months of validity are the number in the leftmost "Valid for N month", or 1 when there is none. |
| SaleController.MonthsValidOfLeadingPhrase | controllers/saleController.cjs:122-123 | A description starting "Valid for N month" is valid for N months, 0 included. |
| SaleController.NoPhraseMeansOneMonth | controllers/saleController.cjs:123 | A description without the phrase is valid for 1 month. |
| SaleController.Credit | controllers/saleController.cjs:138-161 | '1', '4', '10' and 'unlimited' credit 1, 4, 10 and 999 classes; anything else credits none. |
| SaleController.NextSaleId | controllers/saleController.cjs:126-136 | Above every stored sale ID, with its predecessor stored; 1 when there are no sales. |
| SaleController.AddSale | controllers/saleController.cjs:86-205 | Checks in order: 400 for a missing field, then 404 for the package, then 404 for the customer. Then 500 exactly when the package has no description, the amount is NaN, or the payment mode is outside the schema's enum. None of these changes anything. Otherwise the sale is stored with the next ID and the parsed validity, and the buyer gains the credit reported as the new balance. |
| SaleController.SaleCreditsBuyerOnly | controllers/saleController.cjs:182-189 | A recorded sale raises the total balance by exactly the credit and changes no other customer. |
| SaleController.DeleteSale | controllers/saleController.cjs:208-226 | 500 exactly when the ID parses to NaN, and 404 exactly when no sale has the parsed ID; neither changes anything. Otherwise the first such sale is removed; balances are never touched. |
| SaleController.DeleteKeepsCredit | controllers/saleController.cjs:208-226 | Deleting the sale just recorded restores the sales but keeps the credit. |
| SaleController.SearchSales | controllers/saleController.cjs:9-29 | 404 exactly when the customer has no sale. Otherwise the k-th result is the customer's k-th stored sale, so every one of them appears once, in store order. |
| SaleController.RecordedSaleIsSearchedLast | controllers/saleController.cjs:9-205 | After a sale is recorded, a search for its buyer finds the buyer's earlier sales followed by the new one. |
| AttendanceController.NextCheckinId | controllers/attendanceController.cjs:52-62 | Above every stored check-in ID, with its predecessor stored; 1 when there are none. |
| AttendanceController.CheckInOne | controllers/attendanceController.cjs:35-93 | An unknown customer or a balance ≤ 0 is an error that changes nothing. Otherwise a record with the next ID is stored and that customer's balance drops by exactly 1. |
| AttendanceController.LastClassThenRefused | controllers/attendanceController.cjs:46-82 | A customer down to one class checks in once and is refused the second time. |
| AttendanceController.CheckInAll | controllers/attendanceController.cjs:33-94 | One outcome per requested ID, in order. Only attendance and customer balances change. |
| AttendanceController.OutcomesSplit | controllers/attendanceController.cjs:96-102 | The successes and the errors together number exactly the IDs processed. |
| AttendanceController.BatchStoresSuccesses | controllers/attendanceController.cjs:33-94 | Exactly the successes are stored, in order, after the existing records. |
| AttendanceController.BatchIdsIncrease | controllers/attendanceController.cjs:52-72 | Each record a batch stores has an ID above every record before it. |
| AttendanceController.BatchTotal | controllers/attendanceController.cjs:74-82 | The total balance drops by exactly the number of successes. |
| AttendanceController.CheckInOneBalances | controllers/attendanceController.cjs:40-82 | One check-in lowers a balance by at most 1, never below 0 from 0 or more, and changes nothing else on a customer. Only the first customer with the ID can change. |
| AttendanceController.BatchBalances | controllers/attendanceController.cjs:33-94 | A batch never raises a balance and never drives a non-negative balance below 0. |
| AttendanceController.RecordAttendance | controllers/attendanceController.cjs:9-108 | 400 exactly without a class ID or a non-empty ID list, and 404 exactly for an unknown class, both changing nothing. Otherwise each ID is reported once and `totalProcessed` is the number of IDs. |
| AttendanceController.Restore | controllers/attendanceController.cjs:156-168 | The first customer with the ID gets one class back; every other customer is unchanged. |
| AttendanceController.DeleteAttendance | controllers/attendanceController.cjs:144-176 | 500 exactly when the ID parses to NaN, and 404 exactly when no record has the parsed ID; neither changes anything. Otherwise the first one is removed and its customer, if still stored, regains a class. |
| AttendanceController.CheckInThenRestore | controllers/attendanceController.cjs:156-168 | Giving the class back after a successful check-in restores every balance. |
| AttendanceController.CheckInThenDeleteRestores | controllers/attendanceController.cjs:144-176 | Deleting the check-in just made gives back the original store. |
| AttendanceController.Stats | controllers/attendanceController.cjs:179-223 | At most 100 matching records, counted per class, with `recentAttendance` their first 10. |
| AttendanceController.StatsCountsAddUp | controllers/attendanceController.cjs:196-218 | Each class is listed once, and each count is exactly that class's returned records. The counts sum to `totalRecords` ≤ 100. |
| AttendanceController.InstructorOverridesClass | controllers/attendanceController.cjs:185-194 | With an instructor given, the class parameter makes no difference. |
| Reports.LinesDescribeGroups | controllers/reportsController.cjs:34-55 | The lines have distinct package IDs and cover every sale sold. Each line's count, revenue and customers are exactly its package's sales; its name is the package's, or 'Unknown'. |
| Reports.PackageSales | controllers/reportsController.cjs:12-72 | Sales are filtered by inclusive optional bounds. The totals are their count and NaN-propagating sum. There is one line per package sold, with distinct IDs, describing exactly that package's sales. |
| Reports.PackageTotalsAgree | controllers/reportsController.cjs:34-61 | The per-package counts and revenues add up to the report's totals, NaN included. |
| Reports.InstructorPerformance | controllers/reportsController.cjs:75-124 | One line per instructor in store order: their classes, and the check-ins whose class is among them. Month and year are echoed. |
| Reports.PerformanceIgnoresPeriod | controllers/reportsController.cjs:79-116 | The period asked for changes nothing but the echo. |
| Reports.ClassesCountedOnce | controllers/reportsController.cjs:86-103 | With unique instructor IDs, the class counts add up to the number of classes with a stored instructor. |
| Reports.CheckInsAreSumOverClasses | controllers/reportsController.cjs:92-98 | When an instructor's class IDs are distinct, their check-in count is the sum of each class's own check-ins. |
| Reports.TeacherPay | controllers/reportsController.cjs:199-275 | The month is echoed 1-based (the current month by default), with the window taken for the 0-based month. One entry per instructor, each its classes' window pay. The payroll is the sum of the entries. |
| Reports.PayrollPaysEachClassOnce | controllers/reportsController.cjs:214-268 | With unique instructor IDs, the payroll is what the classes with a stored instructor earn in the window, each paid once. |
| Reports.StatusAt | controllers/reportsController.cjs:151-159 | Active exactly when start ≤ now ≤ end, future exactly when now < start, expired exactly when end < now from a past start. |
| Reports.StatusOnlyMovesForward | controllers/reportsController.cjs:151-159 | As time passes a status only moves from future to active to expired. |
| Reports.Held | controllers/reportsController.cjs:139-171 | One entry per sale whose package is still stored, in sale order, skipping the others. |
| Reports.ActiveCount | controllers/reportsController.cjs:187-188 | A customer's active entries are exactly the sales of stored packages active now. |
| Reports.CustomerPackages | controllers/reportsController.cjs:127-196 | One line per customer. `totalCustomers` is their number; `totalActivePackages` is the sum of each line's active entries. |
| Reports.ActivePackagesCountedOnce | controllers/reportsController.cjs:184-189 | With unique customer IDs, each active sale by a stored customer is counted once, so the total never exceeds the number of sales. |
| Dashboard.Stats | controllers/dashboardController.cjs:10-45 | The three totals are the collection sizes. The revenue is the sum of `amountPaid \|\| 0` over the sales paid within the month's window. |
| Dashboard.RecordedSaleRaisesRevenue | controllers/dashboardController.cjs:26-37 | A new sale raises the revenue by its amount exactly when it is paid within the month. |
| Dashboard.AgreesWithSalesReport | controllers/dashboardController.cjs:33-37 | Over one window the sales report's revenue is NaN exactly when some amount is NaN, and otherwise equals the dashboard's. |
| PublicSchedule.NormaliseDay | client/src/pages/PublicSchedule.js:50-54 | "Mon" … "Sun" become full names and full names pass unchanged. The result is a weekday exactly when the day is a weekday or an abbreviation. |
| PublicSchedule.ExpandMembers | client/src/pages/PublicSchedule.js:46-62 | An entry is listed exactly when it comes from some slot of some class. |
| PublicSchedule.BucketIsFilter | client/src/pages/PublicSchedule.js:40-63 | Each of the seven buckets, starting empty, ends up holding exactly its day's entries, in order. |
| PublicSchedule.BucketsHoldRecognised | client/src/pages/PublicSchedule.js:56 | The buckets together hold exactly the entries on a recognised day. |
| PublicSchedule.Insert | client/src/pages/PublicSchedule.js:92-93 | Inserting adds exactly the entry and keeps a time-ordered list ordered. |
| PublicSchedule.SortByTime | client/src/pages/PublicSchedule.js:92-93 | The sorted list is a permutation in ascending time order. |
| PublicSchedule.Schedule | client/src/pages/PublicSchedule.js:40-93 | Seven day cards, each a time-ordered permutation of that day's entries from every slot of every class. |
| PublicSchedule.ScheduleListsRecognisedSlots | client/src/pages/PublicSchedule.js:56-63 | The page lists exactly as many entries as there are slots on a recognised day. |
| AttendancePage.AddCustomer | client/src/pages/Attendance.js:70-81 | It does nothing for an empty choice, an unloaded ID or one already selected. Otherwise the first loaded customer with the ID, which is what `customers.find` returns, is appended. The list stays duplicate-free. |
| AttendancePage.RemoveCustomer | client/src/pages/Attendance.js:84-86 | The ID is gone afterwards, and the k-th remaining entry is the k-th selected entry with another ID, so order and repeats are kept. On a list without repeated IDs it removes exactly the entry with the ID, if any. |
| AttendancePage.AddThenRemove | client/src/pages/Attendance.js:70-86 | Removing a customer just added gives back the list. |
| AttendancePage.Dropdown | client/src/pages/Attendance.js:181-182 | The dropdown offers exactly the loaded customers not yet selected: the k-th option is the k-th such customer in load order. |
| AttendancePage.DropdownChoiceIsAdded | client/src/pages/Attendance.js:181-182 | Choosing an offered customer adds exactly that one entry. |
| AttendancePage.Save | client/src/pages/Attendance.js:94-107 | It warns exactly without a class or a customer. Otherwise it sends the class and the IDs in selection order. |
| AttendancePage.SentRequestIsComplete | client/src/pages/Attendance.js:98-107 | A request the page sends never fails the server's missing-field check. |
| AttendancePage.ClearedFormWarns | client/src/pages/Attendance.js:88-102 | A cleared form has no class and no customers, so saving it warns. |
| Auth.Login | controllers/authController.cjs:7-42 | 400 exactly when a field is empty. Every 401 is the same response. A user is returned exactly on 200: the name and role, never the password, of a user with that name and password. An unknown user gets 401. |
| Auth.FailuresLookAlike | controllers/authController.cjs:20-27 | An unknown user and a wrong password give identical responses. |
| Auth.LoginSucceedsIffCredentialsMatch | controllers/authController.cjs:17-36 | With unique usernames and both fields given, login succeeds exactly when some user has that name and password. |
| Auth.CreateDefaultUser | controllers/authController.cjs:45-68 | Nothing is created exactly when a user named manager exists. Otherwise exactly the manager account is appended. |
| Auth.CreateDefaultUserIdempotent | controllers/authController.cjs:48-52 | A second call finds the account and changes nothing. |
| Auth.CreatedDefaultUserCanLogIn | controllers/authController.cjs:55-62 | The created account keeps usernames unique and logs in with the documented password. |

## Left out

- **I/O and failures.** Databases, HTTP and logging are not modelled. The 500 answers modelled are the ones the request or the stored data cause: a NaN cast, a schema enum or required field, a missing package description. A store operation itself never fails here, and requests run one at a time. The ID race and the lost-update balance race are out of scope.
- **Clock and calendar.**
  - The clock is a parameter, and so is the calendar that turns a year and 0-based month into an instant window (`new Date(y, m, 1)` to `new Date(y, m + 1, 0, 23, 59, 59)`).
  - So is the `setMonth` arithmetic behind a sale's end date.
  - JS `Date` parsing of the report bounds is not modelled: they arrive as instants.
- **Floating point.** Money and pay rates are integers. `parseFloat` is taken as already applied, and `toFixed(2)` is left out.
- **Schema validation.** The package and sale schemas' enums, required dates and number casts are modelled. The number casts of the class schema's `duration` and `payRate` are not: the pages send numbers. Unique indexes are not modelled; where a property needs uniqueness, the lemma assumes it as a precondition.
- **Read-only lookups.** The list, get-one, dropdown-ID and name-search endpoints, `getAttendanceHistory` and `getClassesByInstructor` are not modelled. The name searches depend on case-insensitive `$regex` matching.
- **UI plumbing.** Rendering, snackbars, the handling of the response after a save, mode switching, and the pages other than the class, public schedule and attendance pages are not modelled.
- **Trimming.** `String.prototype.trim` is modelled over ASCII white space only.
- **Month names.** `monthName` in the teacher-pay report (locale formatting) is not modelled.
- **Key order.** The order of the lines of `packageStats` and of the `byClass` entries is not stated. In the code it is the object key order: integer-like keys first in numeric order, then the others in insertion order.
- AttendanceController.Stats: keeps the matching records in store order. The source sorts them newest first before taking 100 and 10, so the model's `recentAttendance` is the first 10 stored, not the 10 newest.
- Reports.TeacherPay: takes `month` and `year` as already-parsed integers. A non-numeric query (`parseInt` giving NaN) is not modelled.
- Reports.CustomerPackages: reads one `now` for all sales. The source creates a fresh `new Date()` per sale.
- PublicSchedule.Schedule: takes `localeCompare` as code-unit order on the time strings, and sorts an absent time as "", so such an entry comes first in its day. On the page, an entry without a time makes the sort throw only when the sort passes it as the comparator's first argument. When it is passed only as the second argument, it compares as the string "undefined" and sorts after the digit times. A day holding only that entry is never compared, and it renders.
- Reports.PackageSales: treats every package ID as an ordinary key. In the code, a sale whose package ID names an `Object.prototype` property ("constructor", "__proto__") finds an inherited object without a `customers` array in `packageStats`: the `Object` function, or `Object.prototype` for "__proto__", which then gets `totalSales` and `totalRevenue` written onto it. The `.customers.push` throws, so the report answers 500.
- AttendanceController.Stats: also treats every class ID as an ordinary key. In the code, a class ID that names an `Object.prototype` property behaves differently. For a name such as "constructor", "toString" or "valueOf", the first `stats[classId]++` starts from the inherited function and stores an own NaN. The next record sees `!NaN`, resets the count to 0 and increments it. So the count is NaN for one record and n−1 for n ≥ 2 records. For "__proto__" the increment is lost.
- Text.NumberOf: reads the integer forms only. `Number` also reads decimals ("9.5"), exponents ("1e1"), hexadecimal ("0x1F") and "Infinity", and strips non-ASCII white space; those read as NaN here.
- Ids.SuffixNumber: reads the suffix digits as an exact integer. `parseInt` loses precision above 2^53, so two very long suffixes can read as the same number in the code.
- Ids.Render: renders with exact decimal digits. `toString` switches to exponent notation from 10^21.
- PackageController.AddPackage: is the corrected endpoint, with the required dates supplied; their values are not modelled. The code as written stores nothing (`AddPackageAsWritten`).
- ClassPages.ReactSave: takes the selected class as a parameter. On the page it is always none when saving, because add mode starts from a cleared form.
- ClassPages.ReactSave: the next ID is the one the preview endpoint computes for the same store. The separate fetch and its race are not modelled.

## Findings

| source | as written | input that shows it | evidently intended | confidence | as-written member | corrected member |
|---|---|---|---|---|---|---|
| controllers/packageController.cjs:121-133 | The new package document never gets `startDate` or `endDate`, which models/packageModel.cjs:13-14 mark required, so `save()` always fails with 500. | Any complete request, e.g. name "Yoga", category "General", classes "4", type "General", price "50". | A valid request stores the package under the assigned ID. | high, not executed | PackageController.AsWrittenRefusesWhatIsAccepted | PackageController.AddPackage |


=== FILE: attendance.dfy ===
/**
 * The check-in endpoints. A batch check-in walks the requested customer IDs in
 * order; each one either succeeds (a check-in record with the next ID, one
 * class taken off the balance) or fails (unknown customer, no classes left)
 * without touching anything, and later IDs see the effect of earlier ones.
 * Deleting a check-in gives the class back. "Now" is a parameter.
 */
module AttendanceController {
  import opened Wrappers
  import opened Records
  import opened Ids
  import opened Seqs
  import opened Groups

  function CheckinIds(attendance: seq<Attendance>): seq<int> {
    seq(|attendance|, i requires 0 <= i < |attendance| => attendance[i].checkinId)
  }

  /** One past the greatest stored checkinId, or 1. */
  function NextCheckinId(attendance: seq<Attendance>): (id: int)
    ensures |attendance| == 0 ==> id == 1
    ensures forall j | 0 <= j < |attendance| :: attendance[j].checkinId < id
    ensures |attendance| > 0 ==> exists j | 0 <= j < |attendance| :: attendance[j].checkinId == id - 1
  {
    var ids := CheckinIds(attendance);
    assert forall j | 0 <= j < |attendance| :: attendance[j].checkinId == ids[j] && ids[j] in ids;
    NextSeq(ids)
  }

  // ---------------------------------------------------------------------------
  // POST record: one customer

  /** An entry of `successful`. */
  datatype CheckIn = CheckIn(customerId: string, checkinId: int, newBalance: int)

  /** An entry of `errors`; the source words these as messages naming the customer. */
  datatype CheckInError = UnknownCustomer(customerId: string) | NoClassesLeft(customerId: string)

  datatype Outcome = Succeeded(entry: CheckIn) | Failed(error: CheckInError) {
    function Subject(): string {
      if Succeeded? then entry.customerId else error.customerId
    }
  }

  /**
   * One turn of the loop: an unknown customer, or one whose balance is not
   * positive, is an error and changes nothing; otherwise a record with the
   * next checkinId is stored and the first customer with the ID loses one class.
   */
  function CheckInOne(store: Store, classId: string, customerId: string, now: int): (r: (Store, Outcome))
    ensures r.1.Subject() == customerId
    ensures r.1.Failed? ==> r.0 == store
    ensures r.1 == Failed(UnknownCustomer(customerId)) <==>
      forall j | 0 <= j < |store.customers| :: store.customers[j].customerId != customerId
    ensures var ci := FirstIndex(store.customers, HasCustomerId(customerId));
      r.1 == Failed(NoClassesLeft(customerId)) <==> ci < |store.customers| && store.customers[ci].classBalance <= 0
    ensures r.1.Succeeded? ==>
      var ci := FirstIndex(store.customers, HasCustomerId(customerId));
      ci < |store.customers| && store.customers[ci].classBalance > 0
      && r.1.entry == CheckIn(customerId, NextCheckinId(store.attendance), store.customers[ci].classBalance - 1)
      && r.0 == store.(
           attendance := store.attendance + [Attendance(r.1.entry.checkinId, customerId, classId, now)],
           customers := store.customers[ci := store.customers[ci].(classBalance := r.1.entry.newBalance)])
  {
    var ci := FirstIndex(store.customers, HasCustomerId(customerId));
    if ci == |store.customers| then (store, Failed(UnknownCustomer(customerId)))
    else
      var customer := store.customers[ci];
      if customer.classBalance <= 0 then (store, Failed(NoClassesLeft(customerId)))
      else
        var id := NextCheckinId(store.attendance);
        var balance := customer.classBalance - 1;
        (store.(attendance := store.attendance + [Attendance(id, customerId, classId, now)],
                customers := store.customers[ci := customer.(classBalance := balance)]),
         Succeeded(CheckIn(customerId, id, balance)))
  }

  /** A customer down to one class checks in once; asked again, the same customer is refused. */
  lemma LastClassThenRefused(store: Store, classId: string, customerId: string, now: int)
    requires var ci := FirstIndex(store.customers, HasCustomerId(customerId));
      ci < |store.customers| && store.customers[ci].classBalance == 1
    ensures var (after, first) := CheckInOne(store, classId, customerId, now);
      first.Succeeded? && first.entry.newBalance == 0
      && CheckInOne(after, classId, customerId, now).1 == Failed(NoClassesLeft(customerId))
  {
    var ci := FirstIndex(store.customers, HasCustomerId(customerId));
    var after := CheckInOne(store, classId, customerId, now).0;
    assert forall j | 0 <= j < |store.customers| :: after.customers[j].customerId == store.customers[j].customerId;
    assert FirstIndex(after.customers, HasCustomerId(customerId)) == ci by {
      FirstIndexAgrees(store.customers, after.customers, HasCustomerId(customerId));
    }
  }

  /** Two sequences whose elements agree on p have the same first p-position. */
  lemma {:induction false} FirstIndexAgrees<T>(s: seq<T>, t: seq<T>, p: T -> bool)
    requires |s| == |t|
    requires forall j | 0 <= j < |s| :: p(s[j]) == p(t[j])
    ensures FirstIndex(s, p) == FirstIndex(t, p)
  {
    if |s| > 0 && !p(s[0]) {
      FirstIndexAgrees(s[1..], t[1..], p);
    }
  }

  // ---------------------------------------------------------------------------
  // POST record: the batch

  /** The loop over `customerIds`, in order, each turn seeing the store the previous turns left. */
  function CheckInAll(store: Store, classId: string, ids: seq<string>, now: int): (r: (Store, seq<Outcome>))
    ensures |r.1| == |ids|
    ensures forall k | 0 <= k < |ids| :: r.1[k].Subject() == ids[k]
    ensures r.0.classes == store.classes && r.0.instructors == store.instructors && r.0.packages == store.packages
      && r.0.sales == store.sales && r.0.users == store.users
    ensures |r.0.customers| == |store.customers|
  {
    if |ids| == 0 then (store, [])
    else
      var (mid, outs) := CheckInAll(store, classId, ids[..|ids| - 1], now);
      var (after, out) := CheckInOne(mid, classId, ids[|ids| - 1], now);
      (after, outs + [out])
  }

  function Successes(outs: seq<Outcome>): seq<CheckIn> {
    if |outs| == 0 then []
    else Successes(outs[..|outs| - 1]) + (if outs[|outs| - 1].Succeeded? then [outs[|outs| - 1].entry] else [])
  }

  function Errors(outs: seq<Outcome>): seq<CheckInError> {
    if |outs| == 0 then []
    else Errors(outs[..|outs| - 1]) + (if outs[|outs| - 1].Failed? then [outs[|outs| - 1].error] else [])
  }

  /** Every outcome is reported once, as a success or as an error. */
  lemma {:induction false} OutcomesSplit(outs: seq<Outcome>)
    ensures |Successes(outs)| + |Errors(outs)| == |outs|
  {
    if |outs| > 0 {
      OutcomesSplit(outs[..|outs| - 1]);
    }
  }

  /** The check-in records a list of successes stores, in order. */
  function RecordsOf(entries: seq<CheckIn>, classId: string, now: int): (r: seq<Attendance>)
    ensures |r| == |entries|
    ensures forall k | 0 <= k < |r| ::
      r[k] == Attendance(entries[k].checkinId, entries[k].customerId, classId, now)
  {
    if |entries| == 0 then []
    else
      var e := entries[|entries| - 1];
      RecordsOf(entries[..|entries| - 1], classId, now) + [Attendance(e.checkinId, e.customerId, classId, now)]
  }

  lemma SuccessesStep(outs0: seq<Outcome>, out: Outcome)
    ensures Successes(outs0 + [out]) == Successes(outs0) + (if out.Succeeded? then [out.entry] else [])
  {
    assert (outs0 + [out])[..|outs0|] == outs0;
  }

  lemma RecordsOfStep(entries: seq<CheckIn>, e: CheckIn, classId: string, now: int)
    ensures RecordsOf(entries + [e], classId, now)
      == RecordsOf(entries, classId, now) + [Attendance(e.checkinId, e.customerId, classId, now)]
  {
    assert (entries + [e])[..|entries|] == entries;
  }

  /** One turn stores exactly the record of its success, if any. */
  lemma CheckInOneStores(store: Store, classId: string, customerId: string, now: int)
    ensures var (after, out) := CheckInOne(store, classId, customerId, now);
      after.attendance == store.attendance + RecordsOf(if out.Succeeded? then [out.entry] else [], classId, now)
  {
    var (after, out) := CheckInOne(store, classId, customerId, now);
    if out.Succeeded? {
      RecordsOfStep([], out.entry, classId, now);
      assert [] + [out.entry] == [out.entry];
    } else {
      assert store.attendance + [] == store.attendance;
    }
  }

  /** Exactly the successes are stored, in order, after the records already there. */
  lemma {:induction false} BatchStoresSuccesses(store: Store, classId: string, ids: seq<string>, now: int)
    ensures var (after, outs) := CheckInAll(store, classId, ids, now);
      after.attendance == store.attendance + RecordsOf(Successes(outs), classId, now)
  {
    if |ids| > 0 {
      var ids0 := ids[..|ids| - 1];
      BatchStoresSuccesses(store, classId, ids0, now);
      var (mid, outs0) := CheckInAll(store, classId, ids0, now);
      var (after, out) := CheckInOne(mid, classId, ids[|ids| - 1], now);
      assert CheckInAll(store, classId, ids, now) == (after, outs0 + [out]);
      CheckInOneStores(mid, classId, ids[|ids| - 1], now);
      SuccessesStep(outs0, out);
      var done := Successes(outs0);
      if out.Succeeded? {
        RecordsOfStep(done, out.entry, classId, now);
        RecordsOfStep([], out.entry, classId, now);
        assert [] + [out.entry] == [out.entry];
      } else {
        assert done + [] == done;
      }
    }
  }

  /** From position `from` on, every record's ID is above the IDs of all records before it. */
  predicate IdsRiseFrom(attendance: seq<Attendance>, from: nat) {
    forall i, k | 0 <= i < k < |attendance| && from <= k :: attendance[i].checkinId < attendance[k].checkinId
  }

  /** Each record a batch stores has an ID above every record stored before it, so the IDs strictly increase. */
  lemma {:induction false} BatchIdsIncrease(store: Store, classId: string, ids: seq<string>, now: int)
    ensures IdsRiseFrom(CheckInAll(store, classId, ids, now).0.attendance, |store.attendance|)
  {
    if |ids| > 0 {
      var ids0 := ids[..|ids| - 1];
      BatchIdsIncrease(store, classId, ids0, now);
      var mid := CheckInAll(store, classId, ids0, now).0;
      var (after, out) := CheckInOne(mid, classId, ids[|ids| - 1], now);
      assert CheckInAll(store, classId, ids, now).0 == after;
      if out.Succeeded? {
        var n := |mid.attendance|;
        forall i, k | 0 <= i < k < |after.attendance| && |store.attendance| <= k
          ensures after.attendance[i].checkinId < after.attendance[k].checkinId
        {
          assert after.attendance[i] == mid.attendance[i];
          if k < n {
            assert after.attendance[k] == mid.attendance[k];
          }
        }
      }
    }
  }

  /** The classes held by all customers together drop by exactly the number of successes. */
  lemma {:induction false} BatchTotal(store: Store, classId: string, ids: seq<string>, now: int)
    ensures var (after, outs) := CheckInAll(store, classId, ids, now);
      TotalBalance(after.customers) == TotalBalance(store.customers) - |Successes(outs)|
  {
    if |ids| > 0 {
      var ids0 := ids[..|ids| - 1];
      BatchTotal(store, classId, ids0, now);
      var (mid, outs0) := CheckInAll(store, classId, ids0, now);
      var (after, out) := CheckInOne(mid, classId, ids[|ids| - 1], now);
      var outs := outs0 + [out];
      assert outs[..|outs| - 1] == outs0;
      if out.Succeeded? {
        var ci := FirstIndex(mid.customers, HasCustomerId(ids[|ids| - 1]));
        TotalBalanceUpdate(mid.customers, ci, after.customers[ci]);
      }
    }
  }

  /** The per-customer facts of one turn: at most one class less, never below 0 from 0 or more, nothing else changed. */
  lemma CheckInOneBalances(store: Store, classId: string, customerId: string, now: int)
    ensures var after := CheckInOne(store, classId, customerId, now).0;
      |after.customers| == |store.customers|
      && forall j | 0 <= j < |store.customers| ::
        after.customers[j].classBalance <= store.customers[j].classBalance
        && (store.customers[j].classBalance >= 0 ==> after.customers[j].classBalance >= 0)
        && after.customers[j] == store.customers[j].(classBalance := after.customers[j].classBalance)
    ensures var after := CheckInOne(store, classId, customerId, now).0;
      forall j | 0 <= j < |store.customers| :: after.customers[j].classBalance >= store.customers[j].classBalance - 1
    ensures var after := CheckInOne(store, classId, customerId, now).0;
      var ci := FirstIndex(store.customers, HasCustomerId(customerId));
      forall j | 0 <= j < |store.customers| && j != ci :: after.customers[j] == store.customers[j]
  {
    var (after, out) := CheckInOne(store, classId, customerId, now);
    if out.Succeeded? {
      var ci := FirstIndex(store.customers, HasCustomerId(customerId));
      assert ci < |store.customers| && store.customers[ci].classBalance > 0;
      assert after.customers == store.customers[ci := store.customers[ci].(classBalance := store.customers[ci].classBalance - 1)];
    }
  }

  /**
   * A batch never raises a balance, never drives a non-negative balance below
   * 0, and changes nothing on a customer but the balance.
   */
  lemma {:induction false} BatchBalances(store: Store, classId: string, ids: seq<string>, now: int)
    ensures var after := CheckInAll(store, classId, ids, now).0;
      forall j | 0 <= j < |store.customers| ::
        after.customers[j].classBalance <= store.customers[j].classBalance
        && (store.customers[j].classBalance >= 0 ==> after.customers[j].classBalance >= 0)
        && after.customers[j] == store.customers[j].(classBalance := after.customers[j].classBalance)
  {
    if |ids| > 0 {
      var ids0 := ids[..|ids| - 1];
      BatchBalances(store, classId, ids0, now);
      var mid := CheckInAll(store, classId, ids0, now).0;
      var after := CheckInOne(mid, classId, ids[|ids| - 1], now).0;
      assert CheckInAll(store, classId, ids, now).0 == after;
      CheckInOneBalances(mid, classId, ids[|ids| - 1], now);
    }
  }

  /** The request body; `customerIds` is None when absent or not an array. */
  datatype RecordRequest = RecordRequest(classId: string, customerIds: Option<seq<string>>)

  datatype RecordResponse =
    | MissingFields
    | ClassNotFound
    | Recorded(successful: seq<CheckIn>, errors: seq<CheckInError>, totalProcessed: nat)

  /**
   * `recordAttendance`: 400 without a class ID or a non-empty ID list, 404 for
   * an unknown class, neither changing anything; otherwise the batch runs and
   * every requested ID is reported once.
   */
  function RecordAttendance(store: Store, req: RecordRequest, now: int): (r: (Store, RecordResponse))
    ensures r.1.MissingFields? <==> req.classId == "" || req.customerIds.None? || |req.customerIds.value| == 0
    ensures r.1.ClassNotFound? <==>
      !r.1.MissingFields? && forall j | 0 <= j < |store.classes| :: store.classes[j].classId != req.classId
    ensures !r.1.Recorded? ==> r.0 == store
    ensures r.1.Recorded? ==>
      var (after, outs) := CheckInAll(store, req.classId, req.customerIds.value, now);
      r.0 == after && r.1.successful == Successes(outs) && r.1.errors == Errors(outs)
      && |r.1.successful| + |r.1.errors| == r.1.totalProcessed == |req.customerIds.value|
  {
    if req.classId == "" || req.customerIds.None? || |req.customerIds.value| == 0 then (store, MissingFields)
    else if FirstIndex(store.classes, HasClassId(req.classId)) == |store.classes| then (store, ClassNotFound)
    else
      var ids := req.customerIds.value;
      var (after, outs) := CheckInAll(store, req.classId, ids, now);
      OutcomesSplit(outs);
      (after, Recorded(Successes(outs), Errors(outs), |ids|))
  }

  // ---------------------------------------------------------------------------
  // DELETE

  /** The first customer with the ID gets one class back; without one, nothing changes. */
  function Restore(customers: seq<Customer>, customerId: string): (r: seq<Customer>)
    ensures |r| == |customers|
    ensures var ci := FirstIndex(customers, HasCustomerId(customerId));
      forall j | 0 <= j < |customers| && j != ci :: r[j] == customers[j]
    ensures var ci := FirstIndex(customers, HasCustomerId(customerId));
      ci < |customers| ==> r[ci] == customers[ci].(classBalance := customers[ci].classBalance + 1)
  {
    var ci := FirstIndex(customers, HasCustomerId(customerId));
    if ci == |customers| then customers
    else customers[ci := customers[ci].(classBalance := customers[ci].classBalance + 1)]
  }

  /**
   * `deleteAttendance`: the query's `parseInt(checkinId)`, None for NaN, which
   * Mongoose refuses to cast (500); 404 when no record has it; otherwise the
   * first such record is removed and its customer, if still stored, gets one
   * class back.
   */
  function DeleteAttendance(store: Store, checkinId: Option<int>): (r: (Store, Removal<int>))
    ensures r.1.CastFailed? <==> checkinId.None?
    ensures r.1.NotFound? <==>
      checkinId.Some? && forall j | 0 <= j < |store.attendance| :: store.attendance[j].checkinId != checkinId.value
    ensures !r.1.Removed? ==> r.0 == store
    ensures r.0.classes == store.classes && r.0.sales == store.sales && |r.0.customers| == |store.customers|
    ensures r.1.Removed? ==>
      checkinId == Some(r.1.key)
      && exists i | 0 <= i < |store.attendance| ::
           store.attendance[i].checkinId == r.1.key
           && (forall j | 0 <= j < i :: store.attendance[j].checkinId != r.1.key)
           && r.0 == store.(attendance := store.attendance[..i] + store.attendance[i + 1..],
                            customers := Restore(store.customers, store.attendance[i].customerId))
  {
    if checkinId.None? then (store, CastFailed)
    else
      var i := FirstIndex(store.attendance, HasCheckinId(checkinId.value));
      if i == |store.attendance| then (store, NotFound)
      else
        (store.(attendance := RemoveAt(store.attendance, i),
                customers := Restore(store.customers, store.attendance[i].customerId)),
         Removed(checkinId.value))
  }

  /** A record with the next checkinId is the first one with that ID. */
  lemma FreshCheckinIsFirst(attendance: seq<Attendance>, rec: Attendance)
    requires rec.checkinId == NextCheckinId(attendance)
    ensures FirstIndex(attendance + [rec], HasCheckinId(rec.checkinId)) == |attendance|
    ensures RemoveAt(attendance + [rec], |attendance|) == attendance
  {
    var s := attendance + [rec];
    assert forall j | 0 <= j < |attendance| :: s[j] == attendance[j] && !HasCheckinId(rec.checkinId)(s[j]);
    assert s[..|attendance|] == attendance;
  }

  /** Giving the class back to the customer who just checked in restores every balance. */
  lemma CheckInThenRestore(store: Store, classId: string, customerId: string, now: int)
    requires CheckInOne(store, classId, customerId, now).1.Succeeded?
    ensures Restore(CheckInOne(store, classId, customerId, now).0.customers, customerId) == store.customers
  {
    var after := CheckInOne(store, classId, customerId, now).0;
    var ci := FirstIndex(store.customers, HasCustomerId(customerId));
    assert after.customers == store.customers[ci := store.customers[ci].(classBalance := store.customers[ci].classBalance - 1)];
    assert forall j | 0 <= j < |store.customers| :: HasCustomerId(customerId)(after.customers[j]) == HasCustomerId(customerId)(store.customers[j]);
    FirstIndexAgrees(store.customers, after.customers, HasCustomerId(customerId));
  }

  /** Deleting the check-in just made undoes it completely. */
  lemma CheckInThenDeleteRestores(store: Store, classId: string, customerId: string, now: int)
    requires CheckInOne(store, classId, customerId, now).1.Succeeded?
    ensures var (after, out) := CheckInOne(store, classId, customerId, now);
      DeleteAttendance(after, Some(out.entry.checkinId)) == (store, Removed(out.entry.checkinId))
  {
    var (after, out) := CheckInOne(store, classId, customerId, now);
    var id := out.entry.checkinId;
    var rec := Attendance(id, customerId, classId, now);
    assert after.attendance == store.attendance + [rec];
    FreshCheckinIsFirst(store.attendance, rec);
    CheckInThenRestore(store, classId, customerId, now);
    var d := DeleteAttendance(after, Some(id));
    assert d.0.attendance == store.attendance && d.0.customers == store.customers;
  }

  // ---------------------------------------------------------------------------
  // GET stats

  /** Some class with this ID is taught by the instructor (`classId: {$in: classIds}`). */
  predicate TaughtBy(classes: seq<ClassRec>, instructorId: string, classId: string) {
    exists j | 0 <= j < |classes| :: classes[j].instructorId == instructorId && classes[j].classId == classId
  }

  /** The stats query: an instructor filter replaces a class filter; with neither, every record. */
  function StatsFilter(classes: seq<ClassRec>, classId: string, instructorId: string): Attendance -> bool {
    if instructorId != "" then (a: Attendance) => TaughtBy(classes, instructorId, a.classId)
    else if classId != "" then (a: Attendance) => a.classId == classId
    else (a: Attendance) => true
  }

  const StatsLimit: nat := 100
  const RecentLimit: nat := 10

  function Min(a: nat, b: nat): nat {
    if a < b then a else b
  }

  /** `byClass`: each class and its number of records, one entry per class. */
  function Counts(g: seq<Group<string, Attendance>>): (c: seq<(string, nat)>)
    ensures |c| == |g|
    ensures forall i | 0 <= i < |g| :: c[i] == (g[i].key, |g[i].members|)
  {
    seq(|g|, i requires 0 <= i < |g| => (g[i].key, |g[i].members|))
  }

  function CountTotal(c: seq<(string, nat)>): nat {
    if |c| == 0 then 0 else CountTotal(c[..|c| - 1]) + c[|c| - 1].1
  }

  datatype AttendanceStats = AttendanceStats(totalRecords: nat, byClass: seq<(string, nat)>, recentAttendance: seq<Attendance>)

  /**
   * `getAttendanceStats`: at most 100 matching records, counted per class,
   * and the first 10 of them. The records stay in store order (the source
   * sorts them by time first).
   */
  function Stats(store: Store, classId: string, instructorId: string): (r: AttendanceStats)
    ensures var found := Filter(store.attendance, StatsFilter(store.classes, classId, instructorId));
      r.totalRecords == Min(|found|, StatsLimit)
      && r.recentAttendance == found[..Min(r.totalRecords, RecentLimit)]
      && Partitions(GroupBy(found[..r.totalRecords], AttendedClass), found[..r.totalRecords], AttendedClass)
      && r.byClass == Counts(GroupBy(found[..r.totalRecords], AttendedClass))
  {
    var found := Filter(store.attendance, StatsFilter(store.classes, classId, instructorId));
    var records := found[..Min(|found|, StatsLimit)];
    GroupByPartitions(records, AttendedClass);
    AttendanceStats(|records|, Counts(GroupBy(records, AttendedClass)), records[..Min(|records|, RecentLimit)])
  }

  lemma {:induction false} CountsTotal(g: seq<Group<string, Attendance>>)
    ensures CountTotal(Counts(g)) == GroupsSum(g, One())
  {
    if |g| > 0 {
      var n := |g| - 1;
      CountsTotal(g[..n]);
      assert Counts(g)[..n] == Counts(g[..n]);
      SumOfOnes(g[n].members);
    }
  }

  /**
   * Each `byClass` entry counts exactly the returned records of its class, no
   * class is listed twice, and the counts add up to `totalRecords` (at most 100).
   */
  lemma StatsCountsAddUp(store: Store, classId: string, instructorId: string)
    ensures var r := Stats(store, classId, instructorId);
      var found := Filter(store.attendance, StatsFilter(store.classes, classId, instructorId));
      r.totalRecords <= StatsLimit
      && CountTotal(r.byClass) == r.totalRecords
      && (forall i, j | 0 <= i < j < |r.byClass| :: r.byClass[i].0 != r.byClass[j].0)
      && forall i | 0 <= i < |r.byClass| ::
           r.byClass[i].1 == |Filter(found[..r.totalRecords], Matching(AttendedClass, r.byClass[i].0))|
  {
    var r := Stats(store, classId, instructorId);
    var found := Filter(store.attendance, StatsFilter(store.classes, classId, instructorId));
    var g := GroupBy(found[..r.totalRecords], AttendedClass);
    CountsTotal(g);
    GroupBySizes(found[..r.totalRecords], AttendedClass);
  }

  /** With an instructor given, the class parameter makes no difference. */
  lemma InstructorOverridesClass(store: Store, classId: string, otherClassId: string, instructorId: string)
    requires instructorId != ""
    ensures Stats(store, classId, instructorId) == Stats(store, otherClassId, instructorId)
  {
  }
}

=== FILE: attendance_page.dfy ===
/**
 * The attendance page's form: a class and a list of selected customers built
 * up from a dropdown of the loaded customers, then sent to the server as one
 * attendance request.
 */
module AttendancePage {
  import opened Wrappers
  import opened Records
  import opened Seqs
  import opened Groups
  import AttendanceController

  datatype Form = Form(classId: string, selected: seq<Customer>)

  /** Some selected customer has the ID (`selectedCustomers.find(…)`). */
  predicate Selected(selected: seq<Customer>, customerId: string) {
    exists k | 0 <= k < |selected| :: selected[k].customerId == customerId
  }

  /**
   * `addCustomer` with the dropdown's current value: nothing happens for an
   * empty value, an ID not among the loaded customers, or one already
   * selected; otherwise the first loaded customer with the ID (what
   * `customers.find` returns) is appended.
   */
  function AddCustomer(customers: seq<Customer>, form: Form, chosen: string): (r: Form)
    ensures r.classId == form.classId
    ensures chosen == "" || !Selected(customers, chosen) || Selected(form.selected, chosen) ==> r == form
    ensures chosen != "" && Selected(customers, chosen) && !Selected(form.selected, chosen) ==>
      |r.selected| == |form.selected| + 1
      && r.selected[..|form.selected|] == form.selected
      && r.selected[|form.selected|].customerId == chosen
      && r.selected[|form.selected|] == customers[FirstIndex(customers, HasCustomerId(chosen))]
    ensures DistinctKeys(form.selected, CustomerKey) ==> DistinctKeys(r.selected, CustomerKey)
  {
    if chosen == "" then form
    else
      var i := FirstIndex(customers, HasCustomerId(chosen));
      var j := FirstIndex(form.selected, HasCustomerId(chosen));
      if i < |customers| && j == |form.selected| then form.(selected := form.selected + [customers[i]])
      else form
  }

  function NotCustomer(customerId: string): Customer -> bool {
    (c: Customer) => c.customerId != customerId
  }

  /**
   * `removeCustomer`: drops every entry with the ID and keeps the rest in
   * order; on a list without repeated IDs that is removing the one entry.
   */
  function RemoveCustomer(form: Form, customerId: string): (r: Form)
    ensures r.classId == form.classId
    ensures !Selected(r.selected, customerId)
    ensures var at := Positions(form.selected, NotCustomer(customerId));
      |r.selected| == |at| && forall k | 0 <= k < |r.selected| :: r.selected[k] == form.selected[at[k]]
    ensures DistinctKeys(form.selected, CustomerKey) ==>
      var i := FirstIndex(form.selected, HasCustomerId(customerId));
      r.selected == if i == |form.selected| then form.selected else RemoveAt(form.selected, i)
  {
    FilterAtPositions(form.selected, NotCustomer(customerId));
    FilterDropsDistinct(form.selected, customerId);
    form.(selected := Filter(form.selected, NotCustomer(customerId)))
  }

  /** Among distinct IDs, filtering one ID out removes its first (and only) entry. */
  lemma FilterDropsDistinct(s: seq<Customer>, customerId: string)
    ensures DistinctKeys(s, CustomerKey) ==>
      var i := FirstIndex(s, HasCustomerId(customerId));
      Filter(s, NotCustomer(customerId)) == if i == |s| then s else RemoveAt(s, i)
  {
    if DistinctKeys(s, CustomerKey) {
      DropsDistinct(s, customerId);
    }
  }

  lemma DropsDistinct(s: seq<Customer>, customerId: string)
    requires DistinctKeys(s, CustomerKey)
    ensures var i := FirstIndex(s, HasCustomerId(customerId));
      Filter(s, NotCustomer(customerId)) == if i == |s| then s else RemoveAt(s, i)
  {
    var p := NotCustomer(customerId);
    var i := FirstIndex(s, HasCustomerId(customerId));
    BeforeFirstPasses(s, customerId);
    if i == |s| {
      FilterAll(s, p);
    } else {
      AfterFirstPasses(s, customerId);
      FilterRemovesOne(s, i, p);
    }
  }

  lemma BeforeFirstPasses(s: seq<Customer>, customerId: string)
    ensures forall j | 0 <= j < FirstIndex(s, HasCustomerId(customerId)) :: NotCustomer(customerId)(s[j])
  {
    var i := FirstIndex(s, HasCustomerId(customerId));
    forall j | 0 <= j < i ensures NotCustomer(customerId)(s[j]) {
      assert !HasCustomerId(customerId)(s[j]);
    }
  }

  lemma AfterFirstPasses(s: seq<Customer>, customerId: string)
    requires DistinctKeys(s, CustomerKey)
    requires FirstIndex(s, HasCustomerId(customerId)) < |s|
    ensures var i := FirstIndex(s, HasCustomerId(customerId));
      !NotCustomer(customerId)(s[i]) && forall j | i < j < |s| :: NotCustomer(customerId)(s[j])
  {
    var i := FirstIndex(s, HasCustomerId(customerId));
    assert HasCustomerId(customerId)(s[i]);
    forall j | i < j < |s| ensures NotCustomer(customerId)(s[j]) {
      assert CustomerKey(s[i]) != CustomerKey(s[j]);
    }
  }

  /** Removing a customer that was just added restores the list. */
  lemma AddThenRemove(customers: seq<Customer>, form: Form, chosen: string)
    requires !Selected(form.selected, chosen)
    ensures RemoveCustomer(AddCustomer(customers, form, chosen), chosen) == form
  {
    var p := NotCustomer(chosen);
    FilterAll(form.selected, p);
    var added := AddCustomer(customers, form, chosen);
    if added != form {
      var c := added.selected[|form.selected|];
      assert added.selected == form.selected + [c];
      FilterAppend(form.selected, [c], p);
      assert [c][..0] == [];
      assert form.selected + [] == form.selected;
    }
  }

  function Unselected(selected: seq<Customer>): Customer -> bool {
    (c: Customer) => !Selected(selected, c.customerId)
  }

  /** The customer dropdown: the loaded customers not yet selected, in load order. */
  function Dropdown(customers: seq<Customer>, selected: seq<Customer>): (r: seq<Customer>)
    ensures forall k | 0 <= k < |r| :: r[k] in customers && !Selected(selected, r[k].customerId)
    ensures forall k | 0 <= k < |customers| :: !Selected(selected, customers[k].customerId) ==> customers[k] in r
    ensures var at := Positions(customers, Unselected(selected));
      |r| == |at| && forall k | 0 <= k < |r| :: r[k] == customers[at[k]]
  {
    FilterAtPositions(customers, Unselected(selected));
    Filter(customers, Unselected(selected))
  }

  /** Choosing any customer the dropdown offers adds exactly one entry. */
  lemma DropdownChoiceIsAdded(customers: seq<Customer>, form: Form, k: nat)
    requires k < |Dropdown(customers, form.selected)|
    requires Dropdown(customers, form.selected)[k].customerId != ""
    ensures var chosen := Dropdown(customers, form.selected)[k].customerId;
      |AddCustomer(customers, form, chosen).selected| == |form.selected| + 1
  {
    var c := Dropdown(customers, form.selected)[k];
    var j :| 0 <= j < |customers| && customers[j] == c;
    assert Selected(customers, c.customerId);
  }

  /** `clearForm` */
  function ClearForm(): Form {
    Form("", [])
  }

  datatype SaveAction = Warn | Send(request: AttendanceController.RecordRequest)

  /** `handleSave`: a warning without a class or a customer; otherwise the IDs are sent in selection order. */
  function Save(form: Form): (r: SaveAction)
    ensures r.Warn? <==> form.classId == "" || |form.selected| == 0
    ensures r.Send? ==>
      r.request.classId == form.classId
      && r.request.customerIds.Some?
      && |r.request.customerIds.value| == |form.selected|
      && forall k | 0 <= k < |form.selected| :: r.request.customerIds.value[k] == form.selected[k].customerId
  {
    if form.classId == "" || |form.selected| == 0 then Warn
    else Send(AttendanceController.RecordRequest(form.classId, Some(Map(form.selected, CustomerKey))))
  }

  /** A request the page sends always passes the server's check for missing fields. */
  lemma SentRequestIsComplete(store: Store, form: Form, now: int)
    requires Save(form).Send?
    ensures !AttendanceController.RecordAttendance(store, Save(form).request, now).1.MissingFields?
  {
  }

  /** A cleared form cannot be saved. */
  lemma ClearedFormWarns()
    ensures Save(ClearForm()).Warn?
  {
  }
}

=== FILE: auth.dfy ===
/**
 * Login and the default account. Passwords are stored and compared in plain
 * text; a failed login gives the same 401 response whether the user is
 * unknown or the password is wrong.
 */
module Auth {
  import opened Wrappers
  import opened Records
  import opened Seqs

  /** What a successful login reveals about the account: never the password. */
  datatype UserView = UserView(username: string, role: string)

  datatype LoginResponse = LoginResponse(status: int, message: string, user: Option<UserView>)

  const Invalid := LoginResponse(401, "Invalid username or password", None)

  /** `login`: 400 when a field is empty, 401 unless the first user with the name has the password. */
  function Login(users: seq<User>, username: string, password: string): (r: LoginResponse)
    ensures r.status == 400 <==> username == "" || password == ""
    ensures r.status == 401 ==> r == Invalid
    ensures r.status in {200, 400, 401}
    ensures r.user.Some? <==> r.status == 200
    ensures r.status == 200 ==>
      exists k | 0 <= k < |users| ::
        users[k].username == username && users[k].password == password
        && r.user.value == UserView(users[k].username, users[k].role)
    ensures username != "" && password != "" && (forall k | 0 <= k < |users| :: users[k].username != username) ==>
      r == Invalid
  {
    if username == "" || password == "" then LoginResponse(400, "Username and password required", None)
    else
      var i := FirstIndex(users, HasUsername(username));
      if i == |users| then Invalid
      else if users[i].password != password then Invalid
      else LoginResponse(200, "Login successful", Some(UserView(users[i].username, users[i].role)))
  }

  /** The two failures cannot be told apart from the response. */
  lemma FailuresLookAlike(users: seq<User>, u1: string, p1: string, u2: string, p2: string)
    requires Login(users, u1, p1).status == 401 && Login(users, u2, p2).status == 401
    ensures Login(users, u1, p1) == Login(users, u2, p2)
  {
  }

  /** Usernames are unique (the schema's unique index). */
  predicate UniqueUsernames(users: seq<User>) {
    forall i, j | 0 <= i < j < |users| :: users[i].username != users[j].username
  }

  /** With unique usernames, a login with both fields succeeds exactly when some user has that name and password. */
  lemma LoginSucceedsIffCredentialsMatch(users: seq<User>, username: string, password: string)
    requires UniqueUsernames(users)
    requires username != "" && password != ""
    ensures Login(users, username, password).status == 200 <==>
      exists k | 0 <= k < |users| :: users[k].username == username && users[k].password == password
  {
    var i := FirstIndex(users, HasUsername(username));
    if k :| 0 <= k < |users| && users[k].username == username && users[k].password == password {
      assert i <= k;
      assert users[i].username == username;
      assert i == k;
    }
  }

  datatype DefaultUserResponse = AlreadyExists | Created

  const DefaultUser := User("manager", "password123", "manager")

  /** `createDefaultUser`: adds the manager account unless a user named "manager" exists. */
  function CreateDefaultUser(users: seq<User>): (r: (seq<User>, DefaultUserResponse))
    ensures r.1.AlreadyExists? <==> exists k | 0 <= k < |users| :: users[k].username == "manager"
    ensures r.1.AlreadyExists? ==> r.0 == users
    ensures r.1.Created? ==> r.0 == users + [DefaultUser]
  {
    if FirstIndex(users, HasUsername("manager")) < |users| then (users, AlreadyExists) else (users + [DefaultUser], Created)
  }

  /** A second call finds the account and changes nothing. */
  lemma CreateDefaultUserIdempotent(users: seq<User>)
    ensures var after := CreateDefaultUser(users).0;
      CreateDefaultUser(after) == (after, AlreadyExists)
  {
    var after := CreateDefaultUser(users).0;
    if CreateDefaultUser(users).1.Created? {
      assert after[|users|].username == "manager";
    }
  }

  /** The account it creates keeps usernames unique and can log in with the documented password. */
  lemma CreatedDefaultUserCanLogIn(users: seq<User>)
    requires CreateDefaultUser(users).1.Created?
    ensures UniqueUsernames(users) ==> UniqueUsernames(CreateDefaultUser(users).0)
    ensures Login(CreateDefaultUser(users).0, "manager", "password123")
      == LoginResponse(200, "Login successful", Some(UserView("manager", "manager")))
  {
    var after := CreateDefaultUser(users).0;
    assert after[|users|] == DefaultUser;
    assert FirstIndex(after, HasUsername("manager")) == |users| by {
      assert forall j | 0 <= j < |users| :: after[j].username != "manager";
    }
  }
}

=== FILE: classes.dfy ===
/**
 * The class endpoints: the conflict query, add (with its own conflict check
 * and the "A" + 3-digit ID rule), the ID preview, and delete.
 */
module ClassController {
  import opened Wrappers
  import opened Text
  import opened Records
  import opened Ids
  import opened Seqs
  import opened Schedule

  function ClassIds(classes: seq<ClassRec>): seq<string> {
    seq(|classes|, i requires 0 <= i < |classes| => classes[i].classId)
  }

  /** The next class ID: "A" followed by the number after the string-greatest stored ID, padded to 3 digits. */
  function NextClassId(classes: seq<ClassRec>): (id: string)
    ensures |id| >= 4 && id[0] == 'A'
    ensures SuffixNumber(id) == Some(NextNumber(ClassIds(classes)))
    ensures FixedWidth(ClassIds(classes), "A", 3) ==> forall j | 0 <= j < |classes| :: classes[j].classId != id
  {
    var n := NextNumber(ClassIds(classes));
    RenderRoundTrip("A", n, 3);
    assert FixedWidth(ClassIds(classes), "A", 3) ==>
      forall j | 0 <= j < |classes| :: classes[j].classId != Render("A", n, 3) by {
      if FixedWidth(ClassIds(classes), "A", 3) {
        FreshUnderFixedWidth(ClassIds(classes), "A", 3);
        assert forall j | 0 <= j < |classes| :: classes[j].classId == ClassIds(classes)[j];
      }
    }
    Render("A", n, 3)
  }

  /** `payRate || 45`: a missing or zero rate becomes 45. */
  function RateOr45(payRate: Option<int>): (r: int)
    ensures r != 0
    ensures payRate.Some? && payRate.value != 0 ==> r == payRate.value
    ensures payRate.None? || payRate.value == 0 ==> r == 45
  {
    if payRate.None? || payRate.value == 0 then 45 else payRate.value
  }

  // ---------------------------------------------------------------------------
  // GET checkConflict

  datatype ConflictQueryResponse = DayAndTimeRequired | ConflictAnswer(result: ConflictResult)

  /** `checkConflict`: 400 without day or time, else the server scan with `parseInt(duration) || 60`. */
  function CheckConflict(classes: seq<ClassRec>, day: string, time: string, duration: Option<int>): (r: ConflictQueryResponse)
    ensures r.DayAndTimeRequired? <==> day == "" || time == ""
    ensures r.ConflictAnswer? && (duration.None? || duration.value == 0) ==>
      r.result == ServerCheck(classes, day, Some(time), 60)
    ensures r.ConflictAnswer? && duration.Some? && duration.value != 0 ==>
      r.result == ServerCheck(classes, day, Some(time), duration.value)
  {
    if day == "" || time == "" then DayAndTimeRequired
    else ConflictAnswer(ServerCheck(classes, day, Some(time), SlotMinutes(duration)))
  }

  // ---------------------------------------------------------------------------
  // POST add

  /** The request body; an absent `daytime` is None, an absent `payRate` is None. */
  datatype ClassRequest = ClassRequest(
    className: string,
    instructorId: string,
    classType: string,
    description: string,
    daytime: Option<seq<Slot>>,
    payRate: Option<int>)

  datatype AddClassResponse = MissingFields | ScheduleConflict(conflict: ConflictResult) | ClassAdded(classId: string)

  predicate ClassRequestComplete(req: ClassRequest) {
    req.className != "" && req.instructorId != "" && req.classType != "" && req.daytime.Some?
  }

  /**
   * The check `addClass` runs on the proposed schedule: none for an empty
   * `daytime` array, else its first slot with `duration || 60`. A conflict it
   * reports is a genuine overlap with the named class's first slot.
   */
  function ProposedConflict(classes: seq<ClassRec>, daytime: seq<Slot>): (r: ConflictResult)
    ensures |daytime| == 0 ==> r == NoConflict
    ensures r.Conflict? ==>
      r.at < |classes| && |daytime| > 0 && |classes[r.at].daytime| > 0
      && SlotsConflict(daytime[0], classes[r.at].daytime[0])
  {
    if |daytime| == 0 then NoConflict
    else
      var s := daytime[0];
      var r := ServerCheck(classes, s.day, s.time, SlotMinutes(s.duration));
      if r.Conflict? then
        ExamineIsSlotConflict(classes[r.at], s);
        r
      else r
  }

  /**
   * `addClass`: 400 when a required field is missing (an empty `daytime` array
   * is present), 409 when the first proposed slot conflicts, else the class is
   * appended with the next ID and `payRate || 45`. Nothing is stored on 400 or 409.
   */
  function AddClass(store: Store, req: ClassRequest): (r: (Store, AddClassResponse))
    ensures r.1.MissingFields? <==> !ClassRequestComplete(req)
    ensures ClassRequestComplete(req) && !ProposedConflict(store.classes, req.daytime.value).Conflict? ==>
      r.1.ClassAdded?
    ensures !r.1.ClassAdded? ==> r.0 == store
    ensures r.1.ScheduleConflict? ==>
      ClassRequestComplete(req) && r.1.conflict == ProposedConflict(store.classes, req.daytime.value)
      && r.1.conflict.Conflict? && r.1.conflict.at < |store.classes|
      && |req.daytime.value| > 0 && |store.classes[r.1.conflict.at].daytime| > 0
      && SlotsConflict(req.daytime.value[0], store.classes[r.1.conflict.at].daytime[0])
    ensures r.1.ClassAdded? ==>
      ClassRequestComplete(req) && ProposedConflict(store.classes, req.daytime.value) == NoConflict
      && r.1.classId == NextClassId(store.classes)
      && r.0 == store.(classes := store.classes + [ClassRec(r.1.classId, req.className, req.instructorId,
           req.classType, req.description, req.daytime.value, RateOr45(req.payRate))])
  {
    if !ClassRequestComplete(req) then (store, MissingFields)
    else
      var conflict := ProposedConflict(store.classes, req.daytime.value);
      if conflict.Conflict? then (store, ScheduleConflict(conflict))
      else
        var id := NextClassId(store.classes);
        var c := ClassRec(id, req.className, req.instructorId, req.classType, req.description,
                          req.daytime.value, RateOr45(req.payRate));
        (store.(classes := store.classes + [c]), ClassAdded(id))
  }

  /** Every stored class whose first slot exists has a time string, so the scan cannot fail open. */
  predicate AllTimed(classes: seq<ClassRec>) {
    forall j | 0 <= j < |classes| :: |classes[j].daytime| > 0 ==> classes[j].daytime[0].time.Some?
  }

  /** No two stored classes' first slots conflict. */
  predicate ConflictFree(classes: seq<ClassRec>) {
    forall i, j | 0 <= i < j < |classes| && |classes[i].daytime| > 0 && |classes[j].daytime| > 0 ::
      !SlotsConflict(classes[i].daytime[0], classes[j].daytime[0])
  }

  /** When no stored class can make the scan throw, an added class conflicts with none of them. */
  lemma AddedClassConflictsWithNone(store: Store, req: ClassRequest)
    requires AllTimed(store.classes)
    requires AddClass(store, req).1.ClassAdded?
    requires |req.daytime.value| > 0 && req.daytime.value[0].time.Some?
    ensures forall j | 0 <= j < |store.classes| && |store.classes[j].daytime| > 0 ::
      !SlotsConflict(req.daytime.value[0], store.classes[j].daytime[0])
  {
    var s := req.daytime.value[0];
    var cand := CandidateOf(s.time, Some(SlotMinutes(s.duration)));
    var classes := store.classes;
    assert Scan(classes, s.day, cand, None) == NoConflict;
    forall f | 0 <= f < |classes|
      ensures Outcome(classes[f], s.day, cand, None) != Fault
    {
    }
    forall j | 0 <= j < |classes| && |classes[j].daytime| > 0
      ensures !SlotsConflict(s, classes[j].daytime[0])
    {
      assert Outcome(classes[j], s.day, cand, None) == Pass;
      ExamineIsSlotConflict(classes[j], s);
    }
  }

  /** Adding keeps a fully timed, conflict-free schedule conflict-free, as long as the new slot has a time. */
  lemma AddKeepsScheduleConflictFree(store: Store, req: ClassRequest)
    requires AllTimed(store.classes) && ConflictFree(store.classes)
    requires AddClass(store, req).1.ClassAdded?
    requires |req.daytime.value| > 0 && req.daytime.value[0].time.Some?
    ensures AllTimed(AddClass(store, req).0.classes)
    ensures ConflictFree(AddClass(store, req).0.classes)
  {
    var after := AddClass(store, req).0.classes;
    var n := |store.classes|;
    AddedClassConflictsWithNone(store, req);
    forall i, j | 0 <= i < j < |after| && |after[i].daytime| > 0 && |after[j].daytime| > 0
      ensures !SlotsConflict(after[i].daytime[0], after[j].daytime[0])
    {
      if j == n {
        assert after[i] == store.classes[i];
        SlotsConflictSymmetric(req.daytime.value[0], after[i].daytime[0]);
      } else {
        assert after[i] == store.classes[i] && after[j] == store.classes[j];
      }
    }
  }

  // ---------------------------------------------------------------------------
  // DELETE

  /** `deleteClass`: 404 when no class has the ID, else the first class with it is removed and nothing else changes. */
  function DeleteClass(store: Store, classId: string): (r: (Store, Removal<string>))
    ensures r.1.NotFound? <==> forall j | 0 <= j < |store.classes| :: store.classes[j].classId != classId
    ensures !r.1.CastFailed?
    ensures r.1.NotFound? ==> r.0 == store
    ensures r.1.Removed? ==>
      r.1.key == classId
      && exists i | 0 <= i < |store.classes| ::
           store.classes[i].classId == classId
           && (forall j | 0 <= j < i :: store.classes[j].classId != classId)
           && r.0 == store.(classes := store.classes[..i] + store.classes[i + 1..])
  {
    var i := FirstIndex(store.classes, HasClassId(classId));
    if i == |store.classes| then (store, NotFound)
    else (store.(classes := RemoveAt(store.classes, i)), Removed(classId))
  }

  /** A class whose ID no stored class has is the first with it once appended, and removing it undoes the append. */
  lemma FreshClassIsFirst(classes: seq<ClassRec>, c: ClassRec)
    requires forall j | 0 <= j < |classes| :: classes[j].classId != c.classId
    ensures FirstIndex(classes + [c], HasClassId(c.classId)) == |classes|
    ensures RemoveAt(classes + [c], |classes|) == classes
  {
    var s := classes + [c];
    assert forall j | 0 <= j < |classes| :: s[j] == classes[j] && !HasClassId(c.classId)(s[j]);
    assert s[..|classes|] == classes;
  }

  /** With fixed-width IDs, deleting the class just added restores the store. */
  lemma AddThenDeleteRestores(store: Store, req: ClassRequest)
    requires FixedWidth(ClassIds(store.classes), "A", 3)
    requires AddClass(store, req).1.ClassAdded?
    ensures DeleteClass(AddClass(store, req).0, AddClass(store, req).1.classId)
      == (store, Removed(AddClass(store, req).1.classId))
  {
    var after := AddClass(store, req).0;
    var id := AddClass(store, req).1.classId;
    var c := after.classes[|store.classes|];
    assert after.classes == store.classes + [c] && c.classId == id;
    FreshClassIsFirst(store.classes, c);
    var d := DeleteClass(after, id);
    assert d.0.classes == store.classes;
  }
}

/**
 * The two class pages. The React page validates the untrimmed fields, checks
 * conflicts with the raw `parseInt(duration)` (NaN checks nothing) skipping
 * the selected class, and trims when it builds the payload; the legacy page
 * fetches the next ID first, builds the trimmed payload, validates that, and
 * checks with `parseInt(duration) || 60`.
 */
module ClassPages {
  import opened Wrappers
  import opened Text
  import opened Records
  import opened Schedule
  import opened ClassController

  /** The React form; duration and pay rate hold the numbers `parseInt`/`parseFloat` read from them, None for NaN. */
  datatype ClassForm = ClassForm(
    classId: string,
    className: string,
    instructorId: string,
    classType: string,
    description: string,
    day: string,
    time: string,
    duration: Option<int>,
    payRate: Option<int>)

  /** `clearForm` */
  function EmptyForm(): (f: ClassForm)
    ensures f.className == "" && f.instructorId == "" && f.day == "" && f.time == ""
    ensures f.classType == "General" && f.duration == Some(60) && f.payRate == Some(45)
  {
    ClassForm("", "", "", "General", "", "", "", Some(60), Some(45))
  }

  /** `handleClassSelect`: the form shows the class and its first slot; an absent time shows as empty. */
  function SelectClass(c: ClassRec): (f: ClassForm)
    ensures f.classId == c.classId && f.className == c.className && f.instructorId == c.instructorId
    ensures f.classType == (if c.classType == "" then "General" else c.classType)
    ensures |c.daytime| > 0 ==>
      f.day == c.daytime[0].day && f.duration == c.daytime[0].duration
      && f.time == c.daytime[0].time.GetOr("")
    ensures |c.daytime| == 0 ==> f.day == "" && f.time == "" && f.duration == Some(60)
    ensures f.payRate == Some(RateOr45(Some(c.payRate)))
  {
    var slot := if |c.daytime| > 0 then c.daytime[0] else Slot("", Some(""), Some(60));
    ClassForm(c.classId, c.className, c.instructorId,
              if c.classType == "" then "General" else c.classType,
              c.description, slot.day, slot.time.GetOr(""), slot.duration,
              Some(if c.payRate == 0 then 45 else c.payRate))
  }

  /** What pressing Save leads to: nothing outside add mode, a warning, the user declining at the conflict prompt, or a POST. */
  datatype SaveOutcome = NotAdding | FillRequired | Declined | Submit(classId: string, request: ClassRequest)

  /**
   * The React `handleSave`. `proceed` is the user's answer to the
   * "Continue anyway?" prompt; the next ID is the one the preview endpoint
   * gives for the same store.
   */
  function ReactSave(classes: seq<ClassRec>, adding: bool, selected: Option<string>, form: ClassForm,
                     proceed: bool): (o: SaveOutcome)
    ensures o.NotAdding? <==> !adding
    ensures o.FillRequired? <==>
      adding && (form.className == "" || form.instructorId == "" || form.day == "" || form.time == "")
    ensures o.Declined? <==>
      adding && !o.FillRequired? && !proceed
      && ReactCheck(classes, selected, form.day, form.time, form.duration).Conflict?
    ensures o.Submit? ==>
      o.classId == NextClassId(classes)
      && o.request == ClassRequest(Trim(form.className), Trim(form.instructorId), form.classType,
           Trim(form.description), Some([Slot(form.day, Some(form.time), Some(SlotMinutes(form.duration)))]),
           Some(RateOr45(form.payRate)))
  {
    if !adding then NotAdding
    else if form.className == "" || form.instructorId == "" || form.day == "" || form.time == "" then FillRequired
    else if ReactCheck(classes, selected, form.day, form.time, form.duration).Conflict? && !proceed then Declined
    else
      var slot := Slot(form.day, Some(form.time), Some(if form.duration.None? || form.duration.value == 0 then 60 else form.duration.value));
      Submit(NextClassId(classes), ClassRequest(Trim(form.className), Trim(form.instructorId), form.classType,
             Trim(form.description), Some([slot]), Some(if form.payRate.None? || form.payRate.value == 0 then 45 else form.payRate.value)))
  }

  /** The legacy form; the class type comes from the "General" radio button. */
  datatype LegacyForm = LegacyForm(
    className: string,
    instructorId: string,
    generalChecked: bool,
    description: string,
    day: string,
    time: string,
    duration: Option<int>,
    payRate: Option<int>)

  /** The legacy save handler: the payload is built (and trimmed) first, then validated, then conflict-checked. */
  function LegacySave(classes: seq<ClassRec>, adding: bool, form: LegacyForm, proceed: bool): (o: SaveOutcome)
    ensures o.NotAdding? <==> !adding
    ensures o.FillRequired? <==>
      adding && (Trim(form.className) == "" || Trim(form.instructorId) == "" || form.day == "" || form.time == "")
    ensures o.Declined? <==>
      adding && !o.FillRequired? && !proceed
      && LegacyCheck(classes, form.day, form.time, SlotMinutes(form.duration)).Conflict?
    ensures o.Submit? ==>
      o.classId == NextClassId(classes)
      && o.request.className != "" && o.request.instructorId != ""
      && o.request == ClassRequest(Trim(form.className), Trim(form.instructorId),
           if form.generalChecked then "General" else "Special", Trim(form.description),
           Some([Slot(form.day, Some(form.time), Some(SlotMinutes(form.duration)))]), Some(RateOr45(form.payRate)))
  {
    if !adding then NotAdding
    else
      var nextId := NextClassId(classes);
      var slot := Slot(form.day, Some(form.time), Some(SlotMinutes(form.duration)));
      var request := ClassRequest(Trim(form.className), Trim(form.instructorId),
                                  if form.generalChecked then "General" else "Special",
                                  Trim(form.description), Some([slot]), Some(RateOr45(form.payRate)));
      if request.className == "" || request.instructorId == "" || slot.day == "" || form.time == "" then FillRequired
      else if LegacyCheck(classes, slot.day, form.time, SlotMinutes(form.duration)).Conflict? && !proceed then Declined
      else Submit(nextId, request)
  }

  lemma TrimAllSpaces(s: string)
    requires forall k | 0 <= k < |s| :: IsSpace(s[k])
    ensures Trim(s) == ""
  {
    assert LeadingSpaces(s) == |s|;
  }

  /**
   * A class name of blanks only: the React page posts it trimmed to "" and the
   * server answers 400, while the legacy page stops at its own warning.
   */
  lemma BlankNameHandledDifferently(store: Store, form: ClassForm, proceed: bool)
    requires form.className != "" && forall k | 0 <= k < |form.className| :: IsSpace(form.className[k])
    requires form.instructorId != "" && form.day != "" && form.time != ""
    requires proceed
    ensures var o := ReactSave(store.classes, true, None, form, proceed);
      o.Submit? && AddClass(store, o.request).1.MissingFields?
    ensures LegacySave(store.classes, true, LegacyForm(form.className, form.instructorId, true, form.description,
              form.day, form.time, form.duration, form.payRate), proceed).FillRequired?
  {
    TrimAllSpaces(form.className);
  }

  /**
   * "Continue anyway?" does not help: when the React page finds a conflict
   * and the user proceeds, the server's own check rejects the same slot
   * (for a parsed, non-zero duration and a complete payload).
   */
  lemma ConfirmedConflictIsRejected(store: Store, form: ClassForm)
    requires form.className != "" && form.instructorId != "" && form.day != "" && form.time != ""
    requires Trim(form.className) != "" && Trim(form.instructorId) != "" && form.classType != ""
    requires form.duration.Some? && form.duration.value != 0
    requires ReactCheck(store.classes, None, form.day, form.time, form.duration).Conflict?
    ensures var o := ReactSave(store.classes, true, None, form, true);
      o.Submit? && AddClass(store, o.request).1.ScheduleConflict?
  {
    var o := ReactSave(store.classes, true, None, form, true);
    var s := o.request.daytime.value[0];
    assert ProposedConflict(store.classes, o.request.daytime.value)
      == ServerCheck(store.classes, form.day, Some(form.time), form.duration.value);
  }

  /**
   * Selecting a class and saving the form reproduces it: the payload carries
   * the class's (single) slot and pay rate, its names trimmed.
   */
  lemma SelectThenSaveReproducesClass(classes: seq<ClassRec>, c: ClassRec)
    requires |c.daytime| == 1 && c.daytime[0].time.Some? && c.daytime[0].time.value != ""
    requires c.daytime[0].duration.Some? && c.daytime[0].duration.value != 0
    requires c.daytime[0].day != "" && c.className != "" && c.instructorId != "" && c.classType != ""
    requires c.payRate != 0
    ensures var o := ReactSave(classes, true, None, SelectClass(c), true);
      o.Submit? && o.request.daytime == Some(c.daytime) && o.request.payRate == Some(c.payRate)
      && o.request.className == Trim(c.className) && o.request.classType == c.classType
  {
    assert [c.daytime[0]] == c.daytime;
  }
}

=== FILE: customers.dfy ===
/**
 * The customer endpoints. `add` assigns "Y" + 3 digits and ignores any ID the
 * client sends; the preview endpoint renders "C" + 5 digits from the same
 * counter, so the ID a client shows before saving is never the one stored.
 */
module CustomerController {
  import opened Wrappers
  import opened Text
  import opened Records
  import opened Ids
  import opened Seqs

  function CustomerIds(customers: seq<Customer>): seq<string> {
    seq(|customers|, i requires 0 <= i < |customers| => customers[i].customerId)
  }

  /** The ID `add` assigns: "Y" and the next number padded to 3 digits. */
  function AssignedCustomerId(customers: seq<Customer>): (id: string)
    ensures |id| >= 4 && id[0] == 'Y'
    ensures SuffixNumber(id) == Some(NextNumber(CustomerIds(customers)))
    ensures FixedWidth(CustomerIds(customers), "Y", 3) ==>
      forall j | 0 <= j < |customers| :: customers[j].customerId != id
  {
    var n := NextNumber(CustomerIds(customers));
    RenderRoundTrip("Y", n, 3);
    assert FixedWidth(CustomerIds(customers), "Y", 3) ==>
      forall j | 0 <= j < |customers| :: customers[j].customerId != Render("Y", n, 3) by {
      if FixedWidth(CustomerIds(customers), "Y", 3) {
        FreshUnderFixedWidth(CustomerIds(customers), "Y", 3);
        assert forall j | 0 <= j < |customers| :: customers[j].customerId == CustomerIds(customers)[j];
      }
    }
    Render("Y", n, 3)
  }

  /** `getNextId`: "C" and the next number padded to 5 digits. */
  function PreviewCustomerId(customers: seq<Customer>): (id: string)
    ensures |id| >= 6 && id[0] == 'C'
    ensures SuffixNumber(id) == Some(NextNumber(CustomerIds(customers)))
  {
    RenderRoundTrip("C", NextNumber(CustomerIds(customers)), 5);
    Render("C", NextNumber(CustomerIds(customers)), 5)
  }

  /** The preview and the assigned ID carry the same number but never agree. */
  lemma PreviewNeverMatchesAssigned(customers: seq<Customer>)
    ensures PreviewCustomerId(customers) != AssignedCustomerId(customers)
    ensures SuffixNumber(PreviewCustomerId(customers)) == SuffixNumber(AssignedCustomerId(customers))
  {
    assert PreviewCustomerId(customers)[0] != AssignedCustomerId(customers)[0];
  }

  /** The request body; `customerId` is whatever the client sent, `senior` None when absent. */
  datatype CustomerRequest = CustomerRequest(
    customerId: string,
    firstName: string,
    lastName: string,
    email: string,
    phone: string,
    address: string,
    preferredContact: string,
    senior: Option<bool>)

  datatype AddCustomerResponse = MissingFields | CustomerAdded(customerId: string)

  /**
   * `add`: 400 unless first name, last name, email and phone are all given;
   * otherwise a new customer with the assigned ID, `senior || false` and no
   * classes is appended.
   */
  function AddCustomer(store: Store, req: CustomerRequest): (r: (Store, AddCustomerResponse))
    ensures r.1.MissingFields? <==> req.firstName == "" || req.lastName == "" || req.email == "" || req.phone == ""
    ensures r.1.MissingFields? ==> r.0 == store
    ensures r.1.CustomerAdded? ==>
      r.1.customerId == AssignedCustomerId(store.customers)
      && r.0 == store.(customers := store.customers + [Customer(r.1.customerId, req.firstName, req.lastName,
           req.email, req.phone, req.address, req.preferredContact, 0, req.senior == Some(true))])
  {
    if req.firstName == "" || req.lastName == "" || req.email == "" || req.phone == "" then (store, MissingFields)
    else
      var id := AssignedCustomerId(store.customers);
      var c := Customer(id, req.firstName, req.lastName, req.email, req.phone, req.address,
                        req.preferredContact, 0, req.senior.GetOr(false));
      (store.(customers := store.customers + [c]), CustomerAdded(id))
  }

  /** Whatever customer ID the client sends makes no difference. */
  lemma AddCustomerIgnoresClientId(store: Store, req: CustomerRequest, other: string)
    ensures AddCustomer(store, req) == AddCustomer(store, req.(customerId := other))
  {
  }

  /**
   * `deleteCustomer`: 404 when no customer has the ID, else the first one with
   * it is removed; sales and check-ins that name it stay.
   */
  function DeleteCustomer(store: Store, customerId: string): (r: (Store, Removal<string>))
    ensures r.1.NotFound? <==> forall j | 0 <= j < |store.customers| :: store.customers[j].customerId != customerId
    ensures !r.1.CastFailed?
    ensures r.1.NotFound? ==> r.0 == store
    ensures r.0.sales == store.sales && r.0.attendance == store.attendance
    ensures r.1.Removed? ==>
      r.1.key == customerId
      && exists i | 0 <= i < |store.customers| ::
           store.customers[i].customerId == customerId
           && (forall j | 0 <= j < i :: store.customers[j].customerId != customerId)
           && r.0 == store.(customers := store.customers[..i] + store.customers[i + 1..])
  {
    var i := FirstIndex(store.customers, HasCustomerId(customerId));
    if i == |store.customers| then (store, NotFound)
    else (store.(customers := RemoveAt(store.customers, i)), Removed(customerId))
  }

  /** With fixed-width IDs, deleting the customer just added restores the store. */
  lemma AddThenDeleteRestores(store: Store, req: CustomerRequest)
    requires FixedWidth(CustomerIds(store.customers), "Y", 3)
    requires AddCustomer(store, req).1.CustomerAdded?
    ensures DeleteCustomer(AddCustomer(store, req).0, AddCustomer(store, req).1.customerId)
      == (store, Removed(AddCustomer(store, req).1.customerId))
  {
    var after := AddCustomer(store, req).0;
    var id := AddCustomer(store, req).1.customerId;
    var n := |store.customers|;
    assert |after.customers| == n + 1 && after.customers[n].customerId == id;
    assert forall j | 0 <= j < n :: after.customers[j] == store.customers[j];
    var i := FirstIndex(after.customers, HasCustomerId(id));
    assert i == n;
    assert RemoveAt(after.customers, n) == store.customers;
  }
}

=== FILE: dashboard.dfy ===
/**
 * The dashboard's statistics: the sizes of three collections and the revenue
 * of the sales paid within the current month. `month` is the window from the
 * first of the month at midnight to its last day at 23:59:59, which the
 * handler derives from the clock.
 */
module Dashboard {
  import opened Wrappers
  import opened Records
  import opened Seqs
  import opened Groups
  import Reports

  datatype DashboardStats = DashboardStats(
    totalInstructors: nat,
    totalClasses: nat,
    totalCustomers: nat,
    monthlyRevenue: int)

  /** `paymentDateTime: {$gte: startOfMonth, $lte: endOfMonth}` */
  function PaidWithin(w: Window): Sale -> bool {
    (s: Sale) => w.Contains(s.paymentDateTime)
  }

  /** `getStats`; a missing or NaN amount adds nothing (`amountPaid || 0`). */
  function Stats(store: Store, month: Window): (r: DashboardStats)
    ensures r.totalInstructors == |store.instructors|
    ensures r.totalClasses == |store.classes|
    ensures r.totalCustomers == |store.customers|
    ensures r.monthlyRevenue == SumOf(Filter(store.sales, PaidWithin(month)), OrZeroOf(Paid))
  {
    DashboardStats(|store.instructors|, |store.classes|, |store.customers|,
                   SumOf(Filter(store.sales, PaidWithin(month)), OrZeroOf(Paid)))
  }

  /** A new sale raises the month's revenue by its amount when paid within the month, and not at all otherwise. */
  lemma RecordedSaleRaisesRevenue(store: Store, month: Window, sale: Sale)
    ensures Stats(store.(sales := store.sales + [sale]), month).monthlyRevenue
      == Stats(store, month).monthlyRevenue + (if month.Contains(sale.paymentDateTime) then sale.amountPaid.OrZero() else 0)
  {
    var sales := store.sales + [sale];
    assert sales[..|sales| - 1] == store.sales;
    SumOfFilterStep(sales, PaidWithin(month), OrZeroOf(Paid));
    assert PaidWithin(month)(sale) == month.Contains(sale.paymentDateTime);
    assert Paid(sale) == sale.amountPaid;
    assert OrZeroOf(Paid)(sale) == sale.amountPaid.OrZero();
  }

  /**
   * The dashboard's revenue is the package sales report's revenue over the
   * same window, except that one NaN amount makes the report's total NaN
   * while the dashboard skips it.
   */
  lemma AgreesWithSalesReport(store: Store, month: Window)
    ensures var report := Reports.PackageSales(store, Some(month.lo), Some(month.hi));
      var sold := Filter(store.sales, PaidWithin(month));
      (report.totalRevenue.NaN? <==> exists j | 0 <= j < |sold| :: sold[j].amountPaid.NaN?)
      && (report.totalRevenue.Num? ==> report.totalRevenue.v == Stats(store, month).monthlyRevenue)
  {
    var sold := Filter(store.sales, PaidWithin(month));
    var p := Reports.InPeriod(Some(month.lo), Some(month.hi));
    FilterSamePredicate(store.sales, p, PaidWithin(month));
    NumTotalIsSum(sold, Paid);
  }
}

=== FILE: groups.dfy ===
/**
 * Group-by folds of the kind `if (!stats[k]) stats[k] = …; stats[k].x++`:
 * one group per distinct key, each holding exactly the input filtered by its
 * key, and sums over the groups add up to the sum over the input.
 */
module Groups {
  import opened Records
  import opened Seqs

  datatype Group<K, V> = Group(key: K, members: seq<V>)

  function KeyIs<K(==), V>(k: K): Group<K, V> -> bool {
    (x: Group<K, V>) => x.key == k
  }

  function Matching<K(==), V>(keyOf: V -> K, k: K): V -> bool {
    (v: V) => keyOf(v) == k
  }

  function Keys<K, V>(g: seq<Group<K, V>>): seq<K> {
    seq(|g|, i requires 0 <= i < |g| => g[i].key)
  }

  /** One step of the fold: v joins the group of key k, which is opened at the end when k is new. */
  function Add<K(==), V>(g: seq<Group<K, V>>, k: K, v: V): seq<Group<K, V>> {
    var i := FirstIndex(g, KeyIs(k));
    if i == |g| then g + [Group(k, [v])] else g[i := g[i].(members := g[i].members + [v])]
  }

  /** g groups s by keyOf: distinct keys, each group non-empty and holding exactly the elements of its key, every key present. */
  ghost predicate Partitions<K, V>(g: seq<Group<K, V>>, s: seq<V>, keyOf: V -> K) {
    (forall i, j | 0 <= i < j < |g| :: g[i].key != g[j].key)
    && (forall i | 0 <= i < |g| :: |g[i].members| > 0 && g[i].members == Filter(s, Matching(keyOf, g[i].key)))
    && (forall j | 0 <= j < |s| :: keyOf(s[j]) in Keys(g))
  }

  /** Add keeps the members of every group equal to the input filtered by its key. */
  lemma AddKeepsGroupsFiltered<K, V>(g: seq<Group<K, V>>, s: seq<V>, keyOf: V -> K, v: V)
    requires Partitions(g, s, keyOf)
    ensures var g' := Add(g, keyOf(v), v);
      forall x | 0 <= x < |g'| :: |g'[x].members| > 0 && g'[x].members == Filter(s + [v], Matching(keyOf, g'[x].key))
  {
    var k := keyOf(v);
    var s' := s + [v];
    assert s'[..|s|] == s && s'[|s|] == v;
    var g' := Add(g, k, v);
    var i := FirstIndex(g, KeyIs(k));
    forall x | 0 <= x < |g'|
      ensures |g'[x].members| > 0 && g'[x].members == Filter(s', Matching(keyOf, g'[x].key))
    {
      var p := Matching(keyOf, g'[x].key);
      assert Filter(s', p) == Filter(s, p) + (if p(v) then [v] else []);
      if x == |g| {
        assert i == |g| && g'[x] == Group(k, [v]);
        assert forall j | 0 <= j < |s| :: !p(s[j]);
        FilterNone(s, p);
      } else if x == i {
        assert g'[x].members == g[x].members + [v];
      } else {
        assert g'[x] == g[x];
        assert g[x].key != k by {
          if i < |g| {
            assert g[i].key == k;
          }
        }
      }
    }
  }

  /** After Add, every key of the extended input has a group. */
  lemma AddCoversKeys<K, V>(g: seq<Group<K, V>>, s: seq<V>, keyOf: V -> K, v: V)
    requires forall j | 0 <= j < |s| :: keyOf(s[j]) in Keys(g)
    ensures forall j | 0 <= j < |s + [v]| :: keyOf((s + [v])[j]) in Keys(Add(g, keyOf(v), v))
  {
    var k := keyOf(v);
    var s' := s + [v];
    var g' := Add(g, k, v);
    var i := FirstIndex(g, KeyIs(k));
    forall j | 0 <= j < |s'|
      ensures keyOf(s'[j]) in Keys(g')
    {
      if j < |s| {
        assert s'[j] == s[j];
        var x :| 0 <= x < |g| && Keys(g)[x] == keyOf(s[j]);
        assert Keys(g')[x] == keyOf(s[j]);
      } else {
        assert s'[j] == v;
        if i == |g| {
          assert Keys(g')[|g|] == k;
        } else {
          assert Keys(g')[i] == k;
        }
      }
    }
  }

  /** Add opens a group only for a key that has none, so keys stay distinct. */
  lemma AddKeepsKeysDistinct<K, V>(g: seq<Group<K, V>>, k: K, v: V)
    requires forall i, j | 0 <= i < j < |g| :: g[i].key != g[j].key
    ensures var g' := Add(g, k, v);
      forall x, y | 0 <= x < y < |g'| :: g'[x].key != g'[y].key
  {
    var g' := Add(g, k, v);
    var i := FirstIndex(g, KeyIs(k));
    forall x, y | 0 <= x < y < |g'|
      ensures g'[x].key != g'[y].key
    {
      if y == |g| {
        assert i == |g|;
        assert !KeyIs(k)(g[x]);
      } else {
        assert g'[x].key == g[x].key && g'[y].key == g[y].key;
      }
    }
  }

  lemma AddPartitions<K, V>(g: seq<Group<K, V>>, s: seq<V>, keyOf: V -> K, v: V)
    requires Partitions(g, s, keyOf)
    ensures Partitions(Add(g, keyOf(v), v), s + [v], keyOf)
  {
    AddKeepsGroupsFiltered(g, s, keyOf, v);
    AddCoversKeys(g, s, keyOf, v);
    AddKeepsKeysDistinct(g, keyOf(v), v);
  }

  /** The groups of s by keyOf, a group opened for each key not seen before. */
  function GroupBy<K(==), V>(s: seq<V>, keyOf: V -> K): (g: seq<Group<K, V>>)
    ensures |g| <= |s|
  {
    if |s| == 0 then [] else
      var g := GroupBy(s[..|s| - 1], keyOf);
      var k := keyOf(s[|s| - 1]);
      assert |Add(g, k, s[|s| - 1])| <= |g| + 1;
      Add(g, k, s[|s| - 1])
  }

  /** GroupBy meets its reference definition. */
  lemma {:induction false} GroupByPartitions<K, V>(s: seq<V>, keyOf: V -> K)
    ensures Partitions(GroupBy(s, keyOf), s, keyOf)
  {
    if |s| > 0 {
      var s0, last := s[..|s| - 1], s[|s| - 1];
      assert s0 + [last] == s;
      assert GroupBy(s, keyOf) == Add(GroupBy(s0, keyOf), keyOf(last), last);
      GroupByPartitions(s0, keyOf);
      AddPartitions(GroupBy(s0, keyOf), s0, keyOf, last);
    }
  }

  // ---------------------------------------------------------------------------
  // Integer sums

  function SumOf<V>(s: seq<V>, f: V -> int): int {
    if |s| == 0 then 0 else SumOf(s[..|s| - 1], f) + f(s[|s| - 1])
  }

  function One<V>(): V -> int {
    (v: V) => 1
  }

  lemma {:induction false} SumOfOnes<V>(s: seq<V>)
    ensures SumOf(s, One()) == |s|
  {
    if |s| > 0 {
      SumOfOnes(s[..|s| - 1]);
    }
  }

  /** A sum of values between 0 and 1 is at most the number of terms. */
  lemma {:induction false} IndicatorSumAtMost<V>(s: seq<V>, f: V -> int)
    requires forall v :: 0 <= f(v) <= 1
    ensures 0 <= SumOf(s, f) <= |s|
  {
    if |s| > 0 {
      IndicatorSumAtMost(s[..|s| - 1], f);
    }
  }

  lemma SumOfAppend<V>(s: seq<V>, v: V, f: V -> int)
    ensures SumOf(s + [v], f) == SumOf(s, f) + f(v)
  {
    assert (s + [v])[..|s|] == s;
  }

  /** The sum over every group's members. */
  function GroupsSum<K, V>(g: seq<Group<K, V>>, f: V -> int): int {
    if |g| == 0 then 0 else GroupsSum(g[..|g| - 1], f) + SumOf(g[|g| - 1].members, f)
  }

  lemma {:induction false} GroupsSumGrow<K, V>(g: seq<Group<K, V>>, i: nat, v: V, f: V -> int)
    requires i < |g|
    ensures GroupsSum(g[i := g[i].(members := g[i].members + [v])], f) == GroupsSum(g, f) + f(v)
    decreases |g|
  {
    var n := |g| - 1;
    var g' := g[i := g[i].(members := g[i].members + [v])];
    if i < n {
      assert g'[..n] == g[..n][i := g[i].(members := g[i].members + [v])];
      GroupsSumGrow(g[..n], i, v, f);
    } else {
      assert g'[..n] == g[..n];
      SumOfAppend(g[i].members, v, f);
    }
  }

  lemma AddSum<K, V>(g: seq<Group<K, V>>, k: K, v: V, f: V -> int)
    ensures GroupsSum(Add(g, k, v), f) == GroupsSum(g, f) + f(v)
  {
    var i := FirstIndex(g, KeyIs(k));
    if i == |g| {
      assert (g + [Group(k, [v])])[..|g|] == g;
      assert SumOf([v], f) == SumOf([v][..0], f) + f(v);
    } else {
      GroupsSumGrow(g, i, v, f);
    }
  }

  /** Summing group by group gives the sum over the input. */
  lemma {:induction false} GroupBySum<K, V>(s: seq<V>, keyOf: V -> K, f: V -> int)
    ensures GroupsSum(GroupBy(s, keyOf), f) == SumOf(s, f)
  {
    if |s| > 0 {
      var s0 := s[..|s| - 1];
      GroupBySum(s0, keyOf, f);
      AddSum(GroupBy(s0, keyOf), keyOf(s[|s| - 1]), s[|s| - 1], f);
    }
  }

  /** Every element lands in exactly one group: the group sizes add up to the input's length. */
  lemma GroupBySizes<K, V>(s: seq<V>, keyOf: V -> K)
    ensures GroupsSum(GroupBy(s, keyOf), One()) == |s|
  {
    GroupBySum(s, keyOf, One());
    SumOfOnes(s);
  }

  /** Sums agree over two sequences whose elements contribute the same, position by position. */
  lemma {:induction false} SumOfPointwise<V, W>(a: seq<V>, f: V -> int, b: seq<W>, g: W -> int)
    requires |a| == |b|
    requires forall i | 0 <= i < |a| :: f(a[i]) == g(b[i])
    ensures SumOf(a, f) == SumOf(b, g)
  {
    if |a| > 0 {
      SumOfPointwise(a[..|a| - 1], f, b[..|b| - 1], g);
    }
  }

  /** Two predicates that agree everywhere select the same elements. */
  lemma {:induction false} FilterSamePredicate<V>(s: seq<V>, p: V -> bool, q: V -> bool)
    requires forall v :: p(v) == q(v)
    ensures Filter(s, p) == Filter(s, q)
  {
    if |s| > 0 {
      FilterSamePredicate(s[..|s| - 1], p, q);
    }
  }

  lemma SumOfFilterStep<V>(s: seq<V>, p: V -> bool, f: V -> int)
    requires |s| > 0
    ensures SumOf(Filter(s, p), f)
      == SumOf(Filter(s[..|s| - 1], p), f) + (if p(s[|s| - 1]) then f(s[|s| - 1]) else 0)
  {
    var last := s[|s| - 1];
    var a := Filter(s[..|s| - 1], p);
    assert Filter(s, p) == a + (if p(last) then [last] else []);
    if p(last) {
      SumOfAppend(a, last, f);
    } else {
      assert a + [] == a;
    }
  }

  /** Filtering by a disjoint union sums to the two filters' sums. */
  lemma {:induction false} FilterSplitSum<V>(s: seq<V>, p: V -> bool, q: V -> bool, r: V -> bool, f: V -> int)
    requires forall v :: r(v) == (p(v) || q(v))
    requires forall v :: !(p(v) && q(v))
    ensures SumOf(Filter(s, r), f) == SumOf(Filter(s, p), f) + SumOf(Filter(s, q), f)
  {
    if |s| > 0 {
      FilterSplitSum(s[..|s| - 1], p, q, r, f);
      SumOfFilterStep(s, p, f);
      SumOfFilterStep(s, q, f);
      SumOfFilterStep(s, r, f);
    }
  }

  /** Some element of ws has v's key (`{$in: keys}`). */
  function InKeys<K(==), V, W>(ws: seq<W>, keyW: W -> K, keyV: V -> K): V -> bool {
    (v: V) => exists j | 0 <= j < |ws| :: keyW(ws[j]) == keyV(v)
  }

  /** For w, the sum of f over the elements of s with w's key. */
  function KeySum<K(==), V, W>(s: seq<V>, keyV: V -> K, keyW: W -> K, f: V -> int): W -> int {
    (w: W) => SumOf(Filter(s, Matching(keyV, keyW(w))), f)
  }

  /** No two elements of ws share a key (a unique index on the collection). */
  predicate DistinctKeys<K(==), W>(ws: seq<W>, keyW: W -> K) {
    forall i, j | 0 <= i < j < |ws| :: keyW(ws[i]) != keyW(ws[j])
  }

  /**
   * Summing key by key over distinct keys gives the sum over the elements whose
   * key is among them: no element is counted twice, and elements with an
   * unknown key are not counted.
   */
  lemma {:induction false} SumOverKeys<K, V, W>(ws: seq<W>, keyW: W -> K, s: seq<V>, keyV: V -> K, f: V -> int)
    requires forall i, j | 0 <= i < j < |ws| :: keyW(ws[i]) != keyW(ws[j])
    ensures SumOf(ws, KeySum(s, keyV, keyW, f)) == SumOf(Filter(s, InKeys(ws, keyW, keyV)), f)
  {
    if |ws| == 0 {
      FilterNone(s, InKeys(ws, keyW, keyV));
    } else {
      var ws0, w := ws[..|ws| - 1], ws[|ws| - 1];
      SumOverKeys(ws0, keyW, s, keyV, f);
      var p, q, r := InKeys(ws0, keyW, keyV), Matching(keyV, keyW(w)), InKeys(ws, keyW, keyV);
      forall v
        ensures r(v) == (p(v) || q(v)) && !(p(v) && q(v))
      {
        if p(v) {
          var j :| 0 <= j < |ws0| && keyW(ws0[j]) == keyV(v);
          assert ws[j] == ws0[j];
        }
        if q(v) {
          assert keyW(ws[|ws| - 1]) == keyV(v);
        }
        if r(v) {
          var j :| 0 <= j < |ws| && keyW(ws[j]) == keyV(v);
          if j < |ws0| {
            assert ws0[j] == ws[j];
          }
        }
      }
      FilterSplitSum(s, p, q, r, f);
    }
  }

  // ---------------------------------------------------------------------------
  // Sums of JavaScript numbers, where NaN absorbs

  /** `reduce((sum, x) => sum + f(x), 0)` */
  function NumTotal<V>(s: seq<V>, f: V -> Num): Num {
    if |s| == 0 then Num(0) else NumTotal(s[..|s| - 1], f).Plus(f(s[|s| - 1]))
  }

  /** `f(x) || 0` */
  function OrZeroOf<V>(f: V -> Num): V -> int {
    (x: V) => f(x).OrZero()
  }

  /** The total is NaN exactly when some element is NaN, and otherwise the plain sum. */
  lemma {:induction false} NumTotalIsSum<V>(s: seq<V>, f: V -> Num)
    ensures NumTotal(s, f).NaN? <==> exists j | 0 <= j < |s| :: f(s[j]).NaN?
    ensures NumTotal(s, f).Num? ==> NumTotal(s, f).v == SumOf(s, OrZeroOf(f))
  {
    if |s| > 0 {
      var s0 := s[..|s| - 1];
      NumTotalIsSum(s0, f);
      assert forall j | 0 <= j < |s0| :: s0[j] == s[j];
      if f(s[|s| - 1]).Num? && NumTotal(s0, f).Num? {
        assert forall j | 0 <= j < |s| :: f(s[j]).Num? by {
          forall j | 0 <= j < |s| ensures f(s[j]).Num? {
            if j < |s0| {
              assert s0[j] == s[j];
            }
          }
        }
      }
    }
  }

  function GroupsNumTotal<K, V>(g: seq<Group<K, V>>, f: V -> Num): Num {
    if |g| == 0 then Num(0) else GroupsNumTotal(g[..|g| - 1], f).Plus(NumTotal(g[|g| - 1].members, f))
  }

  lemma PlusRotate(a: Num, b: Num, c: Num)
    ensures a.Plus(b).Plus(c) == a.Plus(c).Plus(b)
    ensures a.Plus(b).Plus(c) == a.Plus(b.Plus(c))
  {
  }

  lemma {:induction false} GroupsNumTotalGrow<K, V>(g: seq<Group<K, V>>, i: nat, v: V, f: V -> Num)
    requires i < |g|
    ensures GroupsNumTotal(g[i := g[i].(members := g[i].members + [v])], f) == GroupsNumTotal(g, f).Plus(f(v))
    decreases |g|
  {
    var n := |g| - 1;
    var g' := g[i := g[i].(members := g[i].members + [v])];
    if i < n {
      assert g'[..n] == g[..n][i := g[i].(members := g[i].members + [v])];
      GroupsNumTotalGrow(g[..n], i, v, f);
      PlusRotate(GroupsNumTotal(g[..n], f), f(v), NumTotal(g[n].members, f));
    } else {
      assert g'[..n] == g[..n];
      assert (g[i].members + [v])[..|g[i].members|] == g[i].members;
      PlusRotate(GroupsNumTotal(g[..n], f), NumTotal(g[i].members, f), f(v));
    }
  }

  lemma AddNumTotal<K, V>(g: seq<Group<K, V>>, k: K, v: V, f: V -> Num)
    ensures GroupsNumTotal(Add(g, k, v), f) == GroupsNumTotal(g, f).Plus(f(v))
  {
    var i := FirstIndex(g, KeyIs(k));
    if i == |g| {
      assert (g + [Group(k, [v])])[..|g|] == g;
      assert NumTotal([v], f) == Num(0).Plus(f(v)) by {
        assert [v][..0] == [];
      }
      PlusRotate(GroupsNumTotal(g, f), Num(0), f(v));
    } else {
      GroupsNumTotalGrow(g, i, v, f);
    }
  }

  /** Totalling group by group gives the total over the input, NaN included. */
  lemma {:induction false} GroupByNumTotal<K, V>(s: seq<V>, keyOf: V -> K, f: V -> Num)
    ensures GroupsNumTotal(GroupBy(s, keyOf), f) == NumTotal(s, f)
  {
    if |s| > 0 {
      var s0 := s[..|s| - 1];
      GroupByNumTotal(s0, keyOf, f);
      AddNumTotal(GroupBy(s0, keyOf), keyOf(s[|s| - 1]), s[|s| - 1], f);
    }
  }
}

=== FILE: ids.dfy ===
/**
 * Sequential ID generation. String IDs: take the string-greatest stored ID
 * (`find().sort({id: -1}).limit(1)`), read its trailing digits, add one
 * (1 when there is no ID or no digits), and render prefix + zero-padded number.
 * Numeric IDs (sales, check-ins): greatest stored value + 1, or 1.
 */
module Ids {
  import opened Wrappers
  import opened Text

  /** The string-greatest ID, the one a descending sort puts first. */
  function Greatest(ids: seq<string>): (g: string)
    requires |ids| > 0
    ensures g in ids
    ensures forall id | id in ids :: StrLe(id, g)
  {
    if |ids| == 1 then ids[0]
    else
      var g := Greatest(ids[1..]);
      assert forall id | id in ids :: id == ids[0] || id in ids[1..];
      if StrLess(g, ids[0]) then
        assert forall id | id in ids[1..] :: StrLe(id, ids[0]) by {
          forall id | id in ids[1..] ensures StrLe(id, ids[0]) {
            StrLeTransitive(id, g, ids[0]);
          }
        }
        ids[0]
      else
        StrLessTotal(g, ids[0]);
        g
  }

  /** The number `parseInt(id.match(/\d+$/)[0])`, None when the match fails. */
  function SuffixNumber(id: string): (n: Option<nat>)
    ensures n.None? <==> |TrailingDigits(id)| == 0
  {
    var d := TrailingDigits(id);
    if |d| == 0 then None else Some(Value(d))
  }

  /** `maxNumber`: one past the suffix of the string-greatest ID, or 1. */
  function NextNumber(ids: seq<string>): (n: nat)
    ensures n >= 1
    ensures |ids| == 0 ==> n == 1
  {
    if |ids| == 0 then 1
    else match SuffixNumber(Greatest(ids))
      case None => 1
      case Some(v) => v + 1
  }

  /** `${prefix}${n.toString().padStart(width, '0')}` */
  function Render(prefix: string, n: nat, width: nat): string {
    prefix + PadStart(Decimal(n), width)
  }

  predicate EndsInNonDigit(prefix: string) {
    |prefix| == 0 || !IsDigit(prefix[|prefix| - 1])
  }

  /** Reading back a rendered ID gives the number it was rendered from. */
  lemma RenderRoundTrip(prefix: string, n: nat, width: nat)
    requires EndsInNonDigit(prefix)
    ensures SuffixNumber(Render(prefix, n, width)) == Some(n)
  {
    var dec := Decimal(n);
    var padded := PadStart(dec, width);
    var z := padded[..|padded| - |dec|];
    assert padded == z + dec;
    ValueIgnoresLeadingZeros(z, dec);
    TrailingDigitsAfterPrefix(prefix, padded);
  }

  /** Every ID is the prefix followed by exactly `width` digits. */
  predicate FixedWidth(ids: seq<string>, prefix: string, width: nat) {
    forall id | id in ids ::
      |id| == |prefix| + width && id[..|prefix|] == prefix && AllDigits(id[|prefix|..])
  }

  lemma FixedWidthSuffix(id: string, prefix: string, width: nat)
    requires EndsInNonDigit(prefix)
    requires |id| == |prefix| + width && id[..|prefix|] == prefix && AllDigits(id[|prefix|..])
    ensures TrailingDigits(id) == id[|prefix|..]
  {
    assert id == prefix + id[|prefix|..];
    TrailingDigitsAfterPrefix(prefix, id[|prefix|..]);
  }

  /** Between two fixed-width IDs of one prefix, the string-greater one has the greater suffix. */
  lemma SuffixFollowsStringOrder(id: string, g: string, prefix: string, width: nat)
    requires EndsInNonDigit(prefix) && width > 0
    requires FixedWidth([id, g], prefix, width)
    requires StrLe(id, g)
    ensures SuffixNumber(id).Some? && SuffixNumber(g).Some?
    ensures SuffixNumber(id).value <= SuffixNumber(g).value
  {
    assert id in [id, g] && g in [id, g];
    FixedWidthSuffix(id, prefix, width);
    FixedWidthSuffix(g, prefix, width);
    var a, b := id[|prefix|..], g[|prefix|..];
    assert id == prefix + a && g == prefix + b;
    StrLessCommonPrefix(prefix, a, b);
    StrLessIsNumericOnEqualWidth(a, b);
  }

  /**
   * When every stored ID has the same prefix and the same number of digits,
   * string order agrees with numeric order, so the next number exceeds every
   * stored suffix and the rendered ID is new.
   */
  lemma FreshUnderFixedWidth(ids: seq<string>, prefix: string, width: nat)
    requires EndsInNonDigit(prefix) && width > 0
    requires FixedWidth(ids, prefix, width)
    ensures forall id | id in ids :: SuffixNumber(id).Some? && SuffixNumber(id).value < NextNumber(ids)
    ensures Render(prefix, NextNumber(ids), width) !in ids
  {
    if |ids| > 0 {
      var g := Greatest(ids);
      forall id | id in ids
        ensures SuffixNumber(id).Some? && SuffixNumber(id).value < NextNumber(ids)
      {
        assert FixedWidth([id, g], prefix, width);
        SuffixFollowsStringOrder(id, g, prefix, width);
      }
      RenderRoundTrip(prefix, NextNumber(ids), width);
    }
  }

  /** A number below 10^width renders in the fixed width, so appending it keeps the IDs fixed-width. */
  lemma RenderKeepsFixedWidth(ids: seq<string>, prefix: string, n: nat, width: nat)
    requires width >= 1 && n < Pow10(width)
    requires FixedWidth(ids, prefix, width)
    ensures FixedWidth(ids + [Render(prefix, n, width)], prefix, width)
  {
    var d := Decimal(n);
    DecimalWidth(n, width);
    var p := PadStart(d, width);
    assert |p| == width;
    assert AllDigits(p);
    var id := prefix + p;
    assert id == Render(prefix, n, width);
    assert id[..|prefix|] == prefix && id[|prefix|..] == p;
    assert forall x | x in ids + [id] :: x in ids || x == id;
  }

  /** While the IDs stay fixed-width, appending the generated ID moves the generator on to a different one. */
  lemma NextAfterAppendDiffers(ids: seq<string>, prefix: string, width: nat)
    requires EndsInNonDigit(prefix) && width >= 1
    requires FixedWidth(ids, prefix, width) && NextNumber(ids) < Pow10(width)
    ensures Render(prefix, NextNumber(ids + [Render(prefix, NextNumber(ids), width)]), width)
      != Render(prefix, NextNumber(ids), width)
  {
    var id := Render(prefix, NextNumber(ids), width);
    RenderKeepsFixedWidth(ids, prefix, NextNumber(ids), width);
    FreshUnderFixedWidth(ids + [id], prefix, width);
    assert id in ids + [id];
  }

  lemma RolloverNextNumber(older: string, newer: string)
    requires older == "A999" && newer == "A1000"
    ensures NextNumber([older, newer]) == 1000
  {
    var ids := [older, newer];
    assert Greatest(ids) == older by {
      assert ids[1..] == [newer];
      assert StrLess(newer, older) by {
        assert newer[0] == older[0];
        assert newer[1..] == "1000" && older[1..] == "999";
        assert "1000"[0] < "999"[0];
      }
    }
    assert SuffixNumber(older) == Some(999) by {
      assert older == "A" + "999";
      TrailingDigitsAfterPrefix("A", "999");
      assert Value("999") == 999 by {
        assert "999"[..2] == "99" && "99"[..1] == "9" && "9"[..0] == "";
      }
    }
  }

  /**
   * The string-greatest choice is not the numeric maximum once a suffix
   * outgrows the padding: with A999 and A1000 stored, the generator hands out
   * A1000 again.
   */
  lemma RolloverRepeatsId(older: string, newer: string)
    requires older == "A999" && newer == "A1000"
    ensures NextNumber([older, newer]) == 1000
    ensures Render("A", NextNumber([older, newer]), 3) == newer
  {
    RolloverNextNumber(older, newer);
    ThousandRendersWide();
  }

  lemma ThousandRendersWide()
    ensures Render("A", 1000, 3) == "A1000"
  {
    assert Decimal(1000) == "1000" by {
      assert Decimal(1) == "1";
      assert Decimal(10) == Decimal(1) + ['0'];
      assert Decimal(100) == Decimal(10) + ['0'];
      assert Decimal(1000) == Decimal(100) + ['0'];
    }
    assert PadStart("1000", 3) == "1000";
    assert "A" + "1000" == "A1000";
  }

  lemma {:induction false} Pow10Monotone(a: nat, b: nat)
    requires a <= b
    ensures Pow10(a) <= Pow10(b)
    decreases b
  {
    if a < b {
      Pow10Monotone(a, b - 1);
    }
  }

  /** `n.toString()` fits in w characters exactly when n < 10^w. */
  lemma DecimalWidth(n: nat, w: nat)
    requires w >= 1
    ensures |Decimal(n)| <= w <==> n < Pow10(w)
  {
    var s := Decimal(n);
    ValueBound(s);
    if |s| <= w {
      Pow10Monotone(|s|, w);
    } else {
      ValueFront(s);
      assert DigitValue(s[0]) >= 1;
      MulAtLeastOnce(DigitValue(s[0]), Pow10(|s| - 1));
      Pow10Monotone(w, |s| - 1);
    }
  }

  /** Padding the same number to two widths gives the same ID exactly when the number needs the wider width anyway. */
  lemma PaddingWidthsAgree(prefix: string, n: nat, narrow: nat, wide: nat)
    requires 1 <= narrow < wide
    ensures Render(prefix, n, narrow) == Render(prefix, n, wide) <==> n >= Pow10(wide - 1)
  {
    DecimalWidth(n, wide - 1);
    var d := Decimal(n);
    var a, b := PadStart(d, narrow), PadStart(d, wide);
    assert Render(prefix, n, narrow) == prefix + a && Render(prefix, n, wide) == prefix + b;
    if |d| < wide {
      assert |b| == wide;
      if |d| >= narrow {
        assert a == d;
      } else {
        assert |a| == narrow;
      }
      assert |prefix + a| < |prefix + b|;
    } else {
      assert a == d && b == d;
    }
  }

  // ---------------------------------------------------------------------------
  // Numeric IDs

  function MaxOf(xs: seq<int>): (m: int)
    requires |xs| > 0
    ensures m in xs
    ensures forall x | x in xs :: x <= m
  {
    if |xs| == 1 then xs[0]
    else
      var m := MaxOf(xs[1..]);
      assert forall x | x in xs :: x == xs[0] || x in xs[1..];
      if xs[0] > m then xs[0] else m
  }

  /** `last + 1` after a descending numeric sort, or 1: one past the greatest stored value. */
  function NextSeq(ids: seq<int>): (n: int)
    ensures |ids| == 0 ==> n == 1
    ensures |ids| > 0 ==> n - 1 in ids
    ensures forall id | id in ids :: id < n
  {
    if |ids| == 0 then 1 else MaxOf(ids) + 1
  }
}

=== FILE: instructors.dfy ===
/**
 * The instructor endpoints. `add` and the preview endpoint share one ID rule,
 * "I" + 5 digits, so the previewed ID is the one stored.
 */
module InstructorController {
  import opened Wrappers
  import opened Text
  import opened Records
  import opened Ids
  import opened Seqs

  function InstructorIds(instructors: seq<Instructor>): seq<string> {
    seq(|instructors|, i requires 0 <= i < |instructors| => instructors[i].instructorId)
  }

  lemma InstructorIdsAppend(instructors: seq<Instructor>, x: Instructor)
    ensures InstructorIds(instructors + [x]) == InstructorIds(instructors) + [x.instructorId]
  {
    var a, b := InstructorIds(instructors + [x]), InstructorIds(instructors) + [x.instructorId];
    forall i | 0 <= i < |a|
      ensures a[i] == b[i]
    {
      if i < |instructors| {
        assert (instructors + [x])[i] == instructors[i];
      }
    }
  }

  /** The next instructor ID, for both `add` and `getNextId`: "I" and the next number padded to 5 digits. */
  function NextInstructorId(instructors: seq<Instructor>): (id: string)
    ensures |id| >= 6 && id[0] == 'I'
    ensures SuffixNumber(id) == Some(NextNumber(InstructorIds(instructors)))
    ensures FixedWidth(InstructorIds(instructors), "I", 5) ==>
      forall j | 0 <= j < |instructors| :: instructors[j].instructorId != id
  {
    var n := NextNumber(InstructorIds(instructors));
    RenderRoundTrip("I", n, 5);
    assert FixedWidth(InstructorIds(instructors), "I", 5) ==>
      forall j | 0 <= j < |instructors| :: instructors[j].instructorId != Render("I", n, 5) by {
      if FixedWidth(InstructorIds(instructors), "I", 5) {
        FreshUnderFixedWidth(InstructorIds(instructors), "I", 5);
        assert forall j | 0 <= j < |instructors| :: instructors[j].instructorId == InstructorIds(instructors)[j];
      }
    }
    Render("I", n, 5)
  }

  datatype InstructorRequest = InstructorRequest(
    firstName: string,
    lastName: string,
    email: string,
    phone: string,
    address: string,
    preferredContact: string)

  datatype AddInstructorResponse = MissingFields | InstructorAdded(instructorId: string)

  /** `add`: 400 unless first name, last name, email and phone are given; otherwise appended with the next ID. */
  function AddInstructor(store: Store, req: InstructorRequest): (r: (Store, AddInstructorResponse))
    ensures r.1.MissingFields? <==> req.firstName == "" || req.lastName == "" || req.email == "" || req.phone == ""
    ensures r.1.MissingFields? ==> r.0 == store
    ensures r.1.InstructorAdded? ==>
      r.1.instructorId == NextInstructorId(store.instructors)
      && r.0 == store.(instructors := store.instructors + [Instructor(r.1.instructorId, req.firstName,
           req.lastName, req.email, req.phone, req.address, req.preferredContact)])
  {
    if req.firstName == "" || req.lastName == "" || req.email == "" || req.phone == "" then (store, MissingFields)
    else
      var id := NextInstructorId(store.instructors);
      (store.(instructors := store.instructors + [Instructor(id, req.firstName, req.lastName, req.email,
                                                             req.phone, req.address, req.preferredContact)]),
       InstructorAdded(id))
  }

  /** Once the next ID is appended, the next ID after it is a different one. */
  lemma AppendedIdIsNotNext(instructors: seq<Instructor>, x: Instructor)
    requires FixedWidth(InstructorIds(instructors), "I", 5)
    requires NextNumber(InstructorIds(instructors)) < Pow10(5)
    requires x.instructorId == NextInstructorId(instructors)
    ensures NextInstructorId(instructors + [x]) != x.instructorId
  {
    var ids := InstructorIds(instructors);
    var ids' := InstructorIds(instructors + [x]);
    var id := Render("I", NextNumber(ids), 5);
    assert x.instructorId == id;
    InstructorIdsAppend(instructors, x);
    assert Render("I", NextNumber(ids'), 5) != id by {
      NextAfterAppendDiffers(ids, "I", 5);
    }
    assert NextInstructorId(instructors + [x]) == Render("I", NextNumber(ids'), 5);
  }

  /** Adding twice hands out two different IDs while the IDs stay fixed-width (below 100000). */
  lemma SuccessiveAddsGetDistinctIds(store: Store, a: InstructorRequest, b: InstructorRequest)
    requires FixedWidth(InstructorIds(store.instructors), "I", 5)
    requires NextNumber(InstructorIds(store.instructors)) < 100000
    requires AddInstructor(store, a).1.InstructorAdded?
    requires AddInstructor(AddInstructor(store, a).0, b).1.InstructorAdded?
    ensures AddInstructor(store, a).1.instructorId != AddInstructor(AddInstructor(store, a).0, b).1.instructorId
  {
    var after := AddInstructor(store, a).0;
    var x := after.instructors[|store.instructors|];
    assert after.instructors == store.instructors + [x];
    assert Pow10(5) == 100000;
    AppendedIdIsNotNext(store.instructors, x);
  }

  /** `deleteInstructor`: 404 when no instructor has the ID, else the first one with it is removed; its classes stay. */
  function DeleteInstructor(store: Store, instructorId: string): (r: (Store, Removal<string>))
    ensures r.1.NotFound? <==>
      forall j | 0 <= j < |store.instructors| :: store.instructors[j].instructorId != instructorId
    ensures !r.1.CastFailed?
    ensures r.1.NotFound? ==> r.0 == store
    ensures r.0.classes == store.classes
    ensures r.1.Removed? ==>
      r.1.key == instructorId
      && exists i | 0 <= i < |store.instructors| ::
           store.instructors[i].instructorId == instructorId
           && (forall j | 0 <= j < i :: store.instructors[j].instructorId != instructorId)
           && r.0 == store.(instructors := store.instructors[..i] + store.instructors[i + 1..])
  {
    var i := FirstIndex(store.instructors, HasInstructorId(instructorId));
    if i == |store.instructors| then (store, NotFound)
    else (store.(instructors := RemoveAt(store.instructors, i)), Removed(instructorId))
  }

  /** With fixed-width IDs, deleting the instructor just added restores the store. */
  lemma AddThenDeleteRestores(store: Store, req: InstructorRequest)
    requires FixedWidth(InstructorIds(store.instructors), "I", 5)
    requires AddInstructor(store, req).1.InstructorAdded?
    ensures DeleteInstructor(AddInstructor(store, req).0, AddInstructor(store, req).1.instructorId)
      == (store, Removed(AddInstructor(store, req).1.instructorId))
  {
    var after := AddInstructor(store, req).0;
    var id := AddInstructor(store, req).1.instructorId;
    var n := |store.instructors|;
    assert |after.instructors| == n + 1 && after.instructors[n].instructorId == id;
    assert forall j | 0 <= j < n :: after.instructors[j] == store.instructors[j];
    var i := FirstIndex(after.instructors, HasInstructorId(id));
    assert i == n;
    assert RemoveAt(after.instructors, n) == store.instructors;
  }
}

=== FILE: packages.dfy ===
/**
 * The package endpoints. `add` prefixes "S" for the Senior category and "P"
 * otherwise, padded to 3 digits, but draws the number from one counter over
 * all packages; the preview endpoint always renders "P" padded to 4 digits.
 */
module PackageController {
  import opened Wrappers
  import opened Text
  import opened Records
  import opened Ids
  import opened Seqs

  function PackageIds(packages: seq<Package>): seq<string> {
    seq(|packages|, i requires 0 <= i < |packages| => packages[i].packageId)
  }

  function CategoryPrefix(category: string): (p: string)
    ensures p == (if category == "Senior" then "S" else "P")
  {
    if category == "Senior" then "S" else "P"
  }

  /** The ID `add` assigns: the category letter and the next number of the shared counter, padded to 3 digits. */
  function AssignedPackageId(packages: seq<Package>, category: string): (id: string)
    ensures |id| >= 4 && id[0] == (if category == "Senior" then 'S' else 'P')
    ensures SuffixNumber(id) == Some(NextNumber(PackageIds(packages)))
  {
    RenderRoundTrip(CategoryPrefix(category), NextNumber(PackageIds(packages)), 3);
    Render(CategoryPrefix(category), NextNumber(PackageIds(packages)), 3)
  }

  /** `getNextId`: "P" and the next number padded to 4 digits. */
  function PreviewPackageId(packages: seq<Package>): (id: string)
    ensures |id| >= 5 && id[0] == 'P'
    ensures SuffixNumber(id) == Some(NextNumber(PackageIds(packages)))
  {
    RenderRoundTrip("P", NextNumber(PackageIds(packages)), 4);
    Render("P", NextNumber(PackageIds(packages)), 4)
  }

  /**
   * The preview names the ID `add` will assign only for a non-Senior package
   * once the counter reaches 1000; before that the widths differ.
   */
  lemma PreviewMatchesOnlyFromThousand(packages: seq<Package>, category: string)
    ensures PreviewPackageId(packages) == AssignedPackageId(packages, category)
      <==> category != "Senior" && NextNumber(PackageIds(packages)) >= 1000
  {
    var n := NextNumber(PackageIds(packages));
    PaddingWidthsAgree("P", n, 3, 4);
    assert Pow10(3) == 1000;
    if category == "Senior" {
      assert PreviewPackageId(packages)[0] != AssignedPackageId(packages, category)[0];
    }
  }

  lemma SharedCounterNextNumber(p1: string, p2: string, s1: string)
    requires p1 == "P001" && p2 == "P002" && s1 == "S001"
    ensures NextNumber([p1, p2, s1]) == 2
  {
    var ids := [p1, p2, s1];
    var tail := [p2, s1];
    assert Greatest(tail) == s1 by {
      assert tail[1..] == [s1];
      assert Greatest([s1]) == s1;
      assert s1[0] != p2[0] && !StrLess(s1, p2);
    }
    assert Greatest(ids) == s1 by {
      assert ids[1..] == tail;
      assert s1[0] != p1[0] && !StrLess(s1, p1);
    }
    assert SuffixNumber(s1) == Some(1) by {
      var digits := "001";
      assert AllDigits(digits);
      assert s1 == "S" + digits;
      TrailingDigitsAfterPrefix("S", digits);
      assert Value(digits) == 1 by {
        assert digits[..2] == "00" && "00"[..1] == "0" && "0"[..0] == "";
      }
    }
  }

  lemma TwoRendersPadded()
    ensures Render("P", 2, 3) == "P002"
  {
    assert Decimal(2) == "2";
    assert Zeros(2) == "00" by {
      assert Zeros(1) == "0";
    }
    assert PadStart("2", 3) == "002";
    assert "P" + "002" == "P002";
  }

  /**
   * The shared counter repeats IDs across prefixes: with P001, P002 and S001
   * stored, "S001" sorts last, so the next General package is given P002 again.
   */
  lemma SharedCounterRepeatsId(p1: string, p2: string, s1: string)
    requires p1 == "P001" && p2 == "P002" && s1 == "S001"
    ensures NextNumber([p1, p2, s1]) == 2
    ensures Render(CategoryPrefix("General"), NextNumber([p1, p2, s1]), 3) == p2
  {
    SharedCounterNextNumber(p1, p2, s1);
    TwoRendersPadded();
  }

  /**
   * The request body; `price` is None when the body's price is falsy, else
   * what `parseFloat` reads from it (possibly NaN).
   */
  datatype PackageRequest = PackageRequest(
    packageName: string,
    description: Option<string>,
    packageCategory: string,
    numberOfClasses: string,
    classType: string,
    price: Option<Num>)

  /** 400, the 500 of a document the schema rejects, or 201 with the new ID. */
  datatype AddPackageResponse = MissingFields | SaveFailed | PackageAdded(packageId: string)

  predicate PackageRequestComplete(req: PackageRequest) {
    req.packageName != "" && req.packageCategory != "" && req.numberOfClasses != "" && req.classType != ""
      && req.price.Some?
  }

  const Categories: set<string> := {"General", "Senior"}
  const ClassCounts: set<string> := {"1", "4", "10", "unlimited"}
  const ClassTypes: set<string> := {"General", "Special"}

  /**
   * What the package schema checks on save: the three enums, a price that
   * casts to a number, and the two required dates, which `dated` says are set.
   */
  predicate SchemaAccepts(req: PackageRequest, dated: bool)
    requires PackageRequestComplete(req)
  {
    req.packageCategory in Categories && req.numberOfClasses in ClassCounts && req.classType in ClassTypes
      && req.price.value.Num? && dated
  }

  /**
   * `add` as the code stands: the document it builds never carries the
   * `startDate` and `endDate` the schema requires, so a complete request
   * always fails validation with 500.
   */
  function AddPackageAsWritten(store: Store, req: PackageRequest): (r: (Store, AddPackageResponse))
    ensures r.1.MissingFields? <==> !PackageRequestComplete(req)
    ensures r.1.SaveFailed? <==> PackageRequestComplete(req)
    ensures r.0 == store
  {
    SaveNewPackage(store, req, false)
  }

  /**
   * The discrepancy: a request the schema's enums and price accept fails
   * through the code as written, and is stored once the dates are supplied.
   */
  lemma AsWrittenRefusesWhatIsAccepted(store: Store, req: PackageRequest)
    requires PackageRequestComplete(req)
    requires req.packageCategory in Categories && req.numberOfClasses in ClassCounts && req.classType in ClassTypes
    requires req.price.value.Num?
    ensures AddPackageAsWritten(store, req) == (store, SaveFailed)
    ensures AddPackage(store, req).1.PackageAdded?
  {
  }

  /**
   * `add` with the required dates supplied (their values are not part of this
   * model): 400 unless name, category, number of classes, class type and a
   * truthy price are given; 500 when an enum or the price fails the schema;
   * otherwise appended under the category's next ID.
   */
  function AddPackage(store: Store, req: PackageRequest): (r: (Store, AddPackageResponse))
    ensures r.1.MissingFields? <==> !PackageRequestComplete(req)
    ensures r.1.SaveFailed? <==> PackageRequestComplete(req) && !SchemaAccepts(req, true)
    ensures !r.1.PackageAdded? ==> r.0 == store
    ensures r.1.PackageAdded? ==>
      r.1.packageId == AssignedPackageId(store.packages, req.packageCategory)
      && r.0 == store.(packages := store.packages + [Package(r.1.packageId, req.packageName, req.description,
           req.packageCategory, req.numberOfClasses, req.classType, req.price.value.v)])
  {
    SaveNewPackage(store, req, true)
  }

  function SaveNewPackage(store: Store, req: PackageRequest, dated: bool): (Store, AddPackageResponse) {
    if !PackageRequestComplete(req) then (store, MissingFields)
    else if !SchemaAccepts(req, dated) then (store, SaveFailed)
    else
      var id := AssignedPackageId(store.packages, req.packageCategory);
      (store.(packages := store.packages + [Package(id, req.packageName, req.description, req.packageCategory,
                                                    req.numberOfClasses, req.classType, req.price.value.v)]),
       PackageAdded(id))
  }

  /** When every stored ID is "P" + 3 digits, a non-Senior package gets a new ID. */
  lemma GeneralAddIsFreshUnderFixedWidth(store: Store, req: PackageRequest)
    requires FixedWidth(PackageIds(store.packages), "P", 3)
    requires req.packageCategory != "Senior"
    requires AddPackage(store, req).1.PackageAdded?
    ensures forall j | 0 <= j < |store.packages| :: store.packages[j].packageId != AddPackage(store, req).1.packageId
  {
    assert AddPackage(store, req).1.packageId == AssignedPackageId(store.packages, req.packageCategory);
    GeneralIdIsFresh(store.packages, req.packageCategory);
  }

  /** The store-level half: a "P" ID from the shared counter is new among "P" + 3 digit IDs. */
  lemma GeneralIdIsFresh(packages: seq<Package>, category: string)
    requires FixedWidth(PackageIds(packages), "P", 3)
    requires category != "Senior"
    ensures forall j | 0 <= j < |packages| :: packages[j].packageId != AssignedPackageId(packages, category)
  {
    var ids := PackageIds(packages);
    var id := AssignedPackageId(packages, category);
    assert CategoryPrefix(category) == "P" && EndsInNonDigit("P");
    assert id == Render("P", NextNumber(ids), 3);
    FreshUnderFixedWidth(ids, "P", 3);
    forall j | 0 <= j < |packages|
      ensures packages[j].packageId != id
    {
      assert packages[j].packageId == ids[j] && ids[j] in ids;
    }
  }

  /** `deletePackage`: 404 when no package has the ID, else the first one with it is removed; sales stay. */
  function DeletePackage(store: Store, packageId: string): (r: (Store, Removal<string>))
    ensures r.1.NotFound? <==> forall j | 0 <= j < |store.packages| :: store.packages[j].packageId != packageId
    ensures !r.1.CastFailed?
    ensures r.1.NotFound? ==> r.0 == store
    ensures r.0.sales == store.sales
    ensures r.1.Removed? ==>
      r.1.key == packageId
      && exists i | 0 <= i < |store.packages| ::
           store.packages[i].packageId == packageId
           && (forall j | 0 <= j < i :: store.packages[j].packageId != packageId)
           && r.0 == store.(packages := store.packages[..i] + store.packages[i + 1..])
  {
    var i := FirstIndex(store.packages, HasPackageId(packageId));
    if i == |store.packages| then (store, NotFound)
    else (store.(packages := RemoveAt(store.packages, i)), Removed(packageId))
  }

  /** An ID starting with a letter other than "P" is not among "P"-prefixed fixed-width IDs. */
  lemma OtherPrefixIsFresh(ids: seq<string>, id: string)
    requires FixedWidth(ids, "P", 3)
    requires |id| > 0 && id[0] != 'P'
    ensures forall k | 0 <= k < |ids| :: ids[k] != id
  {
    forall k | 0 <= k < |ids|
      ensures ids[k] != id
    {
      assert ids[k] in ids;
      assert ids[k][..1] == "P";
      assert ids[k][0] == ids[k][..1][0];
    }
  }

  /** When every stored ID is "P" + 3 digits, a Senior package's "S" ID is new. */
  lemma SeniorAddIsFreshUnderFixedWidth(store: Store, req: PackageRequest)
    requires FixedWidth(PackageIds(store.packages), "P", 3)
    requires req.packageCategory == "Senior"
    requires AddPackage(store, req).1.PackageAdded?
    ensures forall j | 0 <= j < |store.packages| :: store.packages[j].packageId != AddPackage(store, req).1.packageId
  {
    assert AddPackage(store, req).1.packageId == AssignedPackageId(store.packages, req.packageCategory);
    SeniorIdIsFresh(store.packages, req.packageCategory);
  }

  /** The store-level half: an "S" ID is never among "P" + 3 digit IDs. */
  lemma SeniorIdIsFresh(packages: seq<Package>, category: string)
    requires FixedWidth(PackageIds(packages), "P", 3)
    requires category == "Senior"
    ensures forall j | 0 <= j < |packages| :: packages[j].packageId != AssignedPackageId(packages, category)
  {
    var ids := PackageIds(packages);
    var id := AssignedPackageId(packages, category);
    OtherPrefixIsFresh(ids, id);
    forall j | 0 <= j < |packages|
      ensures packages[j].packageId != id
    {
      assert packages[j].packageId == ids[j];
    }
  }

  /** With every stored ID "P" + 3 digits, the ID `add` assigns, of either category, is new. */
  lemma AddedIdIsFreshUnderFixedWidth(store: Store, req: PackageRequest)
    requires FixedWidth(PackageIds(store.packages), "P", 3)
    requires AddPackage(store, req).1.PackageAdded?
    ensures forall j | 0 <= j < |store.packages| :: store.packages[j].packageId != AddPackage(store, req).1.packageId
  {
    if req.packageCategory == "Senior" {
      SeniorAddIsFreshUnderFixedWidth(store, req);
    } else {
      GeneralAddIsFreshUnderFixedWidth(store, req);
    }
  }

  /** A package whose ID no stored package has is the first with it once appended, and removing it undoes the append. */
  lemma FreshPackageIsFirst(packages: seq<Package>, p: Package)
    requires forall j | 0 <= j < |packages| :: packages[j].packageId != p.packageId
    ensures FirstIndex(packages + [p], HasPackageId(p.packageId)) == |packages|
    ensures RemoveAt(packages + [p], |packages|) == packages
  {
    var s := packages + [p];
    assert forall j | 0 <= j < |packages| :: s[j] == packages[j] && !HasPackageId(p.packageId)(s[j]);
    assert s[|packages|] == p && HasPackageId(p.packageId)(s[|packages|]);
    assert s[..|packages|] == packages;
  }

  /** With fixed-width IDs, deleting the package just added (of either category) restores the store. */
  lemma AddThenDeleteRestores(store: Store, req: PackageRequest)
    requires FixedWidth(PackageIds(store.packages), "P", 3)
    requires AddPackage(store, req).1.PackageAdded?
    ensures DeletePackage(AddPackage(store, req).0, AddPackage(store, req).1.packageId)
      == (store, Removed(AddPackage(store, req).1.packageId))
  {
    var after := AddPackage(store, req).0;
    var id := AddPackage(store, req).1.packageId;
    var p := after.packages[|store.packages|];
    assert after.packages == store.packages + [p] && p.packageId == id;
    AddedIdIsFreshUnderFixedWidth(store, req);
    FreshPackageIsFirst(store.packages, p);
    var d := DeletePackage(after, id);
    assert d.0.packages == store.packages;
  }
}

=== FILE: public_schedule.dfy ===
/**
 * The public schedule page: every weekly slot of every class becomes one
 * listing under its weekday, with abbreviated day names normalised to full
 * names and each day's listings ordered by time. Slots on any other day are
 * not shown.
 */
module PublicSchedule {
  import opened Wrappers
  import opened Text
  import opened Records
  import opened Seqs

  const DaysOfWeek: seq<string> := ["Monday", "Tuesday", "Wednesday", "Thursday", "Friday", "Saturday", "Sunday"]

  lemma DaysDistinct()
    ensures forall i, j | 0 <= i < j < |DaysOfWeek| :: DaysOfWeek[i] != DaysOfWeek[j]
  {
  }

  /** `dayMap[day] || day`: "Mon" … "Sun" become full names, anything else is kept. */
  function NormaliseDay(day: string): (r: string)
    ensures day == "Mon" ==> r == "Monday"
    ensures day == "Tue" ==> r == "Tuesday"
    ensures day == "Wed" ==> r == "Wednesday"
    ensures day == "Thu" ==> r == "Thursday"
    ensures day == "Fri" ==> r == "Friday"
    ensures day == "Sat" ==> r == "Saturday"
    ensures day == "Sun" ==> r == "Sunday"
    ensures day in DaysOfWeek ==> r == day
    ensures r in DaysOfWeek <==> day in DaysOfWeek || day in ["Mon", "Tue", "Wed", "Thu", "Fri", "Sat", "Sun"]
  {
    if day == "Mon" then "Monday"
    else if day == "Tue" then "Tuesday"
    else if day == "Wed" then "Wednesday"
    else if day == "Thu" then "Thursday"
    else if day == "Fri" then "Friday"
    else if day == "Sat" then "Saturday"
    else if day == "Sun" then "Sunday"
    else day
  }

  /** A listing: the class with one slot's time and duration and the normalised day. */
  datatype Entry = Entry(cls: ClassRec, time: Option<string>, duration: Option<int>, day: string)

  function EntryOf(cls: ClassRec, slot: Slot): Entry {
    Entry(cls, slot.time, slot.duration, NormaliseDay(slot.day))
  }

  function EntriesOf(cls: ClassRec): (r: seq<Entry>)
    ensures |r| == |cls.daytime|
    ensures forall j | 0 <= j < |cls.daytime| :: r[j] == EntryOf(cls, cls.daytime[j])
  {
    seq(|cls.daytime|, j requires 0 <= j < |cls.daytime| => EntryOf(cls, cls.daytime[j]))
  }

  function SlotCount(classes: seq<ClassRec>): nat {
    if |classes| == 0 then 0 else SlotCount(classes[..|classes| - 1]) + |classes[|classes| - 1].daytime|
  }

  /** Every slot of every class, in class order and then slot order. */
  function Expand(classes: seq<ClassRec>): (r: seq<Entry>)
    ensures |r| == SlotCount(classes)
  {
    if |classes| == 0 then [] else Expand(classes[..|classes| - 1]) + EntriesOf(classes[|classes| - 1])
  }

  /** An entry is listed exactly when it comes from some slot of some class. */
  lemma {:induction false} ExpandMembers(classes: seq<ClassRec>, e: Entry)
    ensures e in Expand(classes) <==>
      exists i, j | 0 <= i < |classes| && 0 <= j < |classes[i].daytime| :: e == EntryOf(classes[i], classes[i].daytime[j])
  {
    if |classes| > 0 {
      var c0, last := classes[..|classes| - 1], classes[|classes| - 1];
      ExpandMembers(c0, e);
      var tail := EntriesOf(last);
      assert Expand(classes) == Expand(c0) + tail;
      if e in Expand(c0) {
        var i, j :| 0 <= i < |c0| && 0 <= j < |c0[i].daytime| && e == EntryOf(c0[i], c0[i].daytime[j]);
        assert classes[i] == c0[i];
      } else if e in tail {
        var j :| 0 <= j < |tail| && tail[j] == e;
        assert e == EntryOf(classes[|classes| - 1], classes[|classes| - 1].daytime[j]);
      } else {
        forall i, j | 0 <= i < |classes| && 0 <= j < |classes[i].daytime|
          ensures e != EntryOf(classes[i], classes[i].daytime[j])
        {
          if i < |c0| {
            assert classes[i] == c0[i];
          } else {
            assert EntryOf(classes[i], classes[i].daytime[j]) == tail[j];
          }
        }
      }
    }
  }

  /** The bucket a day goes into: its position among the weekdays, 7 when it is not one. */
  function DayIndex(day: string): (k: nat)
    ensures k <= 7
    ensures k < 7 <==> day in DaysOfWeek
    ensures k < 7 ==> DaysOfWeek[k] == day
  {
    FirstIndex(DaysOfWeek, (d: string) => d == day)
  }

  function OnDay(day: string): Entry -> bool {
    (e: Entry) => e.day == day
  }

  function Recognised(e: Entry): bool {
    e.day in DaysOfWeek
  }

  /** `classesByDay[fullDay].push(…)` when the day has a bucket; otherwise the entry is dropped. */
  function Push(b: seq<seq<Entry>>, e: Entry): (r: seq<seq<Entry>>)
    requires |b| == 7
    ensures |r| == 7
  {
    var k := DayIndex(e.day);
    if k < 7 then b[k := b[k] + [e]] else b
  }

  /** Seven buckets, each starting empty, filled in entry order. */
  function Buckets(es: seq<Entry>): (b: seq<seq<Entry>>)
    ensures |b| == 7
  {
    if |es| == 0 then seq(7, _ => []) else Push(Buckets(es[..|es| - 1]), es[|es| - 1])
  }

  /** Each bucket holds exactly its day's entries, in entry order. */
  lemma {:induction false} BucketIsFilter(es: seq<Entry>)
    ensures forall k | 0 <= k < 7 :: Buckets(es)[k] == Filter(es, OnDay(DaysOfWeek[k]))
  {
    if |es| > 0 {
      var es0, e := es[..|es| - 1], es[|es| - 1];
      BucketIsFilter(es0);
      DaysDistinct();
      forall k | 0 <= k < 7
        ensures Buckets(es)[k] == Filter(es, OnDay(DaysOfWeek[k]))
      {
        assert Filter(es, OnDay(DaysOfWeek[k]))
          == Filter(es0, OnDay(DaysOfWeek[k])) + (if e.day == DaysOfWeek[k] then [e] else []);
        assert DayIndex(e.day) == k <==> e.day == DaysOfWeek[k];
      }
    }
  }

  function Total(b: seq<seq<Entry>>): nat
    requires |b| == 7
  {
    |b[0]| + |b[1]| + |b[2]| + |b[3]| + |b[4]| + |b[5]| + |b[6]|
  }

  /** The buckets together hold exactly the entries on a recognised day. */
  lemma {:induction false} BucketsHoldRecognised(es: seq<Entry>)
    ensures Total(Buckets(es)) == |Filter(es, Recognised)|
  {
    if |es| > 0 {
      BucketsHoldRecognised(es[..|es| - 1]);
    }
  }

  // ---------------------------------------------------------------------------
  // Ordering within a day

  /** The sort key; an absent time is taken as the empty string. */
  function TimeKey(e: Entry): string {
    e.time.GetOr("")
  }

  predicate SortedByTime(s: seq<Entry>) {
    forall i, j | 0 <= i < j < |s| :: StrLe(TimeKey(s[i]), TimeKey(s[j]))
  }

  /** Places x after every element whose time is not later, keeping equal times in arrival order. */
  function Insert(x: Entry, s: seq<Entry>): (r: seq<Entry>)
    ensures |r| == |s| + 1
    ensures multiset(r) == multiset(s) + multiset{x}
    ensures SortedByTime(s) ==> SortedByTime(r)
  {
    if |s| == 0 then [x]
    else
      var s0, last := s[..|s| - 1], s[|s| - 1];
      assert s == s0 + [last];
      if StrLe(TimeKey(last), TimeKey(x)) then
        assert SortedByTime(s) ==> SortedByTime(s + [x]) by {
          if SortedByTime(s) {
            forall i | 0 <= i < |s|
              ensures StrLe(TimeKey(s[i]), TimeKey(x))
            {
              if i < |s| - 1 {
                StrLeTransitive(TimeKey(s[i]), TimeKey(last), TimeKey(x));
              }
            }
          }
        }
        s + [x]
      else
        var r0 := Insert(x, s0);
        assert SortedByTime(s) ==> SortedByTime(r0 + [last]) by {
          if SortedByTime(s) {
            assert SortedByTime(s0);
            StrLessTotal(TimeKey(last), TimeKey(x));
            forall i | 0 <= i < |r0|
              ensures StrLe(TimeKey(r0[i]), TimeKey(last))
            {
              assert r0[i] in multiset(s0) + multiset{x};
              if r0[i] != x {
                assert r0[i] in s0;
                var j :| 0 <= j < |s0| && s0[j] == r0[i];
                assert s[j] == r0[i];
              }
            }
          }
        }
        r0 + [last]
  }

  /** Insertion sort by time: a sorted permutation of s. */
  function SortByTime(s: seq<Entry>): (r: seq<Entry>)
    ensures |r| == |s|
    ensures multiset(r) == multiset(s)
    ensures SortedByTime(r)
  {
    if |s| == 0 then []
    else
      assert s == s[..|s| - 1] + [s[|s| - 1]];
      Insert(s[|s| - 1], SortByTime(s[..|s| - 1]))
  }

  /**
   * The page's seven day cards: each holds that day's listings from every slot
   * of every class, ordered by time.
   */
  function Schedule(classes: seq<ClassRec>): (r: seq<seq<Entry>>)
    ensures |r| == 7
    ensures forall k | 0 <= k < 7 ::
      SortedByTime(r[k]) && multiset(r[k]) == multiset(Filter(Expand(classes), OnDay(DaysOfWeek[k])))
  {
    var b := Buckets(Expand(classes));
    BucketIsFilter(Expand(classes));
    seq(7, k requires 0 <= k < 7 => SortByTime(b[k]))
  }

  /** The page lists exactly the slots whose day is a weekday or its abbreviation. */
  lemma ScheduleListsRecognisedSlots(classes: seq<ClassRec>)
    ensures Total(Schedule(classes)) == |Filter(Expand(classes), Recognised)|
  {
    var b := Buckets(Expand(classes));
    var r := Schedule(classes);
    BucketsHoldRecognised(Expand(classes));
    assert forall k | 0 <= k < 7 :: |r[k]| == |b[k]| by {
      forall k | 0 <= k < 7
        ensures |r[k]| == |b[k]|
      {
        BucketIsFilter(Expand(classes));
        assert |multiset(r[k])| == |multiset(b[k])|;
      }
    }
  }
}

=== FILE: records.dfy ===
/**
 * The stored documents, one datatype per collection, with the field shapes of
 * the Mongoose schemas. Text fields use "" for a missing value; money is held
 * in integer cents.
 */
module Records {
  import opened Wrappers

  /** A JavaScript number restricted to integers, with NaN, for sums that may meet a missing amount. */
  datatype Num = Num(v: int) | NaN {

    /** `+`: NaN absorbs. */
    function Plus(other: Num): Num {
      if Num? && other.Num? then Num(v + other.v) else NaN
    }

    /** `x || 0`: NaN (and a missing value) counts as 0. */
    function OrZero(): int {
      if Num? then v else 0
    }
  }

  /** One weekly slot of a class; an absent time or duration is None. */
  datatype Slot = Slot(day: string, time: Option<string>, duration: Option<int>)

  datatype ClassRec = ClassRec(
    classId: string,
    className: string,
    instructorId: string,
    classType: string,
    description: string,
    daytime: seq<Slot>,
    payRate: int)

  datatype Customer = Customer(
    customerId: string,
    firstName: string,
    lastName: string,
    email: string,
    phone: string,
    address: string,
    preferredContact: string,
    classBalance: int,
    senior: bool)

  datatype Instructor = Instructor(
    instructorId: string,
    firstName: string,
    lastName: string,
    email: string,
    phone: string,
    address: string,
    preferredContact: string)

  /** A package; `description` is None when the document has no such field. */
  datatype Package = Package(
    packageId: string,
    packageName: string,
    description: Option<string>,
    packageCategory: string,
    numberOfClasses: string,
    classType: string,
    price: int)

  /** A sale; the embedded `Package` sub-document is flattened into packageId, dates and amountPaid. */
  datatype Sale = Sale(
    saleId: int,
    customerId: string,
    packageId: string,
    startDate: int,
    endDate: int,
    amountPaid: Num,
    modeOfPayment: string,
    paymentDateTime: int)

  datatype Attendance = Attendance(checkinId: int, customerId: string, classId: string, datetime: int)

  datatype User = User(username: string, password: string, role: string)

  /** Every collection, each in the store's natural (insertion) order. */
  datatype Store = Store(
    classes: seq<ClassRec>,
    customers: seq<Customer>,
    instructors: seq<Instructor>,
    packages: seq<Package>,
    sales: seq<Sale>,
    attendance: seq<Attendance>,
    users: seq<User>)

  /** The classes held by all customers together. */
  function TotalBalance(customers: seq<Customer>): int {
    if |customers| == 0 then 0
    else TotalBalance(customers[..|customers| - 1]) + customers[|customers| - 1].classBalance
  }

  /** Changing one customer's balance changes the total by the same amount. */
  lemma {:induction false} TotalBalanceUpdate(customers: seq<Customer>, i: nat, c: Customer)
    requires i < |customers|
    ensures TotalBalance(customers[i := c]) == TotalBalance(customers) - customers[i].classBalance + c.classBalance
    decreases |customers|
  {
    var n := |customers| - 1;
    var updated := customers[i := c];
    if i < n {
      assert updated[..n] == customers[..n][i := c];
      TotalBalanceUpdate(customers[..n], i, c);
    } else {
      assert updated[..n] == customers[..n];
    }
  }

  // `findOne({key: value})` predicates, one per collection key.

  function HasClassId(classId: string): ClassRec -> bool {
    (c: ClassRec) => c.classId == classId
  }

  function HasCustomerId(customerId: string): Customer -> bool {
    (c: Customer) => c.customerId == customerId
  }

  function HasInstructorId(instructorId: string): Instructor -> bool {
    (c: Instructor) => c.instructorId == instructorId
  }

  function HasPackageId(packageId: string): Package -> bool {
    (p: Package) => p.packageId == packageId
  }

  function HasSaleId(saleId: int): Sale -> bool {
    (s: Sale) => s.saleId == saleId
  }

  function HasCheckinId(checkinId: int): Attendance -> bool {
    (a: Attendance) => a.checkinId == checkinId
  }

  function HasUsername(username: string): User -> bool {
    (u: User) => u.username == username
  }

  // Keys for grouping and `$in` lookups.

  function ClassKey(c: ClassRec): string {
    c.classId
  }

  function ClassInstructor(c: ClassRec): string {
    c.instructorId
  }

  function InstructorKey(i: Instructor): string {
    i.instructorId
  }

  function CustomerKey(c: Customer): string {
    c.customerId
  }

  function AttendedClass(a: Attendance): string {
    a.classId
  }

  function Buyer(s: Sale): string {
    s.customerId
  }

  function SoldPackage(s: Sale): string {
    s.packageId
  }

  function Paid(s: Sale): Num {
    s.amountPaid
  }

  /**
   * The answer of a `findOneAndDelete` endpoint: 404, the key of the removed
   * document, or the 500 that Mongoose's CastError gives a numeric key that is NaN.
   */
  datatype Removal<K> = NotFound | Removed(key: K) | CastFailed

  /** The inclusive instant range `{$gte: lo, $lte: hi}` of a month, computed by the caller's calendar. */
  datatype Window = Window(lo: int, hi: int) {
    predicate Contains(t: int) {
      lo <= t <= hi
    }
  }
}

/** Sequence helpers shared by the handlers: `findOne`, `findOneAndDelete`, `find` with a filter. */
module Seqs {

  /** f applied to every element, one result per element, in order (`array.map`). */
  function Map<T, U>(s: seq<T>, f: T -> U): (r: seq<U>)
    ensures |r| == |s|
    ensures forall k | 0 <= k < |s| :: r[k] == f(s[k])
  {
    seq(|s|, k requires 0 <= k < |s| => f(s[k]))
  }

  /** Position of the first element satisfying p, or |s| when there is none (`findOne`). */
  function FirstIndex<T>(s: seq<T>, p: T -> bool): (i: nat)
    ensures i <= |s|
    ensures i < |s| ==> p(s[i])
    ensures forall j | 0 <= j < i :: !p(s[j])
  {
    if |s| == 0 then 0 else if p(s[0]) then 0 else 1 + FirstIndex(s[1..], p)
  }

  function RemoveAt<T>(s: seq<T>, i: nat): (r: seq<T>)
    requires i < |s|
    ensures |r| == |s| - 1
    ensures forall j | 0 <= j < i :: r[j] == s[j]
    ensures forall j | i <= j < |r| :: r[j] == s[j + 1]
  {
    s[..i] + s[i + 1..]
  }

  /** The elements satisfying p, in order (`find(filter)`). */
  function Filter<T>(s: seq<T>, p: T -> bool): (r: seq<T>)
    ensures |r| <= |s|
    ensures forall k | 0 <= k < |r| :: r[k] in s && p(r[k])
    ensures forall j | 0 <= j < |s| :: p(s[j]) ==> s[j] in r
  {
    if |s| == 0 then [] else Filter(s[..|s| - 1], p) + (if p(s[|s| - 1]) then [s[|s| - 1]] else [])
  }

  /** The positions of the elements satisfying p, in ascending order. */
  function Positions<T>(s: seq<T>, p: T -> bool): (idx: seq<nat>)
    ensures forall k | 0 <= k < |idx| :: idx[k] < |s| && p(s[idx[k]])
    ensures forall k, l | 0 <= k < l < |idx| :: idx[k] < idx[l]
    ensures forall j | 0 <= j < |s| && p(s[j]) :: j in idx
  {
    if |s| == 0 then [] else Positions(s[..|s| - 1], p) + (if p(s[|s| - 1]) then [|s| - 1] else [])
  }

  /**
   * Filter keeps order and multiplicity: its k-th element is the k-th element
   * of s that satisfies p.
   */
  lemma {:induction false} FilterAtPositions<T>(s: seq<T>, p: T -> bool)
    ensures |Filter(s, p)| == |Positions(s, p)|
    ensures forall k | 0 <= k < |Filter(s, p)| :: Filter(s, p)[k] == s[Positions(s, p)[k]]
  {
    if |s| > 0 {
      var s' := s[..|s| - 1];
      FilterAtPositions(s', p);
      assert forall i | 0 <= i < |s'| :: s'[i] == s[i];
    }
  }

  lemma {:induction false} FilterAppend<T>(s: seq<T>, t: seq<T>, p: T -> bool)
    ensures Filter(s + t, p) == Filter(s, p) + Filter(t, p)
  {
    if |t| == 0 {
      assert s + t == s;
    } else {
      var t' := t[..|t| - 1];
      assert (s + t)[..|s + t| - 1] == s + t';
      FilterAppend(s, t', p);
    }
  }

  lemma {:induction false} FilterAll<T>(s: seq<T>, p: T -> bool)
    requires forall j | 0 <= j < |s| :: p(s[j])
    ensures Filter(s, p) == s
  {
    if |s| > 0 {
      FilterAll(s[..|s| - 1], p);
    }
  }

  /** Filtering out a single failing element between two runs that pass leaves the two runs. */
  lemma FilterAroundOne<T>(a: seq<T>, x: T, b: seq<T>, p: T -> bool)
    requires forall j | 0 <= j < |a| :: p(a[j])
    requires !p(x)
    requires forall j | 0 <= j < |b| :: p(b[j])
    ensures Filter(a + [x] + b, p) == a + b
  {
    assert Filter([x], p) == [] by {
      assert [x][..0] == [];
    }
    FilterAll(a, p);
    FilterAppend(a, [x], p);
    assert Filter(a + [x], p) == a;
    FilterAll(b, p);
    FilterAppend(a + [x], b, p);
  }

  lemma SplitAt<T>(s: seq<T>, i: nat)
    requires i < |s|
    ensures s == s[..i] + [s[i]] + s[i + 1..]
  {
  }

  /** Filtering out the one element that fails p removes exactly it. */
  lemma FilterRemovesOne<T>(s: seq<T>, i: nat, p: T -> bool)
    requires i < |s|
    requires forall j | 0 <= j < i :: p(s[j])
    requires !p(s[i])
    requires forall j | i < j < |s| :: p(s[j])
    ensures Filter(s, p) == RemoveAt(s, i)
  {
    var a, b := s[..i], s[i + 1..];
    forall j | 0 <= j < |a| ensures p(a[j]) {
      assert a[j] == s[j];
    }
    forall j | 0 <= j < |b| ensures p(b[j]) {
      assert b[j] == s[i + 1 + j];
    }
    FilterAroundOne(a, s[i], b, p);
    SplitAt(s, i);
  }

  lemma {:induction false} FilterNone<T>(s: seq<T>, p: T -> bool)
    requires forall j | 0 <= j < |s| :: !p(s[j])
    ensures Filter(s, p) == []
  {
    if |s| > 0 {
      FilterNone(s[..|s| - 1], p);
    }
  }
}

=== FILE: reports.dfy ===
/**
 * The four manager reports, as folds over the stored collections. "Now", the
 * current month and the calendar that turns a month into an instant window
 * are parameters.
 */
module Reports {
  import opened Wrappers
  import opened Records
  import opened Seqs
  import opened Groups

  // ---------------------------------------------------------------------------
  // Package sales

  /** `paymentDateTime: {$gte: startDate, $lte: endDate}`, each bound applied only when given. */
  function InPeriod(startDate: Option<int>, endDate: Option<int>): Sale -> bool {
    (s: Sale) => (startDate.None? || startDate.value <= s.paymentDateTime)
                 && (endDate.None? || s.paymentDateTime <= endDate.value)
  }

  /** The customer of every sale, one entry per sale. */
  function Buyers(sales: seq<Sale>): seq<string> {
    Map(sales, Buyer)
  }

  /** The name of the first package with the ID, or "Unknown" when none has it. */
  function PackageName(packages: seq<Package>, packageId: string): string {
    var i := FirstIndex(packages, HasPackageId(packageId));
    if i == |packages| then "Unknown" else packages[i].packageName
  }

  datatype PackageLine = PackageLine(
    packageId: string,
    packageName: string,
    totalSales: nat,
    totalRevenue: Num,
    customers: seq<string>)

  function LineOf(packages: seq<Package>, g: Group<string, Sale>): PackageLine {
    PackageLine(g.key, PackageName(packages, g.key), |g.members|, NumTotal(g.members, Paid), Buyers(g.members))
  }

  function Lines(packages: seq<Package>, g: seq<Group<string, Sale>>): (r: seq<PackageLine>)
    ensures |r| == |g|
    ensures forall i | 0 <= i < |g| :: r[i] == LineOf(packages, g[i])
  {
    seq(|g|, i requires 0 <= i < |g| => LineOf(packages, g[i]))
  }

  /** The package IDs of the lines, in order. */
  function LineIds(lines: seq<PackageLine>): (r: seq<string>)
    ensures |r| == |lines|
    ensures forall i | 0 <= i < |lines| :: r[i] == lines[i].packageId
  {
    seq(|lines|, i requires 0 <= i < |lines| => lines[i].packageId)
  }

  /** Every sale sold has a line for its package. */
  lemma LinesCoverSales(packages: seq<Package>, g: seq<Group<string, Sale>>, sold: seq<Sale>)
    requires forall j | 0 <= j < |sold| :: SoldPackage(sold[j]) in Keys(g)
    ensures forall j | 0 <= j < |sold| :: sold[j].packageId in LineIds(Lines(packages, g))
  {
    var ids := LineIds(Lines(packages, g));
    assert ids == Keys(g) by {
      assert forall i | 0 <= i < |g| :: ids[i] == LineOf(packages, g[i]).packageId == g[i].key;
    }
    assert forall j | 0 <= j < |sold| :: SoldPackage(sold[j]) == sold[j].packageId;
  }

  /** Each line states its group: the key, and the count, revenue, customers and name of its sales. */
  lemma LinesMatchGroups(packages: seq<Package>, g: seq<Group<string, Sale>>, sold: seq<Sale>)
    requires forall i | 0 <= i < |g| ::
      |g[i].members| > 0 && g[i].members == Filter(sold, Matching(SoldPackage, g[i].key))
    ensures forall i | 0 <= i < |g| ::
      var mine := Filter(sold, Matching(SoldPackage, g[i].key));
      Lines(packages, g)[i].packageId == g[i].key
      && Lines(packages, g)[i].totalSales == |mine| > 0
      && Lines(packages, g)[i].totalRevenue == NumTotal(mine, Paid)
      && Lines(packages, g)[i].customers == Buyers(mine)
      && Lines(packages, g)[i].packageName == PackageName(packages, g[i].key)
  {
    forall i | 0 <= i < |g|
      ensures var mine := Filter(sold, Matching(SoldPackage, g[i].key));
        Lines(packages, g)[i].packageId == g[i].key
        && Lines(packages, g)[i].totalSales == |mine| > 0
        && Lines(packages, g)[i].totalRevenue == NumTotal(mine, Paid)
        && Lines(packages, g)[i].customers == Buyers(mine)
        && Lines(packages, g)[i].packageName == PackageName(packages, g[i].key)
    {
      assert Lines(packages, g)[i] == LineOf(packages, g[i]);
    }
  }

  /** The lines of a grouping of the sales sold describe those sales package by package. */
  lemma LinesDescribeGroups(packages: seq<Package>, g: seq<Group<string, Sale>>, sold: seq<Sale>)
    requires Partitions(g, sold, SoldPackage)
    ensures forall i, j | 0 <= i < j < |g| :: Lines(packages, g)[i].packageId != Lines(packages, g)[j].packageId
    ensures forall j | 0 <= j < |sold| :: sold[j].packageId in LineIds(Lines(packages, g))
    ensures forall i | 0 <= i < |g| ::
      var mine := Filter(sold, Matching(SoldPackage, g[i].key));
      Lines(packages, g)[i].packageId == g[i].key
      && Lines(packages, g)[i].totalSales == |mine| > 0
      && Lines(packages, g)[i].totalRevenue == NumTotal(mine, Paid)
      && Lines(packages, g)[i].customers == Buyers(mine)
      && Lines(packages, g)[i].packageName == PackageName(packages, g[i].key)
  {
    LinesCoverSales(packages, g, sold);
    LinesMatchGroups(packages, g, sold);
    assert forall i | 0 <= i < |g| :: Lines(packages, g)[i].packageId == g[i].key;
  }

  datatype PackageSalesReport = PackageSalesReport(
    startDate: Option<int>,
    endDate: Option<int>,
    totalSales: nat,
    totalRevenue: Num,
    packages: seq<PackageLine>)

  /**
   * `getPackageSalesReport`: the sales paid within the optional bounds, in
   * total and per package, one line per package sold.
   * A line's customers hold one entry per sale, repeats included; a package
   * that is no longer stored is named "Unknown".
   */
  function PackageSales(store: Store, startDate: Option<int>, endDate: Option<int>): (r: PackageSalesReport)
    ensures var sold := Filter(store.sales, InPeriod(startDate, endDate));
      r.startDate == startDate && r.endDate == endDate
      && r.totalSales == |sold| && r.totalRevenue == NumTotal(sold, Paid)
      && (forall i, j | 0 <= i < j < |r.packages| :: r.packages[i].packageId != r.packages[j].packageId)
      && (forall j | 0 <= j < |sold| :: sold[j].packageId in LineIds(r.packages))
      && forall i | 0 <= i < |r.packages| ::
           var line := r.packages[i];
           var mine := Filter(sold, Matching(SoldPackage, line.packageId));
           line.totalSales == |mine| > 0
           && line.totalRevenue == NumTotal(mine, Paid)
           && line.customers == Buyers(mine)
           && line.packageName == PackageName(store.packages, line.packageId)
  {
    var sold := Filter(store.sales, InPeriod(startDate, endDate));
    var g := GroupBy(sold, SoldPackage);
    GroupByPartitions(sold, SoldPackage);
    LinesDescribeGroups(store.packages, g, sold);
    PackageSalesReport(startDate, endDate, |sold|, NumTotal(sold, Paid), Lines(store.packages, g))
  }

  function SalesSum(lines: seq<PackageLine>): nat {
    if |lines| == 0 then 0 else SalesSum(lines[..|lines| - 1]) + lines[|lines| - 1].totalSales
  }

  function RevenueSum(lines: seq<PackageLine>): Num {
    if |lines| == 0 then Num(0) else RevenueSum(lines[..|lines| - 1]).Plus(lines[|lines| - 1].totalRevenue)
  }

  lemma LinesPrefix(packages: seq<Package>, g: seq<Group<string, Sale>>, n: nat)
    requires n <= |g|
    ensures Lines(packages, g)[..n] == Lines(packages, g[..n])
  {
    var lines, lines0 := Lines(packages, g), Lines(packages, g[..n]);
    assert forall k | 0 <= k < n :: lines[k] == LineOf(packages, g[k]) == lines0[k];
  }

  lemma {:induction false} LinesSalesSum(packages: seq<Package>, g: seq<Group<string, Sale>>)
    ensures SalesSum(Lines(packages, g)) == GroupsSum(g, One())
  {
    if |g| > 0 {
      var n := |g| - 1;
      LinesSalesSum(packages, g[..n]);
      LinesPrefix(packages, g, n);
      assert Lines(packages, g)[n] == LineOf(packages, g[n]);
      SumOfOnes(g[n].members);
    }
  }

  lemma {:induction false} LinesRevenueSum(packages: seq<Package>, g: seq<Group<string, Sale>>)
    ensures RevenueSum(Lines(packages, g)) == GroupsNumTotal(g, Paid)
  {
    if |g| > 0 {
      var n := |g| - 1;
      LinesRevenueSum(packages, g[..n]);
      LinesPrefix(packages, g, n);
      assert Lines(packages, g)[n] == LineOf(packages, g[n]);
    }
  }

  /** The per-package counts and revenues add up to the report's totals (NaN revenue included). */
  lemma PackageTotalsAgree(store: Store, startDate: Option<int>, endDate: Option<int>)
    ensures var r := PackageSales(store, startDate, endDate);
      SalesSum(r.packages) == r.totalSales && RevenueSum(r.packages) == r.totalRevenue
  {
    var sold := Filter(store.sales, InPeriod(startDate, endDate));
    LinesSalesSum(store.packages, GroupBy(sold, SoldPackage));
    LinesRevenueSum(store.packages, GroupBy(sold, SoldPackage));
    GroupBySizes(sold, SoldPackage);
    GroupByNumTotal(sold, SoldPackage, Paid);
  }

  // ---------------------------------------------------------------------------
  // Instructor performance

  function InstructorName(i: Instructor): string {
    i.firstName + " " + i.lastName
  }

  /** `Class.find({instructorId})` */
  function Taught(classes: seq<ClassRec>, instructorId: string): seq<ClassRec> {
    Filter(classes, Matching(ClassInstructor, instructorId))
  }

  datatype ClassLine = ClassLine(classId: string, className: string, payRate: int)

  function ClassLines(classes: seq<ClassRec>): (r: seq<ClassLine>)
    ensures |r| == |classes|
    ensures forall k | 0 <= k < |classes| :: r[k] == ClassLine(classes[k].classId, classes[k].className, classes[k].payRate)
  {
    seq(|classes|, k requires 0 <= k < |classes| => ClassLine(classes[k].classId, classes[k].className, classes[k].payRate))
  }

  datatype PerformanceLine = PerformanceLine(
    instructorId: string,
    instructorName: string,
    totalClasses: nat,
    totalCheckIns: nat,
    classes: seq<ClassLine>)

  /** One instructor's line: their classes, and the check-ins whose class is among them (`classId: {$in: …}`). */
  function PerformanceOf(store: Store, ins: Instructor): PerformanceLine {
    var taught := Taught(store.classes, ins.instructorId);
    PerformanceLine(ins.instructorId, InstructorName(ins), |taught|,
                    |Filter(store.attendance, InKeys(taught, ClassKey, AttendedClass))|, ClassLines(taught))
  }

  /** `period` echoes the query's month and year, absent when not given. */
  datatype PerformanceReport = PerformanceReport(month: Option<string>, year: Option<string>, instructors: seq<PerformanceLine>)

  /** `getInstructorPerformanceReport`: one line per instructor in store order; month and year are only echoed. */
  function InstructorPerformance(store: Store, month: Option<string>, year: Option<string>): (r: PerformanceReport)
    ensures r.month == month && r.year == year
    ensures |r.instructors| == |store.instructors|
    ensures forall i | 0 <= i < |store.instructors| :: r.instructors[i] == PerformanceOf(store, store.instructors[i])
  {
    PerformanceReport(month, year,
      seq(|store.instructors|, i requires 0 <= i < |store.instructors| => PerformanceOf(store, store.instructors[i])))
  }

  /** The period asked for changes nothing but the echo. */
  lemma PerformanceIgnoresPeriod(store: Store, month: Option<string>, year: Option<string>, otherMonth: Option<string>, otherYear: Option<string>)
    ensures InstructorPerformance(store, month, year).instructors
      == InstructorPerformance(store, otherMonth, otherYear).instructors
  {
  }

  function TotalClassesOf(line: PerformanceLine): int {
    line.totalClasses
  }

  /**
   * With unique instructor IDs, the instructors' class counts add up to the
   * number of classes whose instructor is stored: no class is counted twice.
   */
  lemma ClassesCountedOnce(store: Store, month: Option<string>, year: Option<string>)
    requires DistinctKeys(store.instructors, InstructorKey)
    ensures SumOf(InstructorPerformance(store, month, year).instructors, TotalClassesOf)
      == |Filter(store.classes, InKeys(store.instructors, InstructorKey, ClassInstructor))|
  {
    var r := InstructorPerformance(store, month, year);
    var perClass := KeySum(store.classes, ClassInstructor, InstructorKey, One());
    forall i | 0 <= i < |store.instructors|
      ensures TotalClassesOf(r.instructors[i]) == perClass(store.instructors[i])
    {
      var ins := store.instructors[i];
      assert InstructorKey(ins) == ins.instructorId;
      assert perClass(ins) == SumOf(Taught(store.classes, ins.instructorId), One());
      SumOfOnes(Taught(store.classes, ins.instructorId));
    }
    SumOfPointwise(r.instructors, TotalClassesOf, store.instructors, perClass);
    SumOverKeys(store.instructors, InstructorKey, store.classes, ClassInstructor, One());
    SumOfOnes(Filter(store.classes, InKeys(store.instructors, InstructorKey, ClassInstructor)));
  }

  /** When the instructor's classes have distinct IDs, the check-in count is the sum of each class's own check-ins. */
  lemma CheckInsAreSumOverClasses(store: Store, ins: Instructor)
    requires var taught := Taught(store.classes, ins.instructorId);
      forall i, j | 0 <= i < j < |taught| :: taught[i].classId != taught[j].classId
    ensures PerformanceOf(store, ins).totalCheckIns
      == SumOf(Taught(store.classes, ins.instructorId), KeySum(store.attendance, AttendedClass, ClassKey, One()))
  {
    var taught := Taught(store.classes, ins.instructorId);
    SumOverKeys(taught, ClassKey, store.attendance, AttendedClass, One());
    SumOfOnes(Filter(store.attendance, InKeys(taught, ClassKey, AttendedClass)));
  }

  // ---------------------------------------------------------------------------
  // Teacher pay

  /** A check-in of the class within the window (`classId` and `datetime: {$gte, $lte}`). */
  function During(classId: string, w: Window): Attendance -> bool {
    (a: Attendance) => a.classId == classId && w.Contains(a.datetime)
  }

  function CheckInsDuring(attendance: seq<Attendance>, classId: string, w: Window): nat {
    |Filter(attendance, During(classId, w))|
  }

  /** What a class earns in the window: its check-ins times its pay rate. */
  function ClassPay(attendance: seq<Attendance>, w: Window): ClassRec -> int {
    (c: ClassRec) => CheckInsDuring(attendance, c.classId, w) * c.payRate
  }

  datatype PayLine = PayLine(classId: string, className: string, payRate: int, checkIns: nat, payment: int)

  function PayLineOf(attendance: seq<Attendance>, w: Window, c: ClassRec): PayLine {
    var n := CheckInsDuring(attendance, c.classId, w);
    PayLine(c.classId, c.className, c.payRate, n, n * c.payRate)
  }

  function PayLines(attendance: seq<Attendance>, w: Window, classes: seq<ClassRec>): (r: seq<PayLine>)
    ensures |r| == |classes|
    ensures forall k | 0 <= k < |classes| :: r[k] == PayLineOf(attendance, w, classes[k])
  {
    seq(|classes|, k requires 0 <= k < |classes| => PayLineOf(attendance, w, classes[k]))
  }

  function LinePayment(l: PayLine): int {
    l.payment
  }

  datatype PayEntry = PayEntry(instructorId: string, instructorName: string, totalPayment: int, classes: seq<PayLine>)

  function PayEntryOf(store: Store, w: Window, ins: Instructor): PayEntry {
    var lines := PayLines(store.attendance, w, Taught(store.classes, ins.instructorId));
    PayEntry(ins.instructorId, InstructorName(ins), SumOf(lines, LinePayment), lines)
  }

  function EntryPayment(e: PayEntry): int {
    e.totalPayment
  }

  /** `period` holds the month 1-based, as asked for. */
  datatype PayReport = PayReport(month: int, year: int, instructors: seq<PayEntry>, totalPayroll: int)

  /** `month ? parseInt(month) - 1 : new Date().getMonth()`: the 0-based month reported on. */
  function TargetMonth(month: Option<int>, currentMonth: int): int {
    if month.Some? then month.value - 1 else currentMonth
  }

  function TargetYear(year: Option<int>, currentYear: int): int {
    if year.Some? then year.value else currentYear
  }

  /**
   * `getTeacherPaymentReport`: for the month asked for (the current one by
   * default), each instructor's classes with their check-ins in the month's
   * window and the pay they earn; `windowOf(year, month0)` is the calendar's
   * day-1-00:00 to last-day-23:59:59 range.
   */
  function TeacherPay(store: Store, month: Option<int>, year: Option<int>, currentMonth: int, currentYear: int,
                      windowOf: (int, int) -> Window): (r: PayReport)
    ensures r.month == (if month.Some? then month.value else currentMonth + 1)
    ensures r.year == (if year.Some? then year.value else currentYear)
    ensures |r.instructors| == |store.instructors|
    ensures forall i | 0 <= i < |store.instructors| ::
      r.instructors[i] == PayEntryOf(store, windowOf(r.year, r.month - 1), store.instructors[i])
    ensures r.totalPayroll == SumOf(r.instructors, EntryPayment)
  {
    var m, y := TargetMonth(month, currentMonth), TargetYear(year, currentYear);
    var w := windowOf(y, m);
    var entries := seq(|store.instructors|, i requires 0 <= i < |store.instructors| => PayEntryOf(store, w, store.instructors[i]));
    PayReport(m + 1, y, entries, SumOf(entries, EntryPayment))
  }

  /**
   * With unique instructor IDs, the payroll is what the classes with a stored
   * instructor earn in the window, each class paid once.
   */
  lemma PayrollPaysEachClassOnce(store: Store, month: Option<int>, year: Option<int>, currentMonth: int,
                                 currentYear: int, windowOf: (int, int) -> Window)
    requires DistinctKeys(store.instructors, InstructorKey)
    ensures var w := windowOf(TargetYear(year, currentYear), TargetMonth(month, currentMonth));
      TeacherPay(store, month, year, currentMonth, currentYear, windowOf).totalPayroll
      == SumOf(Filter(store.classes, InKeys(store.instructors, InstructorKey, ClassInstructor)), ClassPay(store.attendance, w))
  {
    var r := TeacherPay(store, month, year, currentMonth, currentYear, windowOf);
    var w := windowOf(TargetYear(year, currentYear), TargetMonth(month, currentMonth));
    var perClass := KeySum(store.classes, ClassInstructor, InstructorKey, ClassPay(store.attendance, w));
    forall i | 0 <= i < |store.instructors|
      ensures EntryPayment(r.instructors[i]) == perClass(store.instructors[i])
    {
      var ins := store.instructors[i];
      var taught := Taught(store.classes, ins.instructorId);
      assert InstructorKey(ins) == ins.instructorId;
      assert perClass(ins) == SumOf(taught, ClassPay(store.attendance, w));
      SumOfPointwise(PayLines(store.attendance, w, taught), LinePayment, taught, ClassPay(store.attendance, w));
    }
    SumOfPointwise(r.instructors, EntryPayment, store.instructors, perClass);
    SumOverKeys(store.instructors, InstructorKey, store.classes, ClassInstructor, ClassPay(store.attendance, w));
  }

  // ---------------------------------------------------------------------------
  // Customer packages

  datatype Status = Active | Future | Expired

  /** A package is active from its start to its end date inclusive, future before, expired after. */
  function StatusAt(now: int, startDate: int, endDate: int): (st: Status)
    ensures st == Active <==> startDate <= now <= endDate
    ensures st == Future <==> now < startDate
    ensures st == Expired <==> startDate <= now && endDate < now
  {
    if startDate <= now && now <= endDate then Active
    else if now < startDate then Future
    else Expired
  }

  function Rank(st: Status): nat {
    match st
    case Future => 0
    case Active => 1
    case Expired => 2
  }

  /** As time passes a package's status only moves forward: future, active, expired. */
  lemma StatusOnlyMovesForward(now: int, later: int, startDate: int, endDate: int)
    requires now <= later
    ensures Rank(StatusAt(now, startDate, endDate)) <= Rank(StatusAt(later, startDate, endDate))
  {
  }

  /** The sale's package is stored (`Package.findOne` finds it); sales of deleted packages are skipped. */
  function Known(packages: seq<Package>): Sale -> bool {
    (s: Sale) => FirstIndex(packages, HasPackageId(s.packageId)) < |packages|
  }

  datatype HeldPackage = HeldPackage(
    packageId: string,
    packageName: string,
    purchaseDate: int,
    startDate: int,
    endDate: int,
    amountPaid: Num,
    status: Status)

  function HeldOf(packages: seq<Package>, now: int, s: Sale): HeldPackage {
    HeldPackage(s.packageId, PackageName(packages, s.packageId), s.paymentDateTime, s.startDate, s.endDate,
                s.amountPaid, StatusAt(now, s.startDate, s.endDate))
  }

  /** One entry per sale whose package is stored, in sale order. */
  function Held(packages: seq<Package>, sales: seq<Sale>, now: int): (r: seq<HeldPackage>)
    ensures |r| == |Filter(sales, Known(packages))|
    ensures forall k | 0 <= k < |r| :: r[k] == HeldOf(packages, now, Filter(sales, Known(packages))[k])
  {
    if |sales| == 0 then []
    else
      Held(packages, sales[..|sales| - 1], now)
        + (if Known(packages)(sales[|sales| - 1]) then [HeldOf(packages, now, sales[|sales| - 1])] else [])
  }

  function IsActive(h: HeldPackage): bool {
    h.status == Active
  }

  /** 1 for a sale of a stored package that is active at now, else 0. */
  function ActiveAt(packages: seq<Package>, now: int): Sale -> int {
    (s: Sale) => if Known(packages)(s) && StatusAt(now, s.startDate, s.endDate) == Active then 1 else 0
  }

  /** The active entries are exactly the sales of stored packages that are active. */
  lemma {:induction false} ActiveCount(packages: seq<Package>, sales: seq<Sale>, now: int)
    ensures |Filter(Held(packages, sales, now), IsActive)| == SumOf(sales, ActiveAt(packages, now))
  {
    if |sales| > 0 {
      var s0, last := sales[..|sales| - 1], sales[|sales| - 1];
      ActiveCount(packages, s0, now);
      var h0 := Held(packages, s0, now);
      var tail := if Known(packages)(last) then [HeldOf(packages, now, last)] else [];
      assert Held(packages, sales, now) == h0 + tail;
      FilterAppend(h0, tail, IsActive);
      if |tail| == 1 {
        assert tail[..0] == [];
      }
    }
  }

  datatype CustomerLine = CustomerLine(customerId: string, customerName: string, classBalance: int,
                                       packages: seq<HeldPackage>)

  function CustomerLineOf(store: Store, now: int, c: Customer): CustomerLine {
    CustomerLine(c.customerId, c.firstName + " " + c.lastName, c.classBalance,
                 Held(store.packages, Filter(store.sales, Matching(Buyer, c.customerId)), now))
  }

  function ActiveOf(line: CustomerLine): int {
    |Filter(line.packages, IsActive)|
  }

  datatype CustomerPackageReport = CustomerPackageReport(customers: seq<CustomerLine>, totalCustomers: nat,
                                                         totalActivePackages: int)

  /** `getCustomerPackageReport`: each customer with the packages they bought; `now` stands for the clock. */
  function CustomerPackages(store: Store, now: int): (r: CustomerPackageReport)
    ensures |r.customers| == |store.customers| == r.totalCustomers
    ensures forall i | 0 <= i < |store.customers| :: r.customers[i] == CustomerLineOf(store, now, store.customers[i])
    ensures r.totalActivePackages == SumOf(r.customers, ActiveOf)
  {
    var lines := seq(|store.customers|, i requires 0 <= i < |store.customers| => CustomerLineOf(store, now, store.customers[i]));
    CustomerPackageReport(lines, |store.customers|, SumOf(lines, ActiveOf))
  }

  /**
   * With unique customer IDs, the active total counts each active sale of a
   * stored package bought by a stored customer exactly once, so it never
   * exceeds the number of sales.
   */
  lemma ActivePackagesCountedOnce(store: Store, now: int)
    requires DistinctKeys(store.customers, CustomerKey)
    ensures CustomerPackages(store, now).totalActivePackages
      == SumOf(Filter(store.sales, InKeys(store.customers, CustomerKey, Buyer)), ActiveAt(store.packages, now))
    ensures CustomerPackages(store, now).totalActivePackages <= |store.sales|
  {
    var r := CustomerPackages(store, now);
    var perCustomer := KeySum(store.sales, Buyer, CustomerKey, ActiveAt(store.packages, now));
    forall i | 0 <= i < |store.customers|
      ensures ActiveOf(r.customers[i]) == perCustomer(store.customers[i])
    {
      var c := store.customers[i];
      assert CustomerKey(c) == c.customerId;
      ActiveCount(store.packages, Filter(store.sales, Matching(Buyer, c.customerId)), now);
    }
    SumOfPointwise(r.customers, ActiveOf, store.customers, perCustomer);
    SumOverKeys(store.customers, CustomerKey, store.sales, Buyer, ActiveAt(store.packages, now));
    IndicatorSumAtMost(Filter(store.sales, InKeys(store.customers, CustomerKey, Buyer)), ActiveAt(store.packages, now));
  }
}

=== FILE: sales.dfy ===
/**
 * The sale endpoints: recording a sale credits the buyer's class balance by
 * the package's class count; deleting a sale leaves the balance alone.
 * "Now" and the calendar's month arithmetic are parameters.
 */
module SaleController {
  import opened Wrappers
  import opened Text
  import opened Records
  import opened Ids
  import opened Seqs

  // ---------------------------------------------------------------------------
  // Validity period: /Valid for (\d+) month/

  const ValidFor: string := "Valid for "
  const MonthWord: string := " month"

  /** The maximal run of digits at the front of s. */
  function LeadingDigits(s: string): (d: string)
    ensures AllDigits(d) && d <= s
    ensures |d| == |s| || !IsDigit(s[|d|])
  {
    if |s| > 0 && IsDigit(s[0]) then
      var rest := LeadingDigits(s[1..]);
      assert s == [s[0]] + s[1..];
      [s[0]] + rest
    else []
  }

  lemma {:induction false} LeadingDigitsOf(d: string, t: string)
    requires AllDigits(d)
    requires |t| == 0 || !IsDigit(t[0])
    ensures LeadingDigits(d + t) == d
  {
    if |d| > 0 {
      assert (d + t)[1..] == d[1..] + t;
      LeadingDigitsOf(d[1..], t);
      assert d == [d[0]] + d[1..];
    } else {
      assert d + t == t;
    }
  }

  /**
   * What `lead(\d+)word` captures when a match starts at position i, if one
   * does: a maximal digit run (a shorter run would be followed by a digit,
   * not by the word's first character).
   */
  function ValidityAt(s: string, i: nat, lead: string, word: string): Option<nat>
    requires i <= |s|
  {
    var rest := s[i..];
    if lead <= rest then Capture(rest[|lead|..], word) else None
  }

  function Capture(after: string, word: string): Option<nat> {
    var d := LeadingDigits(after);
    if |d| > 0 && word <= after[|d|..] then Some(Value(d)) else None
  }

  /** The leftmost match at or after position i. */
  function FirstValidity(s: string, i: nat, lead: string, word: string): (r: Option<nat>)
    requires i <= |s|
    ensures r.None? ==> forall k | i <= k <= |s| :: ValidityAt(s, k, lead, word).None?
    ensures r.Some? ==>
      exists k | i <= k <= |s| ::
        ValidityAt(s, k, lead, word) == r && forall j | i <= j < k :: ValidityAt(s, j, lead, word).None?
    decreases |s| - i
  {
    var here := ValidityAt(s, i, lead, word);
    if here.Some? then here
    else if i == |s| then None
    else
      var r := FirstValidity(s, i + 1, lead, word);
      assert r.Some? ==> exists k | i <= k <= |s| ::
        ValidityAt(s, k, lead, word) == r && forall j | i <= j < k :: ValidityAt(s, j, lead, word).None? by {
        if r.Some? {
          var k :| i + 1 <= k <= |s| && ValidityAt(s, k, lead, word) == r
            && forall j | i + 1 <= j < k :: ValidityAt(s, j, lead, word).None?;
          assert forall j | i <= j < k :: ValidityAt(s, j, lead, word).None?;
        }
      }
      r
  }

  /** Months of validity: the number in the leftmost "Valid for N month", or 1 when there is none. */
  function MonthsValid(description: string): (n: nat)
    ensures (forall k | 0 <= k <= |description| :: ValidityAt(description, k, ValidFor, MonthWord).None?) ==> n == 1
    ensures (exists k | 0 <= k <= |description| :: ValidityAt(description, k, ValidFor, MonthWord).Some?) ==>
      exists k | 0 <= k <= |description| ::
        ValidityAt(description, k, ValidFor, MonthWord) == Some(n)
        && forall j | 0 <= j < k :: ValidityAt(description, j, ValidFor, MonthWord).None?
  {
    match FirstValidity(description, 0, ValidFor, MonthWord)
    case Some(m) => m
    case None => 1
  }

  lemma CaptureOf(d: string, word: string, tail: string)
    requires AllDigits(d) && |d| > 0
    requires |word| > 0 && !IsDigit(word[0])
    ensures Capture(d + word + tail, word) == Some(Value(d))
  {
    var after := d + word + tail;
    assert after == d + (word + tail);
    LeadingDigitsOf(d, word + tail);
    assert after[|d|..] == word + tail;
  }

  lemma FirstValidityAtStart(lead: string, d: string, word: string, tail: string)
    requires AllDigits(d) && |d| > 0
    requires |word| > 0 && !IsDigit(word[0])
    ensures FirstValidity(lead + d + word + tail, 0, lead, word) == Some(Value(d))
  {
    var s := lead + d + word + tail;
    assert s[0..] == s;
    assert s[|lead|..] == d + word + tail;
    CaptureOf(d, word, tail);
  }

  /** A description that starts with "Valid for N month" is valid for N months, 0 included. */
  lemma MonthsValidOfLeadingPhrase(d: string, tail: string)
    requires AllDigits(d) && |d| > 0
    ensures MonthsValid(ValidFor + d + MonthWord + tail) == Value(d)
  {
    FirstValidityAtStart(ValidFor, d, MonthWord, tail);
  }

  /** A description without the phrase anywhere is valid for one month. */
  lemma NoPhraseMeansOneMonth(description: string)
    requires forall k | 0 <= k <= |description| :: !(ValidFor <= description[k..])
    ensures MonthsValid(description) == 1
  {
  }

  // ---------------------------------------------------------------------------
  // Class credit

  /** Classes a package credits: '1', '4', '10' and 'unlimited' (999); anything else credits none. */
  function Credit(numberOfClasses: string): (n: nat)
    ensures numberOfClasses == "1" ==> n == 1
    ensures numberOfClasses == "4" ==> n == 4
    ensures numberOfClasses == "10" ==> n == 10
    ensures numberOfClasses == "unlimited" ==> n == 999
    ensures n == 0 <==> numberOfClasses !in {"1", "4", "10", "unlimited"}
  {
    match numberOfClasses
    case "1" => 1
    case "4" => 4
    case "10" => 10
    case "unlimited" => 999
    case _ => 0
  }

  // ---------------------------------------------------------------------------
  // Sale IDs

  function SaleIds(sales: seq<Sale>): seq<int> {
    seq(|sales|, i requires 0 <= i < |sales| => sales[i].saleId)
  }

  /** The sale ID for both `add` and `getNextId`: one past the greatest stored saleId, or 1. */
  function NextSaleId(sales: seq<Sale>): (id: int)
    ensures |sales| == 0 ==> id == 1
    ensures forall j | 0 <= j < |sales| :: sales[j].saleId < id
    ensures |sales| > 0 ==> exists j | 0 <= j < |sales| :: sales[j].saleId == id - 1
  {
    var ids := SaleIds(sales);
    assert forall j | 0 <= j < |sales| :: sales[j].saleId == ids[j] && ids[j] in ids;
    NextSeq(ids)
  }

  // ---------------------------------------------------------------------------
  // POST add

  /** The request body; `amountPaid` is None when falsy, else what `parseFloat` reads (possibly NaN). */
  datatype SaleRequest = SaleRequest(customerId: string, packageId: string, amountPaid: Option<Num>, modeOfPayment: string)

  /** 400, the two 404s, the 500 of a failed step, or 201 with the sale ID and the buyer's new balance. */
  datatype SaleResponse =
    | MissingFields
    | PackageNotFound
    | CustomerNotFound
    | SaleFailed
    | SaleRecorded(saleId: int, newBalance: int)

  predicate SaleRequestComplete(req: SaleRequest) {
    req.customerId != "" && req.packageId != "" && req.amountPaid.Some? && req.modeOfPayment != ""
  }

  /** The payment modes the sale schema's enum allows. */
  const PaymentModes: set<string> := {"Cash", "Credit Card", "Debit Card", "Check", "Online"}

  /**
   * Whether the steps after the lookups go through: the package has a
   * description to match against (else `.match` throws), and the sale document
   * passes the schema (an amount that casts to a number, a mode in the enum).
   */
  predicate SaleGoesThrough(pkg: Package, req: SaleRequest) {
    pkg.description.Some? && req.amountPaid.Some? && req.amountPaid.value.Num? && req.modeOfPayment in PaymentModes
  }

  /**
   * `add`: 400 for a missing field, then 404 for an unknown package, then 404
   * for an unknown customer; 500 when the package has no description or the
   * sale fails validation; none of these changes anything. Otherwise the sale
   * is stored with the next ID and validity `addMonths(now, MonthsValid)`, and
   * the first customer with the ID gains the package's credit.
   */
  function AddSale(store: Store, req: SaleRequest, now: int, addMonths: (int, nat) -> int): (r: (Store, SaleResponse))
    ensures r.1.MissingFields? <==> !SaleRequestComplete(req)
    ensures r.1.PackageNotFound? <==>
      SaleRequestComplete(req) && forall j | 0 <= j < |store.packages| :: store.packages[j].packageId != req.packageId
    ensures r.1.CustomerNotFound? <==>
      SaleRequestComplete(req)
      && (exists j | 0 <= j < |store.packages| :: store.packages[j].packageId == req.packageId)
      && forall j | 0 <= j < |store.customers| :: store.customers[j].customerId != req.customerId
    ensures r.1.SaleFailed? <==>
      var pi := FirstIndex(store.packages, HasPackageId(req.packageId));
      SaleRequestComplete(req) && pi < |store.packages|
      && (exists j | 0 <= j < |store.customers| :: store.customers[j].customerId == req.customerId)
      && !SaleGoesThrough(store.packages[pi], req)
    ensures !r.1.SaleRecorded? ==> r.0 == store
    ensures r.1.SaleRecorded? ==>
      var pi := FirstIndex(store.packages, HasPackageId(req.packageId));
      var ci := FirstIndex(store.customers, HasCustomerId(req.customerId));
      pi < |store.packages| && ci < |store.customers|
      && store.packages[pi].description.Some? && req.amountPaid.value.Num? && req.modeOfPayment in PaymentModes
      && r.1.saleId == NextSaleId(store.sales)
      && r.1.newBalance == store.customers[ci].classBalance + Credit(store.packages[pi].numberOfClasses)
      && r.0 == store.(
           sales := store.sales + [Sale(r.1.saleId, req.customerId, req.packageId, now,
                                        addMonths(now, MonthsValid(store.packages[pi].description.value)),
                                        req.amountPaid.value, req.modeOfPayment, now)],
           customers := store.customers[ci := store.customers[ci].(classBalance := r.1.newBalance)])
  {
    if !SaleRequestComplete(req) then (store, MissingFields)
    else
      var pi := FirstIndex(store.packages, HasPackageId(req.packageId));
      if pi == |store.packages| then (store, PackageNotFound)
      else
        var ci := FirstIndex(store.customers, HasCustomerId(req.customerId));
        if ci == |store.customers| then (store, CustomerNotFound)
        else
          var pkg := store.packages[pi];
          if !SaleGoesThrough(pkg, req) then (store, SaleFailed)
          else
            var customer := store.customers[ci];
            var id := NextSaleId(store.sales);
            var sale := Sale(id, req.customerId, req.packageId, now, addMonths(now, MonthsValid(pkg.description.value)),
                             req.amountPaid.value, req.modeOfPayment, now);
            var balance := customer.classBalance + Credit(pkg.numberOfClasses);
            (store.(sales := store.sales + [sale], customers := store.customers[ci := customer.(classBalance := balance)]),
             SaleRecorded(id, balance))
  }

  /** A recorded sale raises the classes held by all customers by exactly the package's credit and touches no other customer. */
  lemma SaleCreditsBuyerOnly(store: Store, req: SaleRequest, now: int, addMonths: (int, nat) -> int)
    requires AddSale(store, req, now, addMonths).1.SaleRecorded?
    ensures var after := AddSale(store, req, now, addMonths).0;
      var pi := FirstIndex(store.packages, HasPackageId(req.packageId));
      pi < |store.packages|
      && TotalBalance(after.customers) == TotalBalance(store.customers) + Credit(store.packages[pi].numberOfClasses)
      && |after.customers| == |store.customers|
      && forall j | 0 <= j < |store.customers| && store.customers[j].customerId != req.customerId ::
           after.customers[j] == store.customers[j]
  {
    var ci := FirstIndex(store.customers, HasCustomerId(req.customerId));
    var after := AddSale(store, req, now, addMonths).0;
    TotalBalanceUpdate(store.customers, ci, after.customers[ci]);
  }

  // ---------------------------------------------------------------------------
  // DELETE and search

  /**
   * `deleteSale`: the query's `parseInt(saleId)`, None for NaN, which Mongoose
   * refuses to cast (500); 404 when no sale has it, else the first such sale is
   * removed. Customer balances are never touched.
   */
  function DeleteSale(store: Store, saleId: Option<int>): (r: (Store, Removal<int>))
    ensures r.1.CastFailed? <==> saleId.None?
    ensures r.1.NotFound? <==>
      saleId.Some? && forall j | 0 <= j < |store.sales| :: store.sales[j].saleId != saleId.value
    ensures !r.1.Removed? ==> r.0 == store
    ensures r.0.customers == store.customers
    ensures r.1.Removed? ==>
      saleId == Some(r.1.key)
      && exists i | 0 <= i < |store.sales| ::
           store.sales[i].saleId == r.1.key
           && (forall j | 0 <= j < i :: store.sales[j].saleId != r.1.key)
           && r.0 == store.(sales := store.sales[..i] + store.sales[i + 1..])
  {
    if saleId.None? then (store, CastFailed)
    else
      var i := FirstIndex(store.sales, HasSaleId(saleId.value));
      if i == |store.sales| then (store, NotFound)
      else (store.(sales := RemoveAt(store.sales, i)), Removed(saleId.value))
  }

  /** Recording a sale and then deleting it restores the sales but keeps the credit. */
  lemma DeleteKeepsCredit(store: Store, req: SaleRequest, now: int, addMonths: (int, nat) -> int)
    requires AddSale(store, req, now, addMonths).1.SaleRecorded?
    ensures var (after, resp) := AddSale(store, req, now, addMonths);
      var (back, removal) := DeleteSale(after, Some(resp.saleId));
      removal == Removed(resp.saleId) && back.sales == store.sales && back.customers == after.customers
  {
    var after := AddSale(store, req, now, addMonths).0;
    var id := AddSale(store, req, now, addMonths).1.saleId;
    var n := |store.sales|;
    assert |after.sales| == n + 1 && after.sales[n].saleId == id;
    assert forall j | 0 <= j < n :: after.sales[j] == store.sales[j];
    var i := FirstIndex(after.sales, HasSaleId(id));
    assert i == n;
    assert RemoveAt(after.sales, n) == store.sales;
  }

  datatype SearchResponse = NoSales | SalesFound(sales: seq<Sale>)

  function OfCustomer(customerId: string): Sale -> bool {
    (s: Sale) => s.customerId == customerId
  }

  /**
   * `search`: 404 when the customer has no sales, else the customer's sales
   * in store order: the k-th result is the customer's k-th stored sale.
   */
  function SearchSales(store: Store, customerId: string): (r: SearchResponse)
    ensures r.NoSales? <==> forall j | 0 <= j < |store.sales| :: store.sales[j].customerId != customerId
    ensures r.SalesFound? ==>
      var at := Positions(store.sales, OfCustomer(customerId));
      |r.sales| == |at| > 0 && forall k | 0 <= k < |r.sales| :: r.sales[k] == store.sales[at[k]]
  {
    var found := Filter(store.sales, OfCustomer(customerId));
    if |found| == 0 then
      assert forall j | 0 <= j < |store.sales| :: OfCustomer(customerId)(store.sales[j]) ==> store.sales[j] in found;
      NoSales
    else
      assert OfCustomer(customerId)(found[0]);
      FilterAtPositions(store.sales, OfCustomer(customerId));
      SalesFound(found)
  }

  /**
   * A recorded sale is found by a search for its buyer, after every sale the
   * buyer already had, in the same order.
   */
  lemma RecordedSaleIsSearchedLast(store: Store, req: SaleRequest, now: int, addMonths: (int, nat) -> int)
    requires AddSale(store, req, now, addMonths).1.SaleRecorded?
    ensures var after := AddSale(store, req, now, addMonths).0;
      var n := |store.sales|;
      SearchSales(after, req.customerId).SalesFound?
      && SearchSales(after, req.customerId).sales
         == Filter(store.sales, OfCustomer(req.customerId)) + [after.sales[n]]
  {
    var after := AddSale(store, req, now, addMonths).0;
    var n := |store.sales|;
    var sale := after.sales[n];
    assert after.sales == store.sales + [sale];
    FilterAppend(store.sales, [sale], OfCustomer(req.customerId));
    assert [sale][..0] == [];
    assert Filter([sale], OfCustomer(req.customerId)) == [sale];
    assert OfCustomer(req.customerId)(after.sales[n]);
  }
}

=== FILE: schedule.dfy ===
/**
 * Weekly schedule-conflict detection, shared by the server helper and the two
 * client pages. A proposed slot conflicts with a stored class when the class's
 * FIRST slot is on the same day and the half-open minute intervals overlap;
 * the scan stops at the first stored class that conflicts, and any exception
 * during the scan reads as "no conflict".
 */
module Schedule {
  import opened Wrappers
  import opened Text
  import opened Records

  /** `const [h, m] = time.split(':').map(Number); h * 60 + m`, with None standing for NaN. */
  function MinutesOfDay(time: string): Option<int> {
    MinutesOfFields(FirstTwoFields(time, ':'))
  }

  function MinutesOfFields(fields: (string, Option<string>)): Option<int> {
    if fields.1.None? then None
    else match (NumberOf(fields.0), NumberOf(fields.1.value))
      case (Some(h), Some(m)) => Some(h * 60 + m)
      case _ => None
  }

  lemma IndexOfCharIs(s: string, c: char, k: nat)
    requires k <= |s| && (k < |s| ==> s[k] == c)
    requires forall j | 0 <= j < k :: s[j] != c
    ensures IndexOfChar(s, c) == k
  {
  }

  lemma FieldsOfTime(hh: string, mm: string)
    requires ':' !in hh && ':' !in mm
    ensures FirstTwoFields(hh + ":" + mm, ':') == (hh, Some(mm))
  {
    var t := hh + ":" + mm;
    assert t[|hh|] == ':';
    assert forall j | 0 <= j < |hh| :: t[j] == hh[j];
    IndexOfCharIs(t, ':', |hh|);
    var rest := t[|hh| + 1..];
    assert rest == mm;
    IndexOfCharIs(rest, ':', |mm|);
    assert t[..|hh|] == hh;
    assert rest[..|mm|] == mm;
  }

  lemma DigitsHaveNoColon(d: string)
    requires AllDigits(d)
    ensures ':' !in d
  {
    assert forall k | 0 <= k < |d| :: IsDigit(d[k]) && d[k] != ':';
  }

  lemma MinutesOfDigitFields(hh: string, mm: string)
    requires AllDigits(hh) && AllDigits(mm)
    ensures MinutesOfFields((hh, Some(mm))) == Some(Value(hh) * 60 + Value(mm))
  {
    TrimOfDigits(hh);
    TrimOfDigits(mm);
  }

  /** A clock time "HH:MM" is worth hours * 60 + minutes. */
  lemma MinutesOfClockTime(hh: string, mm: string)
    requires AllDigits(hh) && AllDigits(mm)
    ensures MinutesOfDay(hh + ":" + mm) == Some(Value(hh) * 60 + Value(mm))
  {
    DigitsHaveNoColon(hh);
    DigitsHaveNoColon(mm);
    FieldsOfTime(hh, mm);
    MinutesOfDigitFields(hh, mm);
  }

  lemma MinutesOfReadFields(h: string, m: string, a: int, b: int)
    requires NumberOf(h) == Some(a) && NumberOf(m) == Some(b)
    ensures MinutesOfFields((h, Some(m))) == Some(a * 60 + b)
  {
  }

  lemma MinutesOfTimeFields(h: string, m: string, a: int, b: int)
    requires ':' !in h && ':' !in m
    requires NumberOf(h) == Some(a) && NumberOf(m) == Some(b)
    ensures MinutesOfDay(h + ":" + m) == Some(a * 60 + b)
  {
    FieldsOfTime(h, m);
    MinutesOfReadFields(h, m, a, b);
  }

  lemma NoColonInDigitsThenSpace(mm: string, post: string)
    requires AllDigits(mm)
    requires forall k | 0 <= k < |post| :: IsSpace(post[k])
    ensures ':' !in mm + post
  {
    forall k | 0 <= k < |mm + post| ensures (mm + post)[k] != ':' {
      if k < |mm| {
        assert (mm + post)[k] == mm[k] && IsDigit(mm[k]);
      } else {
        assert (mm + post)[k] == post[k - |mm|] && IsSpace(post[k - |mm|]);
      }
    }
  }

  /** White space after the minutes is ignored, as `Number` ignores it: "9:00 " reads as "9:00". */
  lemma TrailingSpaceIgnored(hh: string, mm: string, post: string)
    requires AllDigits(hh) && AllDigits(mm) && |mm| > 0
    requires forall k | 0 <= k < |post| :: IsSpace(post[k])
    ensures MinutesOfDay(hh + ":" + (mm + post)) == MinutesOfDay(hh + ":" + mm)
  {
    var tail := mm + post;
    DigitsHaveNoColon(hh);
    DigitsHaveNoColon(mm);
    NoColonInDigitsThenSpace(mm, post);
    TrimOfDigits(hh);
    TrimOfDigits(mm);
    NumberOfDigitsThenSpace(mm, post);
    SameReadingSameMinutes(hh, tail, mm);
  }

  lemma SameReadingSameMinutes(h: string, m: string, m': string)
    requires ':' !in h && ':' !in m && ':' !in m'
    requires NumberOf(m) == NumberOf(m')
    ensures MinutesOfDay(h + ":" + m) == MinutesOfDay(h + ":" + m')
  {
    FieldsOfTime(h, m);
    FieldsOfTime(h, m');
    SameFieldReading(h, m, m');
  }

  lemma SameFieldReading(h: string, m: string, m': string)
    requires NumberOf(m) == NumberOf(m')
    ensures MinutesOfFields((h, Some(m))) == MinutesOfFields((h, Some(m')))
  {
  }

  /** A time without a colon has no minutes part, so it reads as NaN. */
  lemma NoColonIsNaN(time: string)
    requires ':' !in time
    ensures MinutesOfDay(time).None?
  {
  }

  /** An existing slot's length: `schedule.duration || 60`. */
  function SlotMinutes(duration: Option<int>): (m: int)
    ensures m == 60 <==> duration.None? || duration.value == 0 || duration.value == 60
    ensures duration.Some? && duration.value != 0 ==> m == duration.value
  {
    if duration.None? || duration.value == 0 then 60 else duration.value
  }

  /** Half-open overlap of [s1, e1) and [s2, e2). */
  predicate Overlaps(s1: int, e1: int, s2: int, e2: int) {
    s1 < e2 && e1 > s2
  }

  /** The proposed interval; NaNInterval when time or duration is NaN; Unsplittable when there is no time string at all. */
  datatype Candidate = Interval(start: int, end: int) | NaNInterval | Unsplittable

  /** `startTime = h * 60 + m; endTime = startTime + duration`, duration None standing for NaN. */
  function CandidateOf(time: Option<string>, duration: Option<int>): (c: Candidate)
    ensures c.Unsplittable? <==> time.None?
    ensures c.Interval? ==> duration.Some? && c.end - c.start == duration.value
    ensures c.Interval? ==> MinutesOfDay(time.value) == Some(c.start)
    ensures c.NaNInterval? ==> MinutesOfDay(time.value).None? || duration.None?
  {
    if time.None? then Unsplittable
    else match (MinutesOfDay(time.value), duration)
      case (Some(s), Some(d)) => Interval(s, s + d)
      case _ => NaNInterval
  }

  /** What looking at one stored class yields: pass on, a conflict, or an exception. */
  datatype Verdict = Pass | Hit | Fault

  /** One iteration of the scan: only `daytime[0]` is examined; an absent time throws in `split`. */
  function Examine(c: ClassRec, day: string, cand: Candidate): Verdict {
    if |c.daytime| == 0 then Pass
    else
      var slot := c.daytime[0];
      if slot.day != day then Pass
      else if slot.time.None? then Fault
      else match (MinutesOfDay(slot.time.value), cand)
        case (Some(st), Interval(cs, ce)) =>
          if Overlaps(cs, ce, st, st + SlotMinutes(slot.duration)) then Hit else Pass
        case _ => Pass
  }

  /** The React page skips the class being edited. */
  predicate Excluded(c: ClassRec, exclude: Option<string>) {
    exclude.Some? && c.classId == exclude.value
  }

  function Outcome(c: ClassRec, day: string, cand: Candidate, exclude: Option<string>): Verdict {
    if Excluded(c, exclude) then Pass else Examine(c, day, cand)
  }

  ghost predicate AllPassBefore(classes: seq<ClassRec>, k: nat, day: string, cand: Candidate, exclude: Option<string>)
    requires k <= |classes|
  {
    forall j | 0 <= j < k :: Outcome(classes[j], day, cand, exclude) == Pass
  }

  /** The scan's answer; `at` is the store position of the class named. */
  datatype ConflictResult = NoConflict | Conflict(at: nat, className: string, day: string, time: string)

  function ScanFrom(classes: seq<ClassRec>, i: nat, day: string, cand: Candidate, exclude: Option<string>): (r: ConflictResult)
    requires i <= |classes|
    requires AllPassBefore(classes, i, day, cand, exclude)
    ensures r.Conflict? ==>
      i <= r.at < |classes| && Outcome(classes[r.at], day, cand, exclude) == Hit
      && AllPassBefore(classes, r.at, day, cand, exclude)
    ensures r.NoConflict? ==>
      AllPassBefore(classes, |classes|, day, cand, exclude)
      || exists f | i <= f < |classes| :: Outcome(classes[f], day, cand, exclude) == Fault
           && AllPassBefore(classes, f, day, cand, exclude)
    decreases |classes| - i
  {
    if i == |classes| then NoConflict
    else match Outcome(classes[i], day, cand, exclude)
      case Pass => ScanFrom(classes, i + 1, day, cand, exclude)
      case Fault => NoConflict
      case Hit =>
        var slot := classes[i].daytime[0];
        Conflict(i, classes[i].className, slot.day, slot.time.value)
  }

  /**
   * `checkScheduleConflict`: parse the proposed time (throwing when there is
   * none), then scan the stored classes in store order.
   */
  function Scan(classes: seq<ClassRec>, day: string, cand: Candidate, exclude: Option<string>): (r: ConflictResult)
    ensures cand.Unsplittable? ==> r == NoConflict
    ensures r.Conflict? ==>
      r.at < |classes| && Outcome(classes[r.at], day, cand, exclude) == Hit
      && AllPassBefore(classes, r.at, day, cand, exclude)
      && r.className == classes[r.at].className
      && r.day == classes[r.at].daytime[0].day == day
      && Some(r.time) == classes[r.at].daytime[0].time
    ensures r.NoConflict? && !cand.Unsplittable? ==>
      AllPassBefore(classes, |classes|, day, cand, exclude)
      || exists f | 0 <= f < |classes| :: Outcome(classes[f], day, cand, exclude) == Fault
           && AllPassBefore(classes, f, day, cand, exclude)
  {
    if cand.Unsplittable? then NoConflict
    else
      var r := ScanFrom(classes, 0, day, cand, exclude);
      assert r.Conflict? ==> r == Conflict(r.at, classes[r.at].className, classes[r.at].daytime[0].day,
        classes[r.at].daytime[0].time.value) by {
        if r.Conflict? {
          ScanNamesItsStop(classes, 0, day, cand, exclude);
        }
      }
      r
  }

  lemma {:induction false} ScanNamesItsStop(classes: seq<ClassRec>, i: nat, day: string, cand: Candidate, exclude: Option<string>)
    requires i <= |classes|
    requires AllPassBefore(classes, i, day, cand, exclude)
    requires ScanFrom(classes, i, day, cand, exclude).Conflict?
    ensures var r := ScanFrom(classes, i, day, cand, exclude);
      r == Conflict(r.at, classes[r.at].className, classes[r.at].daytime[0].day, classes[r.at].daytime[0].time.value)
    decreases |classes| - i
  {
    if Outcome(classes[i], day, cand, exclude) == Pass {
      ScanNamesItsStop(classes, i + 1, day, cand, exclude);
    }
  }

  // ---------------------------------------------------------------------------
  // The three copies

  /** The server helper (controllers/classController.cjs): every stored class is compared. */
  function ServerCheck(classes: seq<ClassRec>, day: string, time: Option<string>, duration: int): (r: ConflictResult)
    ensures r.Conflict? ==>
      r.at < |classes| && |classes[r.at].daytime| > 0
      && classes[r.at].daytime[0].day == day
      && classes[r.at].daytime[0].time.Some? && time.Some?
      && MinutesOfDay(time.value).Some? && MinutesOfDay(classes[r.at].daytime[0].time.value).Some?
      && var s := MinutesOfDay(time.value).value;
         var es := MinutesOfDay(classes[r.at].daytime[0].time.value).value;
         Overlaps(s, s + duration, es, es + SlotMinutes(classes[r.at].daytime[0].duration))
    ensures (forall j | 0 <= j < |classes| :: |classes[j].daytime| == 0 || classes[j].daytime[0].day != day)
      ==> r == NoConflict
  {
    var r := Scan(classes, day, CandidateOf(time, Some(duration)), None);
    if r.NoConflict? then r
    else
      assert Outcome(classes[r.at], day, CandidateOf(time, Some(duration)), None) == Hit;
      r
  }

  /** The React page: like the server, but the class currently selected for editing is skipped. */
  function ReactCheck(classes: seq<ClassRec>, selected: Option<string>, day: string, time: string,
                      duration: Option<int>): (r: ConflictResult)
    ensures r.Conflict? ==> r.at < |classes| && !Excluded(classes[r.at], selected)
    ensures r.Conflict? ==>
      duration.Some? && r.at < |classes| && |classes[r.at].daytime| > 0
      && classes[r.at].daytime[0].day == day
    ensures selected.None? && duration.Some? ==> r == ServerCheck(classes, day, Some(time), duration.value)
  {
    Scan(classes, day, CandidateOf(Some(time), duration), selected)
  }

  /** The legacy DOM page: the same rules as the server, with no self-exclusion. */
  function LegacyCheck(classes: seq<ClassRec>, day: string, time: string, duration: int): (r: ConflictResult)
    ensures r == ServerCheck(classes, day, Some(time), duration)
    ensures r == ReactCheck(classes, None, day, time, Some(duration))
  {
    Scan(classes, day, CandidateOf(Some(time), Some(duration)), None)
  }

  // ---------------------------------------------------------------------------
  // Properties of the relation

  /** The interval a slot occupies, its duration defaulting to 60; None when its time does not parse. */
  function Bounds(s: Slot): Option<(int, int)> {
    if s.time.None? then None
    else match MinutesOfDay(s.time.value)
      case Some(st) => Some((st, st + SlotMinutes(s.duration)))
      case None => None
  }

  /** Two slots conflict when they share a day and their intervals strictly overlap. */
  predicate SlotsConflict(a: Slot, b: Slot) {
    a.day == b.day && Bounds(a).Some? && Bounds(b).Some?
      && Overlaps(Bounds(a).value.0, Bounds(a).value.1, Bounds(b).value.0, Bounds(b).value.1)
  }

  lemma OverlapSymmetric(s1: int, e1: int, s2: int, e2: int)
    ensures Overlaps(s1, e1, s2, e2) <==> Overlaps(s2, e2, s1, e1)
  {
  }

  lemma SlotsConflictSymmetric(a: Slot, b: Slot)
    ensures SlotsConflict(a, b) <==> SlotsConflict(b, a)
  {
  }

  /** A slot that starts exactly when another ends does not conflict with it. */
  lemma TouchingSlotsDoNotConflict(a: Slot, b: Slot)
    requires Bounds(a).Some? && Bounds(b).Some?
    requires Bounds(a).value.1 == Bounds(b).value.0
    requires Bounds(a).value.0 <= Bounds(a).value.1 && Bounds(b).value.0 <= Bounds(b).value.1
    ensures !SlotsConflict(a, b) && !SlotsConflict(b, a)
  {
  }

  /**
   * For a proposed slot that is itself a stored-class slot (the `addClass`
   * path, duration defaulted with `|| 60`), one scan step hits exactly when
   * the two slots conflict: the scan applies the symmetric relation.
   */
  lemma ExamineIsSlotConflict(c: ClassRec, s: Slot)
    requires s.time.Some?
    requires |c.daytime| > 0 && c.daytime[0].time.Some?
    ensures Examine(c, s.day, CandidateOf(s.time, Some(SlotMinutes(s.duration)))) == Hit
      <==> SlotsConflict(s, c.daytime[0])
  {
  }

  /** Once a stored class throws, the scan answers "no conflict" whatever follows. */
  lemma FaultHidesLaterClasses(classes: seq<ClassRec>, day: string, cand: Candidate, exclude: Option<string>)
    requires |classes| > 0 && Outcome(classes[0], day, cand, exclude) == Fault
    ensures Scan(classes, day, cand, exclude) == NoConflict
  {
  }

  /**
   * Fail-open: a same-day class with no time string placed before a class that
   * really overlaps hides the overlap, which the same scan reports without it.
   */
  lemma FailOpenHidesConflict(broken: ClassRec, busy: ClassRec, day: string, cand: Candidate)
    requires |broken.daytime| > 0 && broken.daytime[0].day == day && broken.daytime[0].time.None?
    requires Examine(busy, day, cand) == Hit
    ensures Scan([busy], day, cand, None) == Conflict(0, busy.className, day, busy.daytime[0].time.value)
    ensures Scan([broken, busy], day, cand, None) == NoConflict
  {
  }

  /** A proposed time that reads as NaN never conflicts with anything. */
  lemma NaNNeverConflicts(classes: seq<ClassRec>, day: string, exclude: Option<string>)
    ensures Scan(classes, day, NaNInterval, exclude) == NoConflict
  {
  }

  /** A stored class whose time reads as NaN never conflicts. */
  lemma NaNSlotNeverHits(c: ClassRec, day: string, cand: Candidate)
    requires |c.daytime| > 0 && c.daytime[0].time.Some? && MinutesOfDay(c.daytime[0].time.value).None?
    ensures Examine(c, day, cand) == Pass
  {
  }

  /** A class without slots never conflicts, and only the first slot of a class matters. */
  lemma OnlyFirstSlotCounts(c: ClassRec, day: string, cand: Candidate, later: seq<Slot>)
    ensures |c.daytime| == 0 ==> Examine(c, day, cand) == Pass
    ensures |c.daytime| > 0 ==> Examine(c, day, cand) == Examine(c.(daytime := [c.daytime[0]] + later), day, cand)
  {
  }

  /** The React page never reports the class being edited as conflicting with itself. */
  lemma ClassNeverConflictsWithItself(c: ClassRec, time: string, duration: Option<int>)
    requires |c.daytime| > 0
    ensures ReactCheck([c], Some(c.classId), c.daytime[0].day, time, duration) == NoConflict
  {
  }
}

=== FILE: text.dfy ===
/** Failure-compatible optional values used throughout the model. */
module Wrappers {

  datatype Option<T> = None | Some(value: T) {

    /** The held value, or `default` when there is none (JavaScript's `x || default` for a missing x). */
    function GetOr(default: T): T {
      if Some? then value else default
    }
  }
}

/**
 * The string primitives the controllers rely on: ASCII digits and `parseInt`,
 * `Number.prototype.toString` and `padStart`, the trailing-digit regex `/\d+$/`,
 * `Number(part)` on the pieces of `time.split(':')`, `String.prototype.trim`,
 * and the code-unit order in which the store sorts string IDs.
 */
module Text {
  import opened Wrappers

  predicate IsDigit(c: char) {
    '0' <= c <= '9'
  }

  function DigitValue(c: char): nat
    requires IsDigit(c)
  {
    (c as int) - ('0' as int)
  }

  function DigitChar(d: nat): (c: char)
    requires d < 10
    ensures IsDigit(c) && DigitValue(c) == d
  {
    (('0' as int) + d) as char
  }

  predicate AllDigits(s: string) {
    forall i | 0 <= i < |s| :: IsDigit(s[i])
  }

  function Pow10(n: nat): (p: nat)
    ensures p >= 1
  {
    if n == 0 then 1 else 10 * Pow10(n - 1)
  }

  /** The decimal value of a digit string, accumulated left to right the way `parseInt` reads it. */
  function Value(s: string): nat
    requires AllDigits(s)
  {
    if |s| == 0 then 0 else Value(s[..|s| - 1]) * 10 + DigitValue(s[|s| - 1])
  }

  /** `n.toString()` for a non-negative integer: the shortest digit string whose value is n. */
  function Decimal(n: nat): (s: string)
    ensures |s| > 0 && AllDigits(s)
    ensures Value(s) == n
    ensures |s| == 1 || s[0] != '0'
  {
    if n < 10 then [DigitChar(n)]
    else
      var front := Decimal(n / 10);
      var s := front + [DigitChar(n % 10)];
      assert s[..|s| - 1] == front;
      s
  }

  function Zeros(n: nat): (z: string)
    ensures |z| == n
    ensures forall i | 0 <= i < n :: z[i] == '0'
  {
    if n == 0 then [] else Zeros(n - 1) + ['0']
  }

  /** `s.padStart(width, '0')`: s itself when it is already that long, otherwise s behind enough zeros. */
  function PadStart(s: string, width: nat): (r: string)
    ensures |s| >= width ==> r == s
    ensures |s| < width ==> |r| == width
    ensures |r| >= |s| && r[|r| - |s|..] == s
    ensures forall i | 0 <= i < |r| - |s| :: r[i] == '0'
  {
    if |s| >= width then s else Zeros(width - |s|) + s
  }

  /** Leading zeros do not change what `parseInt` reads. */
  lemma {:induction false} ValueIgnoresLeadingZeros(z: string, s: string)
    requires forall i | 0 <= i < |z| :: z[i] == '0'
    requires AllDigits(s)
    ensures AllDigits(z + s)
    ensures Value(z + s) == Value(s)
  {
    if |s| == 0 {
      assert z + s == z;
      ZerosValue(z);
    } else {
      var s' := s[..|s| - 1];
      assert (z + s)[..|z + s| - 1] == z + s';
      ValueIgnoresLeadingZeros(z, s');
    }
  }

  lemma {:induction false} ZerosValue(z: string)
    requires forall i | 0 <= i < |z| :: z[i] == '0'
    ensures AllDigits(z) && Value(z) == 0
  {
    if |z| > 0 {
      ZerosValue(z[..|z| - 1]);
    }
  }

  /** Splitting a digit string: the front part is worth its value shifted by the length of the back. */
  lemma {:induction false} ValueConcat(x: string, y: string)
    requires AllDigits(x) && AllDigits(y)
    ensures AllDigits(x + y)
    ensures Value(x + y) == Value(x) * Pow10(|y|) + Value(y)
  {
    if |y| == 0 {
      assert x + y == x;
    } else {
      var y' := y[..|y| - 1];
      assert (x + y)[..|x + y| - 1] == x + y';
      ValueConcat(x, y');
      var d := DigitValue(y[|y| - 1]);
      assert y' + [y[|y| - 1]] == y;
      assert Value(y) == Value(y') * 10 + d;
      assert Value(x + y) == Value(x + y') * 10 + d;
      Regroup(Value(x), Pow10(|y'|), Value(y'), d);
    }
  }

  lemma Regroup(a: int, p: int, b: int, d: int)
    ensures (a * p + b) * 10 + d == a * (10 * p) + (b * 10 + d)
  {
  }

  lemma {:induction false} ValueBound(s: string)
    requires AllDigits(s)
    ensures Value(s) < Pow10(|s|)
  {
    if |s| > 0 {
      ValueBound(s[..|s| - 1]);
    }
  }

  // ---------------------------------------------------------------------------
  // String order

  /** Code-unit lexicographic order, the order `.sort({id: -1})` uses on string IDs. */
  predicate StrLess(a: string, b: string)
    decreases |a|
  {
    if |a| == 0 then |b| > 0
    else if |b| == 0 then false
    else if a[0] != b[0] then a[0] < b[0]
    else StrLess(a[1..], b[1..])
  }

  predicate StrLe(a: string, b: string) {
    a == b || StrLess(a, b)
  }

  lemma {:induction false} StrLessIrreflexive(a: string)
    ensures !StrLess(a, a)
  {
    if |a| > 0 {
      StrLessIrreflexive(a[1..]);
    }
  }

  lemma {:induction false} StrLessTransitive(a: string, b: string, c: string)
    requires StrLess(a, b) && StrLess(b, c)
    ensures StrLess(a, c)
    decreases |a|
  {
    if |a| > 0 && a[0] == b[0] && b[0] == c[0] {
      StrLessTransitive(a[1..], b[1..], c[1..]);
    }
  }

  lemma {:induction false} StrLessTotal(a: string, b: string)
    ensures a == b || StrLess(a, b) || StrLess(b, a)
    decreases |a|
  {
    if |a| > 0 && |b| > 0 && a[0] == b[0] {
      StrLessTotal(a[1..], b[1..]);
      if a[1..] == b[1..] {
        assert a == [a[0]] + a[1..] && b == [b[0]] + b[1..];
      }
    }
  }

  lemma {:induction false} StrLeTransitive(a: string, b: string, c: string)
    requires StrLe(a, b) && StrLe(b, c)
    ensures StrLe(a, c)
  {
    if a != b && b != c {
      StrLessTransitive(a, b, c);
    }
  }

  /** A shared prefix does not affect the comparison. */
  lemma {:induction false} StrLessCommonPrefix(p: string, a: string, b: string)
    ensures StrLess(p + a, p + b) <==> StrLess(a, b)
  {
    if |p| > 0 {
      assert (p + a)[0] == p[0] == (p + b)[0];
      assert (p + a)[1..] == p[1..] + a;
      assert (p + b)[1..] == p[1..] + b;
      StrLessCommonPrefix(p[1..], a, b);
    } else {
      assert p + a == a && p + b == b;
    }
  }

  lemma ValueSingle(c: char)
    requires IsDigit(c)
    ensures Value([c]) == DigitValue(c)
  {
    assert [c][..0] == [];
  }

  /** A non-empty digit string is its first digit, shifted, plus the rest. */
  lemma ValueFront(s: string)
    requires AllDigits(s) && |s| > 0
    ensures Value(s) == DigitValue(s[0]) * Pow10(|s| - 1) + Value(s[1..])
  {
    var head, tail := [s[0]], s[1..];
    assert head + tail == s;
    assert AllDigits(head) && AllDigits(tail);
    ValueConcat(head, tail);
    ValueSingle(s[0]);
    var p := Pow10(|tail|);
    assert p == Pow10(|s| - 1);
    var d := DigitValue(s[0]);
    assert Value(head) == d;
    assert Value(s) == Value(head) * p + Value(tail);
    assert Value(head) * p == d * p;
    assert Value(s) == d * p + Value(tail);
  }

  lemma MulAtLeastOnce(k: nat, m: nat)
    requires k >= 1
    ensures k * m >= m
  {
    if k > 1 {
      MulAtLeastOnce(k - 1, m);
      assert k * m == (k - 1) * m + m;
    }
  }

  lemma ShiftedDigitDominates(da: nat, db: nat, ra: nat, rb: nat, m: nat)
    requires da < db && ra < m
    ensures da * m + ra < db * m + rb
  {
    var k := db - da;
    MulAtLeastOnce(k, m);
    assert db * m == da * m + k * m;
  }

  /** Of two digit strings of one length, the one with the smaller first digit is worth less. */
  lemma FirstDigitDecides(a: string, b: string)
    requires AllDigits(a) && AllDigits(b) && |a| == |b| > 0
    requires a[0] < b[0]
    ensures Value(a) < Value(b)
  {
    ValueFront(a);
    ValueFront(b);
    ValueBound(a[1..]);
    ShiftedDigitDominates(DigitValue(a[0]), DigitValue(b[0]), Value(a[1..]), Value(b[1..]), Pow10(|a| - 1));
  }

  /**
   * On digit strings of one length, string order is numeric order: this is why
   * sorting fixed-width IDs as strings finds the numerically greatest one.
   */
  lemma {:induction false} StrLessIsNumericOnEqualWidth(a: string, b: string)
    requires AllDigits(a) && AllDigits(b) && |a| == |b|
    ensures StrLess(a, b) <==> Value(a) < Value(b)
    decreases |a|
  {
    if |a| > 0 {
      if a[0] == b[0] {
        StrLessIsNumericOnEqualWidth(a[1..], b[1..]);
        ValueFront(a);
        ValueFront(b);
      } else if a[0] < b[0] {
        FirstDigitDecides(a, b);
      } else {
        FirstDigitDecides(b, a);
      }
    }
  }

  // ---------------------------------------------------------------------------
  // The regex /\d+$/

  /** The longest run of digits at the end of s: what `s.match(/\d+$/)` captures, empty when it fails. */
  function TrailingDigits(s: string): (d: string)
    ensures AllDigits(d)
    ensures |d| <= |s| && s[|s| - |d|..] == d
    ensures |d| == |s| || !IsDigit(s[|s| - |d| - 1])
  {
    if |s| == 0 || !IsDigit(s[|s| - 1]) then []
    else
      var s' := s[..|s| - 1];
      var d' := TrailingDigits(s');
      assert s[|s| - |d'| - 1..] == d' + [s[|s| - 1]];
      d' + [s[|s| - 1]]
  }

  /** A digit block behind a prefix that does not end in a digit is read back exactly. */
  lemma {:induction false} TrailingDigitsAfterPrefix(p: string, d: string)
    requires |p| == 0 || !IsDigit(p[|p| - 1])
    requires AllDigits(d)
    ensures TrailingDigits(p + d) == d
  {
    if |d| == 0 {
      assert p + d == p;
    } else {
      var d' := d[..|d| - 1];
      assert (p + d)[..|p + d| - 1] == p + d';
      TrailingDigitsAfterPrefix(p, d');
      assert d' + [d[|d| - 1]] == d;
    }
  }

  // ---------------------------------------------------------------------------
  // Number(part) and split(':')

  /** A sign followed by at least one ASCII digit. */
  predicate SignedDigits(t: string) {
    |t| > 1 && (t[0] == '+' || t[0] == '-') && AllDigits(t[1..])
  }

  /**
   * `Number(part)` on one piece of a time string, for the integer forms:
   * surrounding white space is ignored, then the empty string reads as 0, a
   * run of ASCII digits as its decimal value, a signed run as its signed
   * value, anything else as NaN (None).
   */
  function NumberOf(part: string): (r: Option<int>)
    ensures r.None? <==> !AllDigits(Trim(part)) && !SignedDigits(Trim(part))
    ensures AllDigits(Trim(part)) ==> r == Some(Value(Trim(part)))
    ensures SignedDigits(Trim(part)) ==>
      r == Some(if Trim(part)[0] == '-' then -(Value(Trim(part)[1..]) as int) else Value(Trim(part)[1..]) as int)
  {
    var t := Trim(part);
    if AllDigits(t) then Some(Value(t))
    else if SignedDigits(t) then
      var v: int := Value(t[1..]);
      Some(if t[0] == '-' then -v else v)
    else None
  }

  /** A run of digits has no white space to trim. */
  lemma TrimOfDigits(d: string)
    requires AllDigits(d)
    ensures Trim(d) == d
  {
    var r := Trim(d);
    if |d| > 0 {
      assert !IsSpace(d[0]);
      assert LeadingSpaces(d) == 0;
    }
  }

  /** White space around a word with non-space ends is trimmed away exactly. */
  lemma TrimOfPadded(pre: string, t: string, post: string)
    requires forall k | 0 <= k < |pre| :: IsSpace(pre[k])
    requires forall k | 0 <= k < |post| :: IsSpace(post[k])
    requires |t| > 0 && !IsSpace(t[0]) && !IsSpace(t[|t| - 1])
    ensures Trim(pre + t + post) == t
  {
    var s := pre + t + post;
    var n := LeadingSpaces(s);
    assert s[|pre|] == t[0];
    assert n == |pre|;
    var r := Trim(s);
    assert s[|pre| + |t| - 1] == t[|t| - 1];
    assert |r| == |t|;
    assert s[|pre|..|pre| + |t|] == t;
  }

  /** `Number` reads a rendered number back, with or without white space around it. */
  lemma NumberOfDecimal(pre: string, n: nat, post: string)
    requires forall k | 0 <= k < |pre| :: IsSpace(pre[k])
    requires forall k | 0 <= k < |post| :: IsSpace(post[k])
    ensures NumberOf(pre + Decimal(n) + post) == Some(n)
  {
    var d := Decimal(n);
    assert !IsSpace(d[0]) && !IsSpace(d[|d| - 1]);
    TrimOfPadded(pre, d, post);
  }

  /** Digits followed by white space read as the digits' value. */
  lemma NumberOfDigitsThenSpace(d: string, post: string)
    requires AllDigits(d) && |d| > 0
    requires forall k | 0 <= k < |post| :: IsSpace(post[k])
    ensures NumberOf(d + post) == Some(Value(d))
  {
    assert !IsSpace(d[0]) && !IsSpace(d[|d| - 1]);
    TrimOfPadded("", d, post);
    assert "" + d + post == d + post;
  }

  /** A minus sign in front of a rendered number makes it negative. */
  lemma NumberOfNegative(n: nat)
    ensures NumberOf("-" + Decimal(n)) == Some(0 - n as int)
  {
    var t := "-" + Decimal(n);
    assert t[1..] == Decimal(n);
    assert !IsSpace(t[0]) && !IsSpace(t[|t| - 1]);
    TrimOfPadded("", t, "");
    assert "" + t + "" == t;
  }

  function IndexOfChar(s: string, c: char): (i: nat)
    ensures i <= |s|
    ensures i < |s| ==> s[i] == c
    ensures forall j | 0 <= j < i :: s[j] != c
  {
    if |s| == 0 then 0 else if s[0] == c then 0 else 1 + IndexOfChar(s[1..], c)
  }

  /** The first two pieces of `s.split(sep)`; the second is None when s contains no separator. */
  function FirstTwoFields(s: string, sep: char): (r: (string, Option<string>))
    ensures sep !in r.0 && r.0 <= s
    ensures r.1.None? <==> sep !in s
    ensures r.1.Some? ==> sep !in r.1.value && r.0 + [sep] + r.1.value <= s
  {
    var i := IndexOfChar(s, sep);
    if i == |s| then (s, None)
    else
      var rest := s[i + 1..];
      var j := IndexOfChar(rest, sep);
      assert s[..i] + [sep] + rest[..j] == s[..i + 1 + j];
      (s[..i], Some(rest[..j]))
  }

  // ---------------------------------------------------------------------------
  // trim

  /** The white-space characters `trim` strips (the ASCII ones). */
  predicate IsSpace(c: char) {
    c == ' ' || c == '\t' || c == '\n' || c == '\r' || c == '\U{B}' || c == '\U{C}'
  }

  /** How many white-space characters s starts with. */
  function LeadingSpaces(s: string): (n: nat)
    ensures n <= |s|
    ensures forall k | 0 <= k < n :: IsSpace(s[k])
    ensures n == |s| || !IsSpace(s[n])
  {
    if |s| > 0 && IsSpace(s[0]) then 1 + LeadingSpaces(s[1..]) else 0
  }

  function TrimEnd(s: string): (r: string)
    ensures |r| <= |s| && r == s[..|r|]
    ensures forall i | |r| <= i < |s| :: IsSpace(s[i])
    ensures |r| == 0 || !IsSpace(r[|r| - 1])
  {
    if |s| > 0 && IsSpace(s[|s| - 1]) then TrimEnd(s[..|s| - 1]) else s
  }

  /** `s.trim()`: the middle of s between its leading and trailing white space. */
  function Trim(s: string): (r: string)
    ensures LeadingSpaces(s) + |r| <= |s|
    ensures r == s[LeadingSpaces(s)..LeadingSpaces(s) + |r|]
    ensures forall k | LeadingSpaces(s) + |r| <= k < |s| :: IsSpace(s[k])
    ensures |r| == 0 || (!IsSpace(r[0]) && !IsSpace(r[|r| - 1]))
  {
    var i := LeadingSpaces(s);
    var a := s[i..];
    var r := TrimEnd(a);
    assert forall k | i + |r| <= k < |s| :: s[k] == a[k - i];
    r
  }
}
